=== FILE: README.md ===
# Bridge backend core, modelled in Dafny

Bridge is a co-parenting backend: FastAPI routers over a document store. This
project models the following parts of it:

- the in-memory store of `backend/database.py`: documents as dictionaries,
  queries as equality tests on dotted paths combined with `$or`,
  `$set`/`$push` updates, and the cursor sort. The routers call three
  operations this store does not define (`delete_many`, `count_documents`
  and a cursor's `limit`); those are modelled with MongoDB's meaning;
- the custody-calendar generator (`backend/services/calendar_generator.py`),
  which turns a 2-2-3 or week-on/week-off rotation into one custody event per
  day for a year;
- the calendar endpoints (`backend/routers/calendar.py`), backed by two
  insertion-ordered dictionaries of events and change requests;
- the family endpoints (`backend/routers/family.py`): family codes, linking
  the second parent, children, and the keyword reading of an uploaded
  contract;
- the document and folder endpoints (`backend/routers/documents.py`): file
  types, size labels, folder ids, folder counts, listings, and protected
  documents;
- the agreement parser (`backend/services/document_parser.py`): text
  extraction dispatch, the prompt sample, and the regular-expression parser
  used when no language model answers;
- the recent-activity feed (`backend/routers/activity.py`).

Layout:

- **Files.** There is one module per source file: `Store`, `CalendarGenerator`,
  `CalendarRouter`, `FamilyRouter`, `Documents`, `DocumentParser` and
  `Activity`.
- **Shared helpers.** `Wrappers` holds `Option`/`Result`. `Text` holds ASCII
  lowercasing, substring search, `split`/`join`, `replace`, `str(n)` and
  `strip`. `Dates` holds proleptic Gregorian dates and their day numbers.
  `Sorting` is a stable insertion sort, proved ordered and a permutation.
  `Http` holds the HTTP errors.
- **Code that updates state in place** is modelled as classes: `Store.Collection`,
  `CalendarRouter.CalendarStore`, `FamilyRouter.FamilyStore` and
  `Documents.DocumentStore`.
- **Loops in the source** become methods with loop invariants, each proved
  against a specification function: `GetValue`, `FirstIndex`, `UpdateMany`,
  `InsertDays`, `GenerateFamilyCode`, `ExtractFromPdf`, `AppendUpTo`, and others.
- **Inputs from outside.** Anything the handlers obtain from outside is a
  parameter: the clock, uuids, random draws, library outputs, and the
  language model's answer.

## Model

| member | source | states |
|---|---|---|
| Store.GetPathTopLevel | backend/database.py:51-59 | a key without dots reads one level, like `dict.get` |
| Store.LookupConcat | backend/database.py:51-59 | reading along `p + q` is reading `p` then `q`; a missing segment anywhere gives `None` |
| Store.GetValue | backend/database.py:51-59 | the segment loop of `_get_value` yields exactly the dotted-path lookup |
| Store.SetPath | backend/database.py:61-69 | writing a path keeps every existing key and leaves all other top-level keys unchanged |
| Store.SetValue | backend/database.py:61-69 | `_set_value` never removes a key |
| Store.LookupAfterSetPath | backend/database.py:61-69 | reading back the path just written gives the written value, even through non-dict intermediates |
| Store.GetAfterSet | backend/database.py:51-69 | `_get_value(_set_value(doc, k, v), k) == v` |
| Store.SetPathFrame | backend/database.py:61-69 | writing one path leaves every path under another first segment unchanged |
| Store.MatchesConjunction | backend/database.py:71-86 | the keys of a query are conjunctive; an empty query matches everything |
| Store.ConjunctionIntro | backend/database.py:75-86 | matching both parts gives a match of the combined query |
| Store.ConjunctionElim | backend/database.py:75-86 | a match of the combined query matches each part |
| Store.MatchesTopLevel | backend/database.py:71-86 | a document holding the queried top-level values matches |
| Store.MatchesAnyOf | backend/database.py:76-79 | `$or` holds iff one alternative matches; an empty `$or` never holds |
| Store.MatchesObjectId | backend/database.py:44-48 | an ObjectId and its hex string compare equal, in both directions |
| Store.WhereConcat | backend/database.py:102-104 | a selection over a concatenation is the concatenation of the selections |
| Store.WhereMembers | backend/database.py:102-104 | exactly the documents with the given match outcome are selected |
| Store.WhereIdempotent | backend/database.py:102-104 | selecting twice is selecting once |
| Store.WhereNoneRejected | backend/database.py:102-104 | a list of matching documents has nothing to reject and is selected whole |
| Store.WhereRejectedStayRejected | backend/database.py:102-104 | no document rejected by a query matches it when selected again |
| Store.WhereSizes | backend/database.py:102-104 | matching and non-matching documents partition the list |
| Store.FirstMatch | backend/database.py:96-100 | the index of the first match, no earlier match; `None` only when nothing matches |
| Store.RemoveFirstAt | backend/database.py:142-147 | `list.remove(x)` drops `x` at its first index and keeps the rest in order |
| Store.RemoveFirstMatch | backend/database.py:142-147 | removing the first match by equality removes it at its own index |
| Store.ApplySets | backend/database.py:113-116 | the `$set` pairs never remove a key |
| Store.PushOne | backend/database.py:118-124 | a `$push` never removes a key |
| Store.ApplyPushes | backend/database.py:118-125 | the `$push` pairs never remove a key |
| Store.PushOneResult | backend/database.py:118-124 | a push onto a missing key creates `[v]`; onto a list it appends `v`; onto anything else it raises |
| Store.SetAll | backend/database.py:113-116 | the `$set` loop computes the pairs applied in order |
| Store.PushAll | backend/database.py:118-125 | the `$push` loop stops where Python raises and otherwise applies every pair |
| Store.PushesStopAtFailure | backend/database.py:118-125 | after a failed push, later pairs change nothing |
| Store.Stamp | backend/database.py:88-94 | `_id` is set and the other keys are kept; an `_id` already present is kept; otherwise it is `str(counter)` |
| Store.StrLeTotal | backend/database.py:19-29 | string comparison is total |
| Store.StrLeTrans | backend/database.py:19-29 | string comparison is transitive |
| Store.StrLeAntisymmetric | backend/database.py:19-29 | strings that are `<=` each other both ways are equal |
| Store.KeyCmpFlip | backend/database.py:19-29 | swapping two sort keys flips their comparison, for numbers, strings, datetimes, ObjectIds and lists alike |
| Store.ListCmpFlip | backend/database.py:19-29 | swapping two lists flips their element-by-element comparison |
| Store.KeyCmpTrans | backend/database.py:19-29 | the key comparison is transitive, and ties only through ties |
| Store.ListCmpTrans | backend/database.py:19-29 | the element-by-element list comparison is transitive, and ties only through ties |
| Store.ListOrder | backend/database.py:19-29 | a list sorts no later than a list that extends it; otherwise the first differing pair of elements decides, as Python compares lists |
| Store.KeyLeTotal | backend/database.py:19-29 | the sort-key comparison is total |
| Store.KeyLeTrans | backend/database.py:19-29 | the sort-key comparison is transitive |
| Store.DocLePreorder | backend/database.py:19-29 | ascending and descending document orders are total preorders |
| Store.Cursor.Sort | backend/database.py:19-29 | the sorted cursor is a permutation, ordered by the key ascending, or descending for direction -1; falsy keys count as `""`, lists compare element by element |
| Store.SortStable | backend/database.py:28-29 | in both directions, documents whose keys tie keep the order `find` gave them, as `sorted(..., reverse=True)` does |
| Store.Collection.constructor | backend/database.py:40-42 | an empty collection whose counter starts at 1 |
| Store.Collection.InsertOne | backend/database.py:88-94 | appends the stamped copy; the counter advances only when `_id` was missing; returns the stored `_id` |
| Store.Collection.FirstIndex | backend/database.py:96-100 | the scan finds the first match |
| Store.Collection.FindOne | backend/database.py:96-100 | returns a document iff one matches, and then the first one |
| Store.Collection.Find | backend/database.py:102-104 | every match, in insertion order |
| Store.Collection.CountDocuments | backend/routers/documents.py:366-369 | MongoDB's `count_documents`: the number of matches |
| Store.Collection.UpdateOne | backend/database.py:106-127 | no match gives 0/0 and no change; otherwise only the first match is replaced by its updated form, with matched 1 and modified 1 iff the update has `$set` or `$push` |
| Store.Collection.UpdateMany | backend/database.py:129-140 | `$set` on every match and nothing else; matched is the match count; modified is that count only when `$set` is present |
| Store.Collection.DeleteOne | backend/database.py:142-147 | removes the first match and reports 1, or changes nothing and reports 0 |
| Store.Collection.DeleteMany | backend/services/calendar_generator.py:21 | MongoDB's `delete_many`: removes every match, keeps the rest in order, and reports how many were removed |
| Sorting.InsertPermutes | backend/database.py:28 | inserting adds exactly one element |
| Sorting.InsertSorted | backend/database.py:28 | inserting into an ordered list keeps it ordered |
| Sorting.SortPermutes | backend/database.py:28 | `sorted` only reorders |
| Sorting.SortSorted | backend/database.py:28 | `sorted` under a total preorder yields an ordered list |
| Sorting.InsertTied | backend/database.py:28 | an inserted element goes ahead of every element it ties with |
| Sorting.SortStable | backend/database.py:28 | `sorted` is stable: the elements that tie with any given one keep their relative order |
| Text.SplitJoin | backend/database.py:52 | joining the pieces of a split gives the text back |
| Text.SplitPiecesClean | backend/database.py:52 | no piece of a split contains the separator |
| Text.JoinSplit | backend/database.py:52 | pieces without separators are split back out of their join |
| Text.SplitAroundSep | backend/database.py:52 | splitting at a separator splits each side separately |
| Text.SplitWithoutSep | backend/database.py:52 | text without the separator splits into itself alone |
| Text.LastPiece | backend/routers/documents.py:79 | the text after the last separator contains no separator |
| Text.LastPieceAfterSep | backend/routers/documents.py:79 | the last piece of `a + sep + b` is `b` when `b` has no separator |
| Text.LowerContainsCaseless | backend/services/calendar_generator.py:35 | lowercasing cannot create an occurrence of a word that has no lowercase letters |
| Text.LowerIdentity | backend/routers/documents.py:215 | text without capitals lowercases to itself |
| Text.LowerHasNoCapitals | backend/routers/documents.py:215 | lowercased text has no capitals |
| Text.ReplaceCharAbsent | backend/routers/documents.py:215 | replacing a character that does not occur changes nothing |
| Text.ReplaceCharMembers | backend/routers/documents.py:215 | each character of the result is kept or comes from the replacement |
| Text.ReplaceCharRemoves | backend/routers/documents.py:215 | after replacement the replaced character no longer occurs |
| Text.ReplaceCharConcat | backend/services/document_parser.py:73 | replacement works piece by piece over a concatenation |
| Text.LowerConcat | backend/services/document_parser.py:73 | lowercasing works piece by piece over a concatenation |
| Text.DecimalString | backend/database.py:91 | `str(n)` is a non-empty string of digits |
| Text.DecimalStringInjective | backend/database.py:91 | different counters give different `_id`s |
| Text.DecimalPrefix | backend/database.py:91 | a number followed by a non-digit is read back uniquely |
| Dates.NewYear | backend/services/calendar_generator.py:25 | January 1st of the year is a valid date no later than the given day |
| Dates.DaysBeforeYearStep | backend/services/calendar_generator.py:55 | one more year adds 365 days, or 366 in a leap year |
| Dates.DaysInYear | backend/services/calendar_generator.py:55 | the months of a year add up to 365 or 366 days |
| Dates.NextDayOrdinal | backend/services/calendar_generator.py:67 | `+ timedelta(days=1)` advances the day number by exactly one, up to 9999-12-31 |
| Dates.NextMonthOrdinal | backend/services/calendar_generator.py:67 | the last day of a month is followed by the 1st of the next |
| Dates.NextYearOrdinal | backend/services/calendar_generator.py:67 | December 31st is followed by January 1st of the next year |
| CalendarGenerator.Pattern223 | backend/services/calendar_generator.py:42-49 | the 2-2-3 table has 14 days |
| CalendarGenerator.OwnerByDay | backend/services/calendar_generator.py:53-87 | the owner is parent 1 on parent 1's days and parent 2 on all others |
| CalendarGenerator.OwnerIsParent | backend/services/calendar_generator.py:53-87 | custody always goes to one of the two parents |
| CalendarGenerator.ParentOneAlternates | backend/services/calendar_generator.py:36-77 | in both rotations, the other parent has custody seven days later |
| CalendarGenerator.TableAlternates | backend/services/calendar_generator.py:36-49 | the second week of the 2-2-3 table is the first week with the parents swapped |
| CalendarGenerator.WeeksAlternate | backend/services/calendar_generator.py:75-77 | even and odd week numbers alternate every seven days |
| CalendarGenerator.OwnerShift | backend/services/calendar_generator.py:53-87 | the owner repeats after 14 days |
| CalendarGenerator.OwnerFortnightly | backend/services/calendar_generator.py:53-87 | the day-to-owner map repeats every 14 days |
| CalendarGenerator.RepeatsEveryFortnight | backend/services/calendar_generator.py:51-56 | a 14-day-periodic map repeats after any number of fortnights |
| CalendarGenerator.OwnerPeriodic | backend/services/calendar_generator.py:51-56 | the owner of a day is the owner of the same day any number of fortnights later |
| CalendarGenerator.CountDaysConcat | backend/services/calendar_generator.py:53-87 | counting over consecutive ranges adds up |
| CalendarGenerator.CountDaysMirror | backend/services/calendar_generator.py:53-87 | a pattern flipping weekly is true on one of each pair of days a week apart |
| CalendarGenerator.Fortnight | backend/services/calendar_generator.py:53-87 | a weekly-flipping pattern holds on exactly 7 of any 14 consecutive days |
| CalendarGenerator.FortnightAfter | backend/services/calendar_generator.py:53-87 | 14 more days add 7 to the count |
| CalendarGenerator.CountDaysHalf | backend/services/calendar_generator.py:53-87 | a weekly-flipping pattern holds on exactly half of any `14 * m` consecutive days |
| CalendarGenerator.CalendarFlips | backend/services/calendar_generator.py:36-77 | both rotations flip the custodian weekly |
| CalendarGenerator.EqualShare | backend/services/calendar_generator.py:34-77 | in any `14 * m` consecutive days, each parent has custody for exactly `7 * m` days, under both rotations |
| CalendarGenerator.ScheduleRotationChoice | backend/services/calendar_generator.py:32-35 | 2-2-3 is chosen iff "2-2-3" appears anywhere in the agreement; a non-text schedule raises |
| CalendarGenerator.StampedStep | backend/services/calendar_generator.py:53-67 | one more day appends exactly one more stamped event |
| CalendarGenerator.InsertDays | backend/services/calendar_generator.py:27-87 | the daily loop appends the 366 events from today through today + 365, numbered consecutively, each owned per the rotation counted from January 1st |
| CalendarGenerator.GenerateCustodyEvents | backend/services/calendar_generator.py:5-87 | no family or a missing parent changes nothing; otherwise the family's custody events are deleted first, then 366 new ones are appended, or none when the schedule is not text |
| CalendarGenerator.StampedEventAt | backend/services/calendar_generator.py:53-67 | the k-th stored event is day k's event for its owner, stamped with the k-th number |
| CalendarGenerator.StampedEvent | backend/services/calendar_generator.py:59-66 | a stored event has exactly the `Event` fields plus `_id`: family, type "custody", title "Custody", the date at midnight, the owner, and `str(counter)` as `_id` |
| CalendarGenerator.EventFields | backend/services/calendar_generator.py:59-66 | the dumped event has the seven `Event` fields and no `_id` |
| CalendarGenerator.StampedEventMatches | backend/services/calendar_generator.py:21 | every stored custody event matches its family's delete query |
| CalendarGenerator.CustodyMatch | backend/services/calendar_generator.py:21 | a document of the family with type "custody" matches the delete query |
| CalendarGenerator.AllGeneratedMatch | backend/services/calendar_generator.py:21-87 | every generated event matches the custody query of its family |
| CalendarGenerator.RegenerationReplaces | backend/services/calendar_generator.py:20-87 | regenerating replaces the previous custody events instead of accumulating them: afterwards the family's custody events are exactly the new ones, and its other events exactly those kept |
| CalendarGenerator.OneEventPerDay | backend/services/calendar_generator.py:20-87 | after a run the family's custody events are dated on consecutive days, one per date: no two share a date |
| CalendarGenerator.GeneratedDated | backend/services/calendar_generator.py:53-67 | the k-th generated event is dated at midnight of day `start + k` |
| CalendarGenerator.DatedFromDistinct | backend/services/calendar_generator.py:53-67 | events dated on consecutive days have pairwise different dates |
| CalendarGenerator.EventDate | backend/services/calendar_generator.py:59-66 | a stored custody event is dated at midnight of its day |
| CalendarGenerator.RegenerationIdempotent | backend/services/calendar_generator.py:5-87 | running the generator twice with the same inputs is running it once: the same other events, and custody events equal key for key except the `_id`s the store hands out |
| CalendarGenerator.SameButIdsConcat | backend/services/calendar_generator.py:21-87 | keeping the same events in front preserves agreement up to `_id`s |
| CalendarGenerator.EventsUnstamped | backend/services/calendar_generator.py:59-66 | the dumped events carry no `_id`, so the store numbers each one |
| CalendarGenerator.RestampedAgree | backend/database.py:88-94 | numbering the same documents from two counters differs only in `_id` |
| CalendarGenerator.UnstampedEvent | backend/database.py:88-94 | stamping a document without `_id` adds `_id` and changes nothing else |
| CalendarGenerator.OthersUntouched | backend/services/calendar_generator.py:21 | an event survives the clearing iff it is not a custody event of this family |
| CalendarRouter.Dict.Put | backend/routers/calendar.py:59 | assignment sets the entry for the key |
| CalendarRouter.EmptyDict | backend/routers/calendar.py:12-13 | the empty dictionary is well formed and lists no values |
| CalendarRouter.PutValid | backend/routers/calendar.py:59 | assignment keeps keys unique; a new key's value goes last; for an existing key the key order is unchanged and only that key's slot of `values()` takes the new value |
| CalendarRouter.ValuesComplete | backend/routers/calendar.py:138 | `values()` lists every entry and nothing else |
| CalendarRouter.InMonthMembers | backend/routers/calendar.py:27-31 | an event is listed iff it is stored and dated in that year and month |
| CalendarRouter.InMonthAppend | backend/routers/calendar.py:28-31 | the month filter distributes over appending one event |
| CalendarRouter.ChangeRequestsAsWrittenFail | backend/routers/calendar.py:81-121 | as written, creating a change request always raises, and approving a stored one would raise too; only a rejection goes through |
| CalendarRouter.NewRequest | backend/routers/calendar.py:80-89 | the intended request is pending, for the given event, carrying its `newDate`, by the placeholder user |
| CalendarRouter.Resolve | backend/routers/calendar.py:119-123 | only an approval of a request with a `newDate` moves the event, and only an event still stored; every other event is unchanged |
| CalendarRouter.CalendarStore.constructor | backend/routers/calendar.py:12-13 | both dictionaries start empty |
| CalendarRouter.CalendarStore.GetCalendarEvents | backend/routers/calendar.py:15-33 | exactly the stored events of that year and month, in insertion order |
| CalendarRouter.CalendarStore.CreateCalendarEvent | backend/routers/calendar.py:35-60 | stores the event under the fresh id, for the placeholder family, and returns it; change requests are untouched |
| CalendarRouter.CalendarStore.CreateChangeRequest | backend/routers/calendar.py:62-92 | an unknown event gives 404 and no change; otherwise the pending request is stored under the fresh id |
| CalendarRouter.CalendarStore.UpdateChangeRequest | backend/routers/calendar.py:94-126 | an unknown id gives 404 and an invalid status gives 400, both without change; otherwise the status is recorded in place and an approval moves the event |
| CalendarRouter.CalendarStore.GetChangeRequests | backend/routers/calendar.py:128-138 | every stored request once, in insertion order |
| FamilyRouter.CodeAlphabetExact | backend/routers/family.py:19-20 | the alphabet is exactly the capitals and digits other than 0, O, I, L and 1 |
| FamilyRouter.Spell | backend/routers/family.py:21 | a draw spells a six-character code over that alphabet |
| FamilyRouter.FirstUnusedCodeSound | backend/routers/family.py:16-25 | a generated code is well formed and unused; with no code generated, every draw was taken |
| FamilyRouter.GenerateFamilyCode | backend/routers/family.py:16-25 | the retry loop returns the first drawn code no family uses |
| FamilyRouter.CallerFamily | backend/routers/family.py:31 | the first family naming the caller as either parent; `None` only when there is none |
| FamilyRouter.FamilyWithCode | backend/routers/family.py:60 | the first family with the code; `None` iff the code is unused |
| FamilyRouter.FirstChild | backend/routers/family.py:140-144 | the first child with the id; `None` only when there is none |
| FamilyRouter.FindChild | backend/routers/family.py:140-144 | the search loop finds that first child |
| FamilyRouter.Pick | backend/routers/family.py:129-132 | a sent field replaces the stored one; an unsent field keeps it |
| FamilyRouter.ApplyChildUpdate | backend/routers/family.py:129-132 | each of the seven fields (name, date of birth, grade, school, allergies, medications, notes) takes the sent value when sent and keeps its own otherwise; the id never changes; an empty update changes nothing |
| FamilyRouter.ChildUpdateIdempotent | backend/routers/family.py:129-132 | applying the same update twice changes nothing more |
| FamilyRouter.UpdateChildQueryNeverMatches | backend/routers/family.py:130-136 | with the in-memory store, the `children.id` query never matches a family whose children are a list |
| FamilyRouter.ChildrenIdPath | backend/routers/family.py:131 | the key `children.id` has the two segments `children` and `id` |
| FamilyRouter.ParseContract | backend/routers/family.py:166-223 | an equal-time phrase gives the split 50-50 with shares 50/50; otherwise "primary" and "secondary" give 60-40 with shares 60/40; otherwise the split is "custom" with shares 50/50; the ratio is 50-50 or 60-40 exactly in those cases; the holiday and decision texts are the fixed ones; at most three terms |
| FamilyRouter.TermsDistinct | backend/routers/family.py:185-215 | the four reported terms are distinct |
| FamilyRouter.ContractTermsReported | backend/routers/family.py:183-215 | the equal-time split term is reported iff an equal-time phrase occurs; the primary/secondary term iff "primary" and "secondary" occur without one; joint legal custody and alternating holidays exactly when their keywords occur |
| FamilyRouter.LowerIdempotent | backend/routers/family.py:181 | lowercasing twice is lowercasing once |
| FamilyRouter.ParseContractIgnoresCase | backend/routers/family.py:181 | the reading ignores letter case |
| FamilyRouter.FamilyStore.constructor | backend/database.py:40-42 | no families at first |
| FamilyRouter.FamilyStore.CreateFamily | backend/routers/family.py:27-49 | a caller who is already a parent gets 400 and no change; otherwise a family with an unused code is appended, with the caller as parent 1 and no children |
| FamilyRouter.FamilyStore.LinkToFamily | backend/routers/family.py:51-81 | refusals come in order (already a parent 400, unknown code 404, second parent present 400); otherwise only that family gains parent 2 |
| FamilyRouter.FamilyStore.AddChild | backend/routers/family.py:92-117 | no family gives 404; otherwise the new child, with the fresh id, is appended to the caller's family only |
| FamilyRouter.FamilyStore.UpdateChild | backend/routers/family.py:119-144 | no family or no such child gives 404; otherwise only that child's sent fields change, and it is returned |
| FamilyRouter.FamilyStore.UploadContract | backend/routers/family.py:225-264 | no family gives 404; undecodable content gives 400 with the decoder's message; otherwise the parsed agreement is stored on the caller's family only |
| FamilyRouter.AppendKeepsCodesUnique | backend/routers/family.py:24-48 | appending a family with an unused code keeps codes unique |
| Documents.FileType | backend/routers/documents.py:103-115 | one of five types; a name without '.' is "other" |
| Documents.FileTypeOfExtension | backend/routers/documents.py:103-115 | the type is decided by the extension alone, whatever its case |
| Documents.StoredFileKeepsType | backend/routers/documents.py:72-90 | the stored file keeps the upload's type, a name without extension becomes pdf, and the URL is under the files prefix |
| Documents.SizeUnitBounds | backend/routers/documents.py:92-101 | the unit chosen is the largest one the size reaches; bytes are printed exactly |
| Documents.SizeUnitMonotone | backend/routers/documents.py:92-101 | a larger file never gets a smaller unit |
| Documents.SlugClean | backend/routers/documents.py:215 | a folder id has no space, no '&' and no capital |
| Documents.SlugIdempotent | backend/routers/documents.py:215 | slugging a folder id gives it back |
| Documents.CountOfKindsUnion | backend/routers/documents.py:146-150 | counts over disjoint type lists add up |
| Documents.DefaultCount | backend/routers/documents.py:146-150 | the "memories" special case counts the same as the general rule |
| Documents.DefaultCountsPartition | backend/routers/documents.py:18-70 | the default folders' counts add up to the documents of any default type |
| Documents.FindFolder | backend/routers/documents.py:282-285 | the first folder of the family with the id; `None` only when there is none |
| Documents.FindDocument | backend/routers/documents.py:652-657 | the first document with the id; `None` only when there is none |
| Documents.FindFamilyDocument | backend/routers/documents.py:594-600 | the first document of the family with the id; `None` only when there is none |
| Documents.NewestFirstPreorder | backend/routers/documents.py:431 | newest-first is a total preorder |
| Documents.DefaultFolderListingAsWritten | backend/routers/documents.py:416-418 | a court order is counted in "legal" but not listed there by the in-memory matcher |
| Documents.ListingAgreesWithCount | backend/routers/documents.py:146-150 | a default folder lists exactly as many documents as it counts |
| Documents.CustomListingAgreesWithCount | backend/routers/documents.py:166-171 | a custom folder lists exactly as many documents as it counts |
| Documents.SelectAppend | backend/routers/documents.py:431 | selection distributes over appending one document |
| Documents.SelectMembers | backend/routers/documents.py:409-431 | a document is listed iff it belongs to the family and to the folder |
| Documents.Placement | backend/routers/documents.py:497-514 | a custom folder files the upload as "custom" under its category; otherwise the given type with no category |
| Documents.Protection | backend/routers/documents.py:516-523 | exactly custody agreements and court orders are protected, and exactly they carry a reason |
| Documents.ProtectionMessage | backend/routers/documents.py:605-611 | the refusal opens with "This document is protected and cannot be deleted. " followed by the stored reason, or by "It contains critical legal information." when none or an empty one is stored |
| Documents.ProtectionMessageNamesType | backend/routers/documents.py:516-523 | a document protected on upload is refused with the reason of its type, never the general one |
| Documents.Overwrite | backend/routers/documents.py:292-301 | only a non-empty value replaces a field |
| Documents.UpdatedFolder | backend/routers/documents.py:290-306 | name, description, icon, color and bg_color each take the sent value when it is non-empty and keep the old one otherwise; id, family, category, creation data and the store id never change; `updated_at` is stamped |
| Documents.UpdatedFolderIdempotent | backend/routers/documents.py:290-306 | sending the same update again changes only the update time |
| Documents.CustomUploadsDeletable | backend/routers/documents.py:507-519 | a document uploaded into a custom folder is never protected |
| Documents.DocumentStore.constructor | backend/database.py:40-42 | no folders and no documents at first |
| Documents.CustomView | backend/routers/documents.py:166-184 | a custom folder is listed under its id, or under its `_id` when the id is empty, with the count of its category |
| Documents.DocumentStore.GetFolders | backend/routers/documents.py:117-186 | no family gives 404; otherwise the five default folders, then the family's custom folders, with their counts |
| Documents.DocumentStore.CreateFolder | backend/routers/documents.py:196-254 | no family gives 404; a taken name or id gives 400; otherwise the folder is appended with its slug as id and category, and the store's `_id` |
| Documents.DocumentStore.UpdateFolder | backend/routers/documents.py:262-329 | no family or folder gives 404; otherwise only that folder takes the non-empty fields |
| Documents.DocumentStore.DeleteFolder | backend/routers/documents.py:337-383 | no family or folder gives 404; documents in the folder give 400 with the message naming their count; otherwise only that folder is removed |
| Documents.FolderNotEmptyNamesCount | backend/routers/documents.py:373-376 | the refusal names the count: different counts give different messages |
| Documents.CountReadBack | backend/routers/documents.py:373-376 | a count between fixed texts is read back uniquely |
| Documents.DocumentStore.GetDocuments | backend/routers/documents.py:391-452 | no family gives 404; an unknown folder gives 404; otherwise the selected documents, newest first |
| Documents.DocumentStore.UploadDocument | backend/routers/documents.py:462-565 | no family gives 404; a failed decode or write gives 500 with no change; otherwise the document is appended with its placement, protection, type and size |
| Documents.DocumentStore.DeleteDocument | backend/routers/documents.py:575-633 | no family or document gives 404; a protected document gives 403 with exactly `ProtectionMessage` of its stored reason; otherwise the first stored document with that id, in any family, is removed, since the `delete_one` query is not scoped to the family |
| Documents.DefaultFolderNamed | backend/routers/documents.py:414 | the default folder with that id, or `None` when no default folder has it |
| Documents.SlugCollisionAsWritten | backend/routers/documents.py:215-224 | as written, "Tax" and then "tax" both pass the duplicate test and share the id "tax" |
| Documents.CreateKeepsIdsUnique | backend/routers/documents.py:215-241 | with the test extended to ids, folder ids stay unique within a family |
| DocumentParser.NoTwoTwoThree | backend/services/document_parser.py:276 | text mentioning neither "2" nor "two" never reads as 2-2-3 |
| DocumentParser.ParsePatterns | backend/services/document_parser.py:215-281 | each field follows its patterns in the source's order: split, decision (sole iff no joint phrase but a sole one, joint otherwise), holidays, schedule with 2-2-3 first; the shares sum to 100 |
| DocumentParser.ParsePatternsTerms | backend/services/document_parser.py:235-271 | one term per test that matched, at most three; with no pattern matching, the default record |
| DocumentParser.DigitsMatch | backend/services/document_parser.py:276 | "2-2-3" matches the digit pattern |
| DocumentParser.AlternateWeekMatch | backend/services/document_parser.py:278 | "alternat…week" within one line matches |
| DocumentParser.HolidayMatch | backend/services/document_parser.py:265 | "alternat…holiday" within one line matches |
| DocumentParser.JointLegalMatch | backend/services/document_parser.py:254 | "joint", whitespace, "legal", whitespace, "custody" matches |
| DocumentParser.EqualSlashMatch | backend/services/document_parser.py:236 | "50", optional whitespace, "/" or "-", optional whitespace, "50" matches |
| DocumentParser.JointFound | backend/services/document_parser.py:254 | joint legal custody is found anywhere in a text |
| DocumentParser.EqualSplitFound | backend/services/document_parser.py:236 | a 50/50 phrase is found anywhere in a text |
| DocumentParser.TwoTwoThreeFound | backend/services/document_parser.py:276 | "2-2-3" is found anywhere in a text |
| DocumentParser.PrimaryCustodyMatch | backend/services/document_parser.py:244 | "primary", a run of whitespace and "custody" match `primary\s+custody` |
| DocumentParser.PrimaryFound | backend/services/document_parser.py:244 | "primary custody" is found anywhere in a text, with no "secondary" on the same line needed |
| DocumentParser.NoEqualSplit | backend/services/document_parser.py:236 | text mentioning none of "50", "equal" and "fifty" never reads as an equal split |
| DocumentParser.PrimaryCustodyReading | backend/services/document_parser.py:236-250 | a text whose lowercase form mentions "primary custody" and no equal split reads as primary-secondary with a 60-40 split |
| DocumentParser.HolidayFound | backend/services/document_parser.py:265 | alternating holidays are found anywhere in a text |
| DocumentParser.WeekFound | backend/services/document_parser.py:278 | alternating weeks are found anywhere in a text |
| DocumentParser.NormalizeType | backend/services/document_parser.py:73 | the normalised type has no '.' and no capitals, and is no longer than the given type |
| DocumentParser.NormalizeTypeConcat | backend/services/document_parser.py:73 | normalising a concatenation normalises each part |
| DocumentParser.NormalizeTypeChar | backend/services/document_parser.py:73 | a single '.' normalises to nothing and any other character to its lowercase form; with NormalizeTypeConcat this fixes the value on every input |
| DocumentParser.NormalizeTypeFixed | backend/services/document_parser.py:73 | a type already lowercase and without dots is kept as it is |
| DocumentParser.NormalizeTypeExamples | backend/services/document_parser.py:73 | ".PDF" normalises to "pdf" and "Docx" to "docx" |
| DocumentParser.NonEmptyPages | backend/services/document_parser.py:93-96 | only pages with text are kept |
| DocumentParser.NonEmptyPagesAppend | backend/services/document_parser.py:93-96 | keeping pages distributes over one more page |
| DocumentParser.PdfText | backend/services/document_parser.py:88-103 | a library failure is wrapped; the non-empty pages joined by blank lines are returned exactly when they hold at least 50 non-blank characters; anything shorter is refused |
| DocumentParser.ExtractFromPdf | backend/services/document_parser.py:88-103 | the page loop computes that result |
| DocumentParser.DocxText | backend/services/document_parser.py:105-115 | the paragraphs joined by newlines are returned exactly when they hold at least 50 non-blank characters; every failure, including too-short text, comes back wrapped |
| DocumentParser.ExtractText | backend/services/document_parser.py:62-86 | only pdf, doc, docx and txt succeed; other types are refused with the listed message; txt is the decoded text; pdf is `PdfText` of the library's output when pdfplumber is installed and the "PDF support not available" error otherwise; doc and docx are `DocxText` when python-docx is installed and the "DOCX support not available" error otherwise; pdf and docx successes hold at least 50 non-blank characters |
| DocumentParser.PromptSample | backend/services/document_parser.py:136 | a prefix of the text of at most 8000 characters, the whole text when shorter |
| DocumentParser.ParseWithAi | backend/services/document_parser.py:117-131 | the model's answer when there is one, otherwise the pattern parser |
| DocumentParser.ParseDocument | backend/services/document_parser.py:283-300 | an extraction failure is passed on; otherwise the text is parsed; a txt upload without a model answer is the pattern reading of its text |
| Activity.AgoWindow | backend/routers/activity.py:275-291 | every non-negative elapsed time gets a label whose window contains it |
| Activity.AgoUnique | backend/routers/activity.py:275-291 | the windows do not overlap: a time inside a label's window gets that label |
| Activity.FutureStampReadsAsADayOlder | backend/routers/activity.py:263-291 | a stamp up to a day in the future reads as hours, minutes or "Just now" of the previous day |
| Activity.Unit | backend/routers/activity.py:280-291 | every numeric label has a unit starting with a space |
| Activity.Spell | backend/routers/activity.py:276-291 | a label's text starts with a digit iff it is numeric |
| Activity.SpellInjective | backend/routers/activity.py:276-291 | different labels read differently |
| Activity.UnitDetermines | backend/routers/activity.py:280-291 | a numeric label is fixed by its count and unit |
| Activity.RelativeTime | backend/routers/activity.py:258-294 | the text is "Recently" exactly when there is no stamp |
| Activity.Preview | backend/routers/activity.py:183-184 | a message of at most 50 characters is shown whole; a longer one as its first 50 characters followed by "..." |
| Activity.PreviewIdempotent | backend/routers/activity.py:184 | previewing a preview changes nothing |
| Activity.PreviewUnchanged | backend/routers/activity.py:184 | a message is shown whole exactly when it is short enough |
| Activity.ViewerOf | backend/routers/activity.py:28-31 | the caller is parent 1 iff the family's first email is theirs; without parent 2 there is no second name |
| Activity.NameOf | backend/routers/activity.py:83 | the caller's own name for their own email, the partner's name otherwise |
| Activity.EventEntry | backend/routers/activity.py:50-122 | an event contributes an entry iff it has an approval or was created or changed within the window; never action-required |
| Activity.RequestEntry | backend/routers/activity.py:131-156 | every pending request from the partner asks for action, in red |
| Activity.MessageEntry | backend/routers/activity.py:168-194 | a conversation contributes iff it has a last message, previewed and not action-required |
| Activity.ExpenseEntry | backend/routers/activity.py:206-244 | a recent expense asks for action iff it is pending from the partner; it is shown as approved iff it was approved within the window |
| Activity.CollectConcat | backend/routers/activity.py:50-244 | collecting over concatenated rows concatenates the entries |
| Activity.CollectMembers | backend/routers/activity.py:50-244 | every collected entry comes from some row |
| Activity.Take | backend/routers/activity.py:160 | `xs[:n]` is the first `min(n, len)` elements |
| Activity.TakeBeyond | backend/routers/activity.py:131-133 | once the category is full, more rows add nothing |
| Activity.TakeTake | backend/routers/activity.py:158-160 | cutting twice cuts once |
| Activity.AppendUpTo | backend/routers/activity.py:50-52 | the loop with its early `break` keeps the first two entries the rows contribute |
| Activity.NewestFirstPreorder | backend/routers/activity.py:159 | newest-first is a total preorder |
| Activity.CategoryFirstCandidates | backend/routers/activity.py:158-160 | a category holds exactly its first two candidates, newest first |
| Activity.FeedShape | backend/routers/activity.py:250-254 | the feed holds exactly the categories' entries, at most six, newest first |
| Activity.ActionRequiredOnlyWhenPending | backend/routers/activity.py:131-229 | only pending change requests and pending expenses from the partner ask for action |
| Activity.FamilyOf | backend/routers/activity.py:17-23 | the caller's family names them as a parent; `None` only when none does |
| Activity.LabelledNeverRecently | backend/routers/activity.py:256-294 | every entry has a stamp, so none reads "Recently" |
| Activity.Label | backend/routers/activity.py:256-294 | the final loop labels every entry with its relative time |
| Activity.CalendarCategory | backend/routers/activity.py:40-160 | the calendar entries come from events, then pending requests, cut to two, newest first |
| Activity.SingleCategory | backend/routers/activity.py:162-198 | one category fed by one query, cut to two, newest first |
| Activity.GetRecentActivity | backend/routers/activity.py:12-297 | the 404 is returned exactly when the caller has no family; a caller with a family always gets the labelled feed |

## Left out

- **Database backends.** The MongoDB branch of `backend/database.py` is not modelled. The in-memory store is modelled, except for the operations named in the next two entries.
- Store.Collection.DeleteMany, Store.Collection.CountDocuments: `InMemoryCollection` defines neither `delete_many` (called at calendar_generator.py:21) nor `count_documents` (documents.py:366). Against the in-memory store those calls raise `AttributeError`. The model gives them MongoDB's every-match meaning instead.
- **Cursor `limit`.** `InMemoryCursor` has no `limit`, so the `.limit(n)` calls of the activity feed raise against the in-memory store. The feed's query rows are inputs to the model, as if limited as MongoDB would limit them.
- **Python equality and aliasing in the store.**
  - Python's `True == 1` is not modelled.
  - `_set_value` updates nested dictionaries in place, so shared sub-dictionaries alias. The model updates values and does not capture this aliasing.
- Store.Cursor.Sort: two dict keys, which Python refuses to order, tie instead of raising. Keys of different kinds are ranked in a fixed order instead of raising. Lists are compared element by element, as in Python.
- **Copies.** `deepcopy` on insert is modelled by value semantics.
- **External inputs.** The clock, `uuid4`, `random.choice` and base64 decoding are parameters. So are the PDF and DOCX libraries' outputs, whether the libraries are installed, the UTF-8 decoding of a text file, and the language model's answer.
  - `FamilyRouter.GenerateFamilyCode` takes its random draws as a finite list. When every draw is taken it gives up, where the source would keep drawing forever.
- **Not modelled at all.**
  - The prompt text of `_build_parsing_prompt`; only the text sample it embeds is modelled.
  - The OpenAI request itself and the JSON clean-up of its answer.
  - The API-key selection in `DocumentParser.__init__`.
  - Confidence scores, which are floats.
- **Text and numbers.**
  - Lowercasing covers ASCII letters only.
  - Size labels record the unit and the bytes; the float `.1f` text is not produced.
  - Expense amounts are whole cents.
  - `strftime` and `isoformat` texts are inputs or left out.
- **Calendar generator.**
  - `str(custody_agreement)` is modelled as "2-2-3 occurs in some string key or value of the agreement". The `repr` quoting is not modelled.
  - `Dates.NextDay` past 9999-12-31, where Python raises `OverflowError`, is left out.
- **Files and endpoints.**
  - File writing and deleting, and `get_document_file` with its media types, are not modelled. Only the stored name and URL are.
  - The `ObjectId` alternative in the document lookups is not modelled.
  - `delete_child` (`$pull`), `get_family` and `get_contract` are not modelled; they only read back or remove what the modelled handlers store.
  - Authentication and the frontend are out of scope.
- **Typed records and errors.**
  - Family, folder and document records are typed records rather than raw dictionaries. An explicit `null` in a child update is not distinguished from an unsent field.
  - The `except Exception` wrappers that turn any other error into a 500 are not modelled.
- **Activity feed.**
  - The database queries are outside the model: the handler receives the rows they return, in their order, with at most one approval per event.
  - All times are whole seconds on one clock read once, and the date-string parsing branches are not modelled.
  - A `parent2` stored as an empty dict counts as absent.
  - An event's title comes from the row.
- **Concurrency.** Concurrent requests are not modelled.
- **Parser test samples.** The sample texts of `backend/test_parser.py` are covered by the general "found anywhere in a text" lemmas, not sample by sample: `DocumentParser.JointFound`, `EqualSplitFound`, `TwoTwoThreeFound`, `HolidayFound`, `WeekFound` and `PrimaryFound`. The "Primary/Secondary Custody" sample (backend/test_parser.py:80-87) has "primary" and "secondary" on different lines. It reads as primary-secondary only through `primary\s+custody`, which `DocumentParser.PrimaryCustodyReading` states together with `NoEqualSplit`.

## Findings

| source | as written | input that shows it | evidently intended | confidence | as-written member | corrected member |
|---|---|---|---|---|---|---|
| backend/routers/calendar.py:81-89 | reads `requestedDate` from `ChangeRequestCreate`, which declares `newDate`, and builds a `ChangeRequest` without its required `requestType`, `eventTitle`, `eventType` and `eventDate`; `update_change_request` (calendar.py:119-121) reads `requestedDate` from a `ChangeRequest` too, which also declares only `newDate` | any request for an existing event; any approval | store a pending request carrying `newDate`, and move the event to it on approval | not executed | CalendarRouter.ChangeRequestsAsWrittenFail | CalendarRouter.CalendarStore.CreateChangeRequest |
| backend/routers/family.py:130-136 | queries `children.id`, but the in-memory `_get_value` does not descend into lists, and `children.$.key` is not positional there | any family with children, any child id: the response is 404 "Child not found" | update the sent fields of the child with that id | not executed | FamilyRouter.UpdateChildQueryNeverMatches | FamilyRouter.FamilyStore.UpdateChild |
| backend/routers/documents.py:215-224 | the duplicate test compares names, but the id is the lowercased slug | create "Tax", then "tax": both are stored with id "tax", and lookups by id find only the first | refuse a folder whose id is already taken in the family | not executed | Documents.SlugCollisionAsWritten | Documents.CreateKeepsIdsUnique |
| backend/routers/documents.py:416-418 | filters a default folder with `{"$in": types}`, which the in-memory matcher compares by equality | a family with one court order: "legal" counts 1 but lists nothing | list the documents whose type is among the folder's types | not executed | Documents.DefaultFolderListingAsWritten | Documents.ListingAgreesWithCount |

=== FILE: activity.dfy ===
/** The recent-activity feed of `backend/routers/activity.py`: up to two
    calendar, two message and two expense entries for the caller's family,
    newest first, each labelled with how long ago it happened.

    Database queries are outside the model: the handler receives the rows
    the queries return, in the order they return them. Times are whole
    seconds on one clock, and `now` is the one reading of `utcnow()`. */
module Activity {
  import opened Wrappers
  import opened Text
  import opened Http
  import Sorting

  const SecondsPerDay := 86400
  /** The activity window: `utcnow() - timedelta(days=7)`. */
  const WindowSeconds := 7 * SecondsPerDay
  /** Entries kept per category. */
  const Cap := 2

  // ---------------------------------------------------------------------
  // Relative time
  // ---------------------------------------------------------------------

  /** The label of an elapsed time, before it is spelt out. */
  datatype Ago =
    | Yesterday
    | DaysAgo(days: nat)
    | WeeksAgo(weeks: nat)
    | JustNow
    | MinutesAgo(minutes: nat)
    | HoursAgo(hours: nat)

  /** Bucketing of a `timedelta` given by its `days` and `seconds` fields
      (`seconds` is always in [0, 86400), `days` may be negative). */
  function Bucket(days: int, seconds: int): Ago
    requires 0 <= seconds < SecondsPerDay
  {
    if days > 0 then
      if days == 1 then Yesterday
      else if days < 7 then DaysAgo(days)
      else WeeksAgo(days / 7)
    else if seconds < 3600 then
      var minutes := seconds / 60;
      if minutes < 1 then JustNow else MinutesAgo(minutes)
    else HoursAgo(seconds / 3600)
  }

  /** `now - createdAt`, split into `timedelta` fields and bucketed. */
  function AgoOf(elapsed: int): Ago {
    Bucket(elapsed / SecondsPerDay, elapsed % SecondsPerDay)
  }

  /** The labels the handler can produce. */
  predicate ValidAgo(b: Ago) {
    match b
    case Yesterday => true
    case DaysAgo(n) => 2 <= n <= 6
    case WeeksAgo(n) => n >= 1
    case JustNow => true
    case MinutesAgo(n) => 1 <= n <= 59
    case HoursAgo(n) => 1 <= n <= 23
  }

  /** The elapsed times, in seconds, a label stands for: [Earliest, Latest). */
  function Earliest(b: Ago): int {
    match b
    case Yesterday => SecondsPerDay
    case DaysAgo(n) => n * SecondsPerDay
    case WeeksAgo(n) => n * WindowSeconds
    case JustNow => 0
    case MinutesAgo(n) => n * 60
    case HoursAgo(n) => n * 3600
  }

  function Latest(b: Ago): int {
    match b
    case Yesterday => 2 * SecondsPerDay
    case DaysAgo(n) => (n + 1) * SecondsPerDay
    case WeeksAgo(n) => (n + 1) * WindowSeconds
    case JustNow => 60
    case MinutesAgo(n) => (n + 1) * 60
    case HoursAgo(n) => (n + 1) * 3600
  }

  /** Every elapsed time that is not negative gets a label whose window
      contains it. */
  lemma AgoWindow(elapsed: int)
    requires elapsed >= 0
    ensures ValidAgo(AgoOf(elapsed))
    ensures Earliest(AgoOf(elapsed)) <= elapsed < Latest(AgoOf(elapsed))
  {
    var days, seconds := elapsed / SecondsPerDay, elapsed % SecondsPerDay;
    assert elapsed == days * SecondsPerDay + seconds;
    if days >= 7 {
      var w := days / 7;
      assert days == 7 * w + days % 7;
      assert w * WindowSeconds <= days * SecondsPerDay;
      assert (days + 1) * SecondsPerDay <= (w + 1) * WindowSeconds;
    } else if days <= 0 && seconds >= 3600 {
      assert seconds == 3600 * (seconds / 3600) + seconds % 3600;
    } else if days <= 0 {
      assert seconds == 60 * (seconds / 60) + seconds % 60;
    }
  }

  /** The windows of the labels do not overlap: an elapsed time inside a
      label's window gets that label. Together with `AgoWindow`, the labels
      partition the elapsed times that are not negative. */
  lemma AgoUnique(elapsed: int, b: Ago)
    requires ValidAgo(b) && Earliest(b) <= elapsed < Latest(b)
    ensures AgoOf(elapsed) == b
  {
    match b
    case Yesterday =>
    case DaysAgo(n) =>
    case WeeksAgo(n) =>
    case JustNow =>
    case MinutesAgo(n) =>
    case HoursAgo(n) =>
  }

  /** A time stamped up to a day in the future has a negative `days` field and
      is labelled as if it were a day older. */
  lemma FutureStampReadsAsADayOlder(elapsed: int)
    requires -SecondsPerDay <= elapsed < 0
    ensures AgoOf(elapsed) == AgoOf(elapsed + SecondsPerDay)
    ensures AgoOf(elapsed).HoursAgo? || AgoOf(elapsed).MinutesAgo? || AgoOf(elapsed).JustNow?
  {
    assert elapsed / SecondsPerDay == -1;
    assert elapsed % SecondsPerDay == elapsed + SecondsPerDay;
    assert (elapsed + SecondsPerDay) / SecondsPerDay == 0;
  }

  function Plural(n: nat): string {
    if n > 1 then "s" else ""
  }

  /** What follows the number in a numeric label. */
  function Unit(b: Ago): (u: string)
    ensures |u| >= 1 && u[0] == ' '
  {
    match b
    case DaysAgo(_) => " days ago"
    case WeeksAgo(_) => " weeks ago"
    case MinutesAgo(n) => " minute" + Plural(n) + " ago"
    case HoursAgo(n) => " hour" + Plural(n) + " ago"
    case _ => " ago"
  }

  function Count(b: Ago): nat {
    match b
    case DaysAgo(n) => n
    case WeeksAgo(n) => n
    case MinutesAgo(n) => n
    case HoursAgo(n) => n
    case _ => 0
  }

  /** The `relativeTime` text of a label. */
  function Spell(b: Ago): (r: string)
    ensures |r| >= 1
    ensures ('0' <= r[0] <= '9') <==> !(b.Yesterday? || b.JustNow?)
  {
    match b
    case Yesterday => "Yesterday"
    case JustNow => "Just now"
    case _ => DecimalString(Count(b)) + Unit(b)
  }

  /** The text determines the label (and so, by `AgoUnique`, the window of
      elapsed time). */
  lemma SpellInjective(b: Ago, c: Ago)
    requires Spell(b) == Spell(c)
    ensures b == c
  {
    if !(b.Yesterday? || b.JustNow?) && !(c.Yesterday? || c.JustNow?) {
      DecimalPrefix(Count(b), Unit(b), Count(c), Unit(c));
      UnitDetermines(b, c);
    } else if b.Yesterday? || b.JustNow? {
      assert c.Yesterday? || c.JustNow?;
      assert Spell(b)[0] == Spell(c)[0];
    }
  }

  lemma UnitDetermines(b: Ago, c: Ago)
    requires !(b.Yesterday? || b.JustNow?) && !(c.Yesterday? || c.JustNow?)
    requires Count(b) == Count(c) && Unit(b) == Unit(c)
    ensures b == c
  {
    assert Unit(b)[1] == Unit(c)[1];
    assert |Unit(b)| == |Unit(c)|;
  }

  /** Lines 276-294: the text of a stamp, or "Recently" without one. */
  function RelativeTime(now: int, createdAt: Option<int>): (r: string)
    ensures createdAt.None? <==> r == "Recently"
  {
    match createdAt
    case None => "Recently"
    case Some(t) => Spell(AgoOf(now - t))
  }

  // ---------------------------------------------------------------------
  // Message previews
  // ---------------------------------------------------------------------

  const PreviewLength := 50

  /** A message shown by its first 50 characters, with "..." when cut. */
  function Preview(content: string): (r: string)
    ensures |r| <= PreviewLength + 3
    ensures r[..Min(|r|, PreviewLength)] == content[..Min(|content|, PreviewLength)]
    ensures |content| > PreviewLength ==> |r| == PreviewLength + 3 && r[PreviewLength..] == "..."
    ensures |content| <= PreviewLength ==> r == content
  {
    if |content| > PreviewLength then content[..PreviewLength] + "..." else content
  }

  function Min(a: int, b: int): int {
    if a <= b then a else b
  }

  /** A preview previews as itself. */
  lemma PreviewIdempotent(content: string)
    ensures Preview(Preview(content)) == Preview(content)
  {
    var p := Preview(content);
    if |content| > PreviewLength {
      assert p[..PreviewLength] == content[..PreviewLength];
      assert p[PreviewLength..] == "...";
      assert p == p[..PreviewLength] + p[PreviewLength..];
    }
  }

  /** A message is shown whole exactly when it is short, or when cutting it
      happens to restore it because it already ends in "..." there. */
  lemma PreviewUnchanged(content: string)
    ensures Preview(content) == content <==>
      |content| <= PreviewLength || content[PreviewLength..] == "..."
  {
    if |content| > PreviewLength {
      var p := Preview(content);
      if content[PreviewLength..] == "..." {
        assert content == content[..PreviewLength] + content[PreviewLength..];
      }
      if p == content {
        assert content[PreviewLength..] == p[PreviewLength..];
      }
    }
  }

  // ---------------------------------------------------------------------
  // The rows the queries return and the entries built from them
  // ---------------------------------------------------------------------

  /** A family document, seen through the fields the feed reads. `parent2` is
      `None` when the record is absent or empty, `Some(None)` when it has no
      first name. */
  datatype FamilyRow = FamilyRow(
    parent1Email: Option<string>,
    parent2Email: Option<string>,
    parent1FirstName: Option<string>,
    parent2: Option<Option<string>>)

  /** The latest approved change request of an event. */
  datatype Approval = Approval(requestedBy: Option<string>, createdAt: Option<int>, updatedAt: Option<int>)

  /** An event row, with the approved change request the inner query finds and
      its date already rendered by `strftime('%A at %I:%M%p')`. */
  datatype EventRow = EventRow(
    id: string, title: Option<string>, parent: Option<string>,
    createdAt: Option<int>, updatedAt: Option<int>,
    when: string, approval: Option<Approval>)

  /** A pending change request, with the title of its event when an event is
      found for it and has one. */
  datatype RequestRow = RequestRow(
    id: string, eventTitle: Option<string>, requestType: Option<string>, createdAt: Option<int>)

  datatype Message = Message(senderEmail: Option<string>, content: Option<string>, timestamp: Option<int>)

  /** A conversation, with its newest message when it has one. */
  datatype ConversationRow = ConversationRow(
    id: string, subject: Option<string>, lastMessageAt: Option<int>, lastMessage: Option<Message>)

  /** An expense row; `amountCents` is the amount in whole cents and `id`
      is `exp.get('id') or str(exp['_id'])`. */
  datatype ExpenseRow = ExpenseRow(
    id: string, status: string, paidBy: Option<string>, description: string,
    amountCents: nat, createdAt: Option<int>, updatedAt: Option<int>)

  datatype Kind = CalendarConfirmed | CalendarUpdate | ChangeRequest | MessageKind | ExpensePending | ExpenseApproved
  datatype Color = Green | Blue | Red

  /** One feed entry before its relative time is added. */
  datatype Entry = Entry(
    id: string, kind: Kind, title: string, description: string, color: Color,
    createdAt: int, actionRequired: bool, amountCents: Option<nat>, expenseId: Option<string>)

  /** Who is looking, and the names the handler derives for both parents. */
  datatype Viewer = Viewer(
    email: string, isParent1: bool, parent1Name: string, parent2Name: Option<string>,
    now: int)

  function Cutoff(v: Viewer): int {
    v.now - WindowSeconds
  }

  function GetOr(o: Option<string>, default: string): string {
    if o.Some? then o.value else default
  }

  /** `x or default` for an optional string: an empty string also falls back. */
  function OrElse(o: Option<string>, default: string): string {
    if o.Some? && o.value != "" then o.value else default
  }

  /** `f"{name}"` of a name that may be `None`. */
  function Shown(o: Option<string>): string {
    if o.Some? then o.value else "None"
  }

  function FirstStamp(a: Option<int>, b: Option<int>, now: int): int {
    if a.Some? then a.value else if b.Some? then b.value else now
  }

  function ViewerOf(f: FamilyRow, email: string, now: int): (v: Viewer)
    ensures v.isParent1 <==> f.parent1Email == Some(email)
    ensures f.parent2.None? ==> v.parent2Name.None?
  {
    Viewer(email, f.parent1Email == Some(email), GetOr(f.parent1FirstName, "Parent 1"),
      if f.parent2.Some? then Some(GetOr(f.parent2.value, "Parent 2")) else None,
      now)
  }

  function CurrentName(v: Viewer): string {
    if v.isParent1 then v.parent1Name else OrElse(v.parent2Name, "Parent 2")
  }

  function PartnerName(v: Viewer): string {
    if v.isParent1 then Shown(v.parent2Name) else v.parent1Name
  }

  /** The name of whoever sent or did something: the caller or the partner. */
  function NameOf(v: Viewer, email: string): (r: string)
    ensures email == v.email ==> r == CurrentName(v)
    ensures email != v.email ==> r == PartnerName(v)
  {
    if email == v.email then CurrentName(v) else PartnerName(v)
  }

  predicate Recent(v: Viewer, t: Option<int>) {
    t.Some? && t.value >= Cutoff(v)
  }

  /** Lines 50-122: the entry an event contributes, if any. */
  function EventEntry(v: Viewer, e: EventRow): (r: Option<Entry>)
    ensures r.None? <==>
      e.approval.None? && !Recent(v, e.createdAt) &&
      !(Recent(v, e.updatedAt) && e.updatedAt != e.createdAt)
    ensures r.Some? ==> !r.value.actionRequired && r.value.color != Red
    ensures r.Some? && e.approval.None? && Recent(v, e.createdAt) ==>
      r.value.createdAt == e.createdAt.value
  {
    var title := GetOr(e.title, "Calendar event");
    if e.approval.Some? then
      var c := e.approval.value;
      Some(Entry("calendar_confirm_" + e.id, CalendarConfirmed,
        NameOf(v, GetOr(c.requestedBy, "")) + " confirmed pickup for " + e.when, title, Green,
        FirstStamp(c.updatedAt, c.createdAt, v.now), false, None, None))
    else if Recent(v, e.createdAt) then
      var description :=
        if e.parent.Some? && e.parent.value != "" && e.parent.value != "both" then
          (if e.parent.value == "mom" then v.parent1Name else OrElse(v.parent2Name, "Parent 2"))
          + "'s custody day"
        else "Family event";
      Some(Entry("calendar_" + e.id, CalendarUpdate, "Calendar event added: " + title,
        description, Blue, e.createdAt.value, false, None, None))
    else if Recent(v, e.updatedAt) && e.updatedAt != e.createdAt then
      Some(Entry("calendar_update_" + e.id, CalendarUpdate, "Calendar event updated: " + title,
        "Event details were modified", Blue, e.updatedAt.value, false, None, None))
    else None
  }

  /** Lines 131-156: every pending request from the partner asks for action. */
  function RequestEntry(v: Viewer, q: RequestRow): (r: Entry)
    ensures r.actionRequired && r.kind == ChangeRequest && r.color == Red
  {
    Entry("change_request_" + q.id, ChangeRequest,
      "PENDING: " + PartnerName(v) + " requested change to " + GetOr(q.eventTitle, "calendar event"),
      "Change request: " + GetOr(q.requestType, "modify"), Red,
      FirstStamp(q.createdAt, None, v.now), true, None, None)
  }

  /** Lines 168-194: a conversation contributes its last message, previewed. */
  function MessageEntry(v: Viewer, c: ConversationRow): (r: Option<Entry>)
    ensures r.Some? <==> c.lastMessage.Some?
    ensures r.Some? ==>
      !r.value.actionRequired && |r.value.description| <= PreviewLength + 3
  {
    match c.lastMessage
    case None => None
    case Some(m) =>
      Some(Entry("message_" + c.id, MessageKind,
        "New message in " + GetOr(c.subject, "conversation"),
        Preview(GetOr(m.content, "")), Blue,
        FirstStamp(m.timestamp, c.lastMessageAt, v.now), false, None, None))
  }

  /** `f"{amount:.2f}"` of an amount in whole cents. */
  function Money(cents: nat): string {
    DecimalString(cents / 100) + "." + [Digit(cents % 100 / 10), Digit(cents % 10)]
  }

  function Digit(n: nat): char
    requires n < 10
  {
    ('0' as int + n) as char
  }

  /** Lines 206-244: a recent expense contributes an entry when it waits for
      the caller's approval or was approved within the window. */
  function ExpenseEntry(v: Viewer, x: ExpenseRow): (r: Option<Entry>)
    ensures r.Some? ==> Recent(v, x.createdAt) || Recent(v, x.updatedAt)
    ensures r.Some? && r.value.actionRequired <==>
      (Recent(v, x.createdAt) || Recent(v, x.updatedAt)) &&
      x.status == "pending" && x.paidBy != Some(v.email)
    ensures r.Some? && !r.value.actionRequired <==>
      (Recent(v, x.createdAt) || Recent(v, x.updatedAt)) &&
      !(x.status == "pending" && x.paidBy != Some(v.email)) &&
      x.status == "approved" && Recent(v, x.updatedAt)
    ensures r.Some? ==> r.value.amountCents == Some(x.amountCents) && r.value.expenseId == Some(x.id)
  {
    if !(Recent(v, x.createdAt) || Recent(v, x.updatedAt)) then None
    else if x.status == "pending" && x.paidBy != Some(v.email) then
      Some(Entry("expense_" + x.id, ExpensePending,
        "PENDING: " + x.description + " expense needs approval ($" + Money(x.amountCents) + ")",
        x.description + " - $" + Money(x.amountCents), Red,
        FirstStamp(x.updatedAt, x.createdAt, v.now), true, Some(x.amountCents), Some(x.id)))
    else if x.status == "approved" && Recent(v, x.updatedAt) then
      Some(Entry("expense_" + x.id, ExpenseApproved,
        "Expense approved: " + x.description + " ($" + Money(x.amountCents) + ")",
        "Paid by " + NameOf(v, GetOr(x.paidBy, "")), Green,
        FirstStamp(x.updatedAt, x.createdAt, v.now), false, Some(x.amountCents), Some(x.id)))
    else None
  }

  function EventStep(v: Viewer): EventRow -> Option<Entry> {
    e => EventEntry(v, e)
  }

  function RequestStep(v: Viewer): RequestRow -> Option<Entry> {
    q => Some(RequestEntry(v, q))
  }

  function MessageStep(v: Viewer): ConversationRow -> Option<Entry> {
    c => MessageEntry(v, c)
  }

  function ExpenseStep(v: Viewer): ExpenseRow -> Option<Entry> {
    x => ExpenseEntry(v, x)
  }

  // ---------------------------------------------------------------------
  // Per-category collection and the combined feed
  // ---------------------------------------------------------------------

  /** The entries the rows contribute, in row order. */
  function Collect<T>(rows: seq<T>, f: T -> Option<Entry>): seq<Entry>
    decreases |rows|
  {
    if rows == [] then []
    else
      var last := f(rows[|rows| - 1]);
      Collect(rows[..|rows| - 1], f) + (if last.Some? then [last.value] else [])
  }

  lemma {:induction false} CollectConcat<T>(a: seq<T>, b: seq<T>, f: T -> Option<Entry>)
    ensures Collect(a + b, f) == Collect(a, f) + Collect(b, f)
    decreases |b|
  {
    if b == [] {
      assert a + b == a;
    } else {
      var n := |b| - 1;
      CollectConcat(a, b[..n], f);
      assert (a + b)[..|a + b| - 1] == a + b[..n];
      assert (a + b)[|a + b| - 1] == b[n];
    }
  }

  /** Every collected entry is the entry of some row. */
  lemma {:induction false} CollectMembers<T>(rows: seq<T>, f: T -> Option<Entry>, e: Entry)
    requires e in Collect(rows, f)
    ensures exists i | 0 <= i < |rows| :: f(rows[i]) == Some(e)
    decreases |rows|
  {
    var n := |rows| - 1;
    var last := f(rows[n]);
    if e in Collect(rows[..n], f) {
      CollectMembers(rows[..n], f, e);
      var i :| 0 <= i < n && f(rows[..n][i]) == Some(e);
      assert rows[i] == rows[..n][i];
    } else {
      assert f(rows[n]) == Some(e);
    }
  }

  /** Python's `xs[:n]`. */
  function Take(xs: seq<Entry>, n: nat): (r: seq<Entry>)
    ensures |r| <= n && |r| <= |xs|
    ensures |xs| <= n ==> r == xs
    ensures |xs| >= n ==> |r| == n
    ensures r == xs[..|r|]
  {
    if |xs| <= n then xs else xs[..n]
  }

  lemma TakeBeyond(a: seq<Entry>, b: seq<Entry>, n: nat)
    requires |a| >= n
    ensures Take(a + b, n) == Take(a, n)
  {
    assert (a + b)[..n] == a[..n];
  }

  /** Cutting twice cuts once. */
  lemma TakeTake(a: seq<Entry>, b: seq<Entry>, n: nat)
    ensures Take(Take(a, n) + b, n) == Take(a + b, n)
  {
    if |a| >= n {
      TakeBeyond(Take(a, n), b, n);
      TakeBeyond(a, b, n);
    }
  }

  /** Lines 50-52, 131-133, 168-170, 206-208: append what the rows contribute
      to `acc`, leaving the loop as soon as `Cap` entries are held. */
  method AppendUpTo<T>(acc: seq<Entry>, rows: seq<T>, f: T -> Option<Entry>) returns (r: seq<Entry>)
    requires |acc| <= Cap
    ensures r == Take(acc + Collect(rows, f), Cap)
  {
    r := acc;
    var i := 0;
    while i < |rows|
      invariant 0 <= i <= |rows|
      invariant |r| <= Cap
      invariant r == Take(acc + Collect(rows[..i], f), Cap)
      invariant |r| < Cap ==> r == acc + Collect(rows[..i], f)
    {
      if |r| >= Cap {
        CollectConcat(rows[..i], rows[i..], f);
        assert rows[..i] + rows[i..] == rows;
        TakeBeyond(acc + Collect(rows[..i], f), Collect(rows[i..], f), Cap);
        return;
      }
      var e := f(rows[i]);
      if e.Some? {
        r := r + [e.value];
      }
      assert rows[..i + 1][..i] == rows[..i];
      i := i + 1;
    }
    assert rows[..i] == rows;
  }

  /** Newest first, as `sort(key=createdAt, reverse=True)`. */
  function NewestFirst(): (Entry, Entry) -> bool {
    (a: Entry, b: Entry) => b.createdAt <= a.createdAt
  }

  lemma NewestFirstPreorder()
    ensures Sorting.TotalPreorder(NewestFirst())
  {
  }

  /** Lines 158-160 (and 196-198, 246-248): a category sorted and cut to `Cap`. */
  function Category(candidates: seq<Entry>): seq<Entry> {
    Take(Sorting.Sort(Take(candidates, Cap), NewestFirst()), Cap)
  }

  function CalendarCandidates(v: Viewer, events: seq<EventRow>, pending: seq<RequestRow>): seq<Entry> {
    Collect(events, EventStep(v)) + Collect(pending, RequestStep(v))
  }

  function MessageCandidates(v: Viewer, conversations: seq<ConversationRow>): seq<Entry> {
    Collect(conversations, MessageStep(v))
  }

  function ExpenseCandidates(v: Viewer, expenses: seq<ExpenseRow>): seq<Entry> {
    Collect(expenses, ExpenseStep(v))
  }

  /** Lines 250-254: the three categories together, newest first. */
  function Feed(v: Viewer, events: seq<EventRow>, pending: seq<RequestRow>,
                conversations: seq<ConversationRow>, expenses: seq<ExpenseRow>): seq<Entry>
  {
    Sorting.Sort(
      Category(CalendarCandidates(v, events, pending))
      + Category(MessageCandidates(v, conversations))
      + Category(ExpenseCandidates(v, expenses)),
      NewestFirst())
  }

  /** A category holds exactly its first `Cap` candidates, reordered. */
  lemma CategoryFirstCandidates(candidates: seq<Entry>)
    ensures multiset(Category(candidates)) == multiset(Take(candidates, Cap))
    ensures |Category(candidates)| == Min(|candidates|, Cap)
    ensures Sorting.SortedBy(Category(candidates), NewestFirst())
  {
    var t := Take(candidates, Cap);
    Sorting.SortPermutes(t, NewestFirst());
    NewestFirstPreorder();
    Sorting.SortSorted(t, NewestFirst());
    assert |Sorting.Sort(t, NewestFirst())| == |multiset(Sorting.Sort(t, NewestFirst()))|;
  }

  /** The feed holds at most two entries per category, six in all, exactly the
      categories' entries, newest first. */
  lemma FeedShape(v: Viewer, events: seq<EventRow>, pending: seq<RequestRow>,
                  conversations: seq<ConversationRow>, expenses: seq<ExpenseRow>)
    ensures var f := Feed(v, events, pending, conversations, expenses);
      && multiset(f) ==
        multiset(Take(CalendarCandidates(v, events, pending), Cap))
        + multiset(Take(MessageCandidates(v, conversations), Cap))
        + multiset(Take(ExpenseCandidates(v, expenses), Cap))
      && |f| <= 3 * Cap
      && Sorting.SortedBy(f, NewestFirst())
  {
    var c := Category(CalendarCandidates(v, events, pending));
    var m := Category(MessageCandidates(v, conversations));
    var x := Category(ExpenseCandidates(v, expenses));
    CategoryFirstCandidates(CalendarCandidates(v, events, pending));
    CategoryFirstCandidates(MessageCandidates(v, conversations));
    CategoryFirstCandidates(ExpenseCandidates(v, expenses));
    var all := c + m + x;
    Sorting.SortPermutes(all, NewestFirst());
    NewestFirstPreorder();
    Sorting.SortSorted(all, NewestFirst());
    var f := Sorting.Sort(all, NewestFirst());
    assert multiset(all) == multiset(c) + multiset(m) + multiset(x);
    assert |f| == |multiset(f)| == |multiset(all)| == |all|;
  }

  /** Only pending expenses and pending change requests ask for action. */
  lemma ActionRequiredOnlyWhenPending(v: Viewer, events: seq<EventRow>, pending: seq<RequestRow>,
                                      conversations: seq<ConversationRow>, expenses: seq<ExpenseRow>, e: Entry)
    requires e in Feed(v, events, pending, conversations, expenses)
    requires e.actionRequired
    ensures e.kind == ChangeRequest ||
      exists x | x in expenses :: x.status == "pending" && x.paidBy != Some(v.email) && ExpenseEntry(v, x) == Some(e)
  {
    FeedShape(v, events, pending, conversations, expenses);
    var f := Feed(v, events, pending, conversations, expenses);
    assert e in multiset(f);
    var cal := CalendarCandidates(v, events, pending);
    var msg := MessageCandidates(v, conversations);
    var exp := ExpenseCandidates(v, expenses);
    if e in Take(cal, Cap) {
      assert e in cal;
      if e in Collect(events, EventStep(v)) {
        CollectMembers(events, EventStep(v), e);
      } else {
        CollectMembers(pending, RequestStep(v), e);
      }
    } else if e in Take(msg, Cap) {
      CollectMembers(conversations, MessageStep(v), e);
    } else {
      assert e in Take(exp, Cap);
      CollectMembers(expenses, ExpenseStep(v), e);
      var i :| 0 <= i < |expenses| && ExpenseStep(v)(expenses[i]) == Some(e);
      assert expenses[i] in expenses;
    }
  }

  /** The family of a caller: the first with the caller as either parent. */
  function FamilyOf(families: seq<FamilyRow>, email: string): (r: Option<FamilyRow>)
    ensures r.Some? ==> (r.value in families &&
      (r.value.parent1Email == Some(email) || r.value.parent2Email == Some(email)))
    ensures r.None? ==> forall f | f in families ::
      f.parent1Email != Some(email) && f.parent2Email != Some(email)
  {
    if families == [] then None
    else if families[0].parent1Email == Some(email) || families[0].parent2Email == Some(email) then
      Some(families[0])
    else FamilyOf(families[1..], email)
  }

  /** An entry of the response: the entry and its relative time. */
  datatype FeedItem = FeedItem(entry: Entry, relativeTime: string)

  function Labelled(e: Entry, now: int): FeedItem {
    FeedItem(e, RelativeTime(now, Some(e.createdAt)))
  }

  /** Every entry of the feed carries a stamp, so none reads "Recently"; its
      text is the one of its elapsed time. */
  lemma LabelledNeverRecently(e: Entry, now: int)
    ensures Labelled(e, now).relativeTime != "Recently"
    ensures Labelled(e, now).relativeTime == Spell(AgoOf(now - e.createdAt))
  {
  }

  /** Lines 256-294, the final loop: every entry gets its relative time. */
  method Label(entries: seq<Entry>, now: int) returns (items: seq<FeedItem>)
    ensures |items| == |entries|
    ensures forall i | 0 <= i < |items| :: items[i] == Labelled(entries[i], now)
  {
    items := [];
    var i := 0;
    while i < |entries|
      invariant 0 <= i <= |entries|
      invariant |items| == i
      invariant forall j | 0 <= j < i :: items[j] == Labelled(entries[j], now)
    {
      items := items + [FeedItem(entries[i], RelativeTime(now, Some(entries[i].createdAt)))];
      i := i + 1;
    }
  }

  /** Lines 40-160: the calendar entries, from events and then pending requests. */
  method CalendarCategory(v: Viewer, events: seq<EventRow>, pending: seq<RequestRow>)
    returns (c: seq<Entry>)
    ensures c == Category(CalendarCandidates(v, events, pending))
  {
    c := AppendUpTo([], events, EventStep(v));
    c := AppendUpTo(c, pending, RequestStep(v));
    assert [] + Collect(events, EventStep(v)) == Collect(events, EventStep(v));
    TakeTake(Collect(events, EventStep(v)), Collect(pending, RequestStep(v)), Cap);
    c := Take(Sorting.Sort(c, NewestFirst()), Cap);
  }

  /** Lines 162-198 and 200-248: one category fed by one query. */
  method SingleCategory<T>(rows: seq<T>, f: T -> Option<Entry>) returns (c: seq<Entry>)
    ensures c == Category(Collect(rows, f))
  {
    c := AppendUpTo([], rows, f);
    assert [] + Collect(rows, f) == Collect(rows, f);
    c := Take(Sorting.Sort(c, NewestFirst()), Cap);
  }

  /** Lines 12-297: `get_recent_activity` over the rows its queries return. */
  method GetRecentActivity(families: seq<FamilyRow>, email: string, now: int,
                           events: seq<EventRow>, pending: seq<RequestRow>,
                           conversations: seq<ConversationRow>, expenses: seq<ExpenseRow>)
    returns (r: Result<seq<FeedItem>, Failure>)
    ensures FamilyOf(families, email).None? <==> r == Err(NotFound("Family not found"))
    ensures FamilyOf(families, email).Some? ==> r.Ok?
    ensures r.Ok? ==>
      var v := ViewerOf(FamilyOf(families, email).value, email, now);
      var f := Feed(v, events, pending, conversations, expenses);
      |r.value| == |f| && forall i | 0 <= i < |f| :: r.value[i] == Labelled(f[i], now)
  {
    var family := FamilyOf(families, email);
    if family.None? {
      return Err(NotFound("Family not found"));
    }
    var v := ViewerOf(family.value, email, now);
    var calendar := CalendarCategory(v, events, pending);
    var messages := SingleCategory(conversations, MessageStep(v));
    var spent := SingleCategory(expenses, ExpenseStep(v));
    var activities := Sorting.Sort(calendar + messages + spent, NewestFirst());
    var items := Label(activities, now);
    return Ok(items);
  }
}

=== FILE: calendar_generator.dfy ===
/** Materialisation of a custody rotation into one calendar event per day. */
module CalendarGenerator {
  import opened Wrappers
  import opened Text
  import opened Dates
  import opened Store

  /** The two schedules the generator knows. */
  datatype Rotation = TwoTwoThree | AlternatingWeeks

  /** The 14-day 2-2-3 owner table: 2 days, 2 days, 3 days, then mirrored. */
  function Pattern223(p1: Value, p2: Value): (r: seq<Value>)
    ensures |r| == 14
  {
    [p1, p1, p2, p2, p1, p1, p1, p2, p2, p1, p1, p2, p2, p2]
  }

  /** The parent holding custody `d` days after January 1st. */
  function Owner(rotation: Rotation, p1: Value, p2: Value, d: nat): Value {
    match rotation
    case TwoTwoThree => Pattern223(p1, p2)[d % 14]
    case AlternatingWeeks => if (d / 7) % 2 == 0 then p1 else p2
  }

  /** Which of the 14 days of the 2-2-3 table belong to parent 1. */
  const ParentOneDays: seq<bool> :=
    [true, true, false, false, true, true, true, false, false, true, true, false, false, false]

  /** Whether parent 1 holds custody `d` days after January 1st. */
  predicate ParentOneHas(rotation: Rotation, d: nat) {
    match rotation
    case TwoTwoThree => ParentOneDays[d % 14]
    case AlternatingWeeks => (d / 7) % 2 == 0
  }

  /** The owner is parent 1 on parent 1's days and parent 2 on all others. */
  lemma OwnerByDay(rotation: Rotation, p1: Value, p2: Value, d: nat)
    ensures Owner(rotation, p1, p2, d) == if ParentOneHas(rotation, d) then p1 else p2
  {
    if rotation.TwoTwoThree? {
      var i := d % 14;
      assert Pattern223(p1, p2) == seq(14, j requires 0 <= j < 14 => if ParentOneDays[j] then p1 else p2);
    }
  }

  /** Custody always goes to one of the two parents. */
  lemma OwnerIsParent(rotation: Rotation, p1: Value, p2: Value, d: nat)
    ensures Owner(rotation, p1, p2, d) in {p1, p2}
  {
    OwnerByDay(rotation, p1, p2, d);
  }

  /** Seven days later the other parent has custody, in both rotations; for
      2-2-3 this is the table's second week mirroring its first. */
  lemma ParentOneAlternates(rotation: Rotation, d: nat)
    ensures ParentOneHas(rotation, d + 7) == !ParentOneHas(rotation, d)
  {
    match rotation
    case TwoTwoThree => TableAlternates(d);
    case AlternatingWeeks => WeeksAlternate(d);
  }

  lemma TableAlternates(d: nat)
    ensures ParentOneDays[(d + 7) % 14] == !ParentOneDays[d % 14]
  {
    var i := d % 14;
    assert d == 14 * (d / 14) + i;
    if i < 7 {
      assert (d + 7) % 14 == i + 7;
      TableMirrors(i);
    } else {
      assert (d + 7) % 14 == i - 7;
      TableMirrors(i - 7);
    }
  }

  lemma WeeksAlternate(d: nat)
    ensures ((d + 7) / 7) % 2 == 0 <==> (d / 7) % 2 != 0
  {
    var q := d / 7;
    assert d == 7 * q + d % 7;
    assert (d + 7) / 7 == q + 1;
  }

  /** Day by day, the table's second week is its first one negated. */
  lemma TableMirrors(i: nat)
    requires i < 7
    ensures ParentOneDays[i + 7] == !ParentOneDays[i]
  {
  }

  /** The second week of the 2-2-3 table is the first with the parents swapped. */
  lemma MirroredWeeks(p1: Value, p2: Value, i: nat)
    requires i < 7
    ensures Pattern223(p1, p2)[i + 7] == Pattern223(p2, p1)[i]
  {
    OwnerByDay(TwoTwoThree, p1, p2, i + 7);
    OwnerByDay(TwoTwoThree, p2, p1, i);
    ParentOneAlternates(TwoTwoThree, i);
  }

  /** Week-on/week-off: the first seven days of every fortnight go to parent 1,
      the next seven to parent 2. */
  lemma AlternatingHalves(p1: Value, p2: Value, d: nat)
    ensures Owner(AlternatingWeeks, p1, p2, d) == if d % 14 < 7 then p1 else p2
  {
    var q, r := d / 14, d % 14;
    assert d == 14 * q + r;
    assert d / 7 == 2 * q + r / 7;
  }

  lemma OwnerShift(rotation: Rotation, p1: Value, p2: Value, d: nat)
    ensures Owner(rotation, p1, p2, d + 14) == Owner(rotation, p1, p2, d)
  {
    ParentOneAlternates(rotation, d);
    ParentOneAlternates(rotation, d + 7);
    OwnerByDay(rotation, p1, p2, d);
    OwnerByDay(rotation, p1, p2, d + 14);
  }

  /** `f` fourteen days after day `d`. */
  function FortnightLater(f: nat -> Value, d: nat): Value {
    f(d + 14)
  }

  /** `f` repeats after fourteen days. */
  ghost predicate Fortnightly(f: nat -> Value) {
    forall d: nat {:trigger FortnightLater(f, d)} :: FortnightLater(f, d) == f(d)
  }

  lemma {:induction false} RepeatsEveryFortnight(f: nat -> Value, d: nat, k: nat)
    requires Fortnightly(f)
    ensures f(d + 14 * k) == f(d)
  {
    if k > 0 {
      var e := d + 14 * (k - 1);
      RepeatsEveryFortnight(f, d, k - 1);
      assert FortnightLater(f, e) == f(e);
      assert e + 14 == d + 14 * k;
    }
  }

  /** Both rotations repeat every 14 days. */
  lemma OwnerPeriodic(rotation: Rotation, p1: Value, p2: Value, d: nat, k: nat)
    ensures Owner(rotation, p1, p2, d + 14 * k) == Owner(rotation, p1, p2, d)
  {
    OwnerFortnightly(rotation, p1, p2);
    RepeatsEveryFortnight(OwnerCalendar(rotation, p1, p2), d, k);
  }

  /** The owner of each day under `rotation`. */
  function OwnerCalendar(rotation: Rotation, p1: Value, p2: Value): nat -> Value {
    (d: nat) => Owner(rotation, p1, p2, d)
  }

  lemma OwnerFortnightly(rotation: Rotation, p1: Value, p2: Value)
    ensures Fortnightly(OwnerCalendar(rotation, p1, p2))
  {
    var f := OwnerCalendar(rotation, p1, p2);
    forall d: nat ensures FortnightLater(f, d) == f(d) {
      OwnerShift(rotation, p1, p2, d);
    }
  }

  /** How many of the `n` days from `d0` satisfy `has`. */
  function CountDays(has: nat -> bool, d0: nat, n: nat): nat
    decreases n
  {
    if n == 0 then 0 else CountDays(has, d0, n - 1) + (if has(d0 + n - 1) then 1 else 0)
  }

  lemma {:induction false} CountDaysConcat(has: nat -> bool, d0: nat, a: nat, b: nat)
    ensures CountDays(has, d0, a + b) == CountDays(has, d0, a) + CountDays(has, d0 + a, b)
    decreases b
  {
    if b > 0 {
      CountDaysConcat(has, d0, a, b - 1);
    }
  }

  /** `has` a week after day `d`. */
  function WeekLater(has: nat -> bool, d: nat): bool {
    has(d + 7)
  }

  /** `has` flips after a week. */
  ghost predicate FlipsWeekly(has: nat -> bool) {
    forall d: nat {:trigger WeekLater(has, d)} :: WeekLater(has, d) == !has(d)
  }

  /** A pattern that flips after a week is true on exactly one of each pair of
      days a week apart. */
  lemma {:induction false} CountDaysMirror(has: nat -> bool, d0: nat, n: nat)
    requires FlipsWeekly(has)
    ensures CountDays(has, d0 + 7, n) + CountDays(has, d0, n) == n
    decreases n
  {
    if n > 0 {
      CountDaysMirror(has, d0, n - 1);
      assert WeekLater(has, d0 + n - 1) == !has(d0 + n - 1);
    }
  }

  /** Such a pattern is true on exactly seven of any fourteen consecutive days. */
  lemma Fortnight(has: nat -> bool, d0: nat)
    requires FlipsWeekly(has)
    ensures CountDays(has, d0, Week + Week) == Week
  {
    CountDaysConcat(has, d0, Week, Week);
    CountDaysMirror(has, d0, Week);
  }

  const Week: nat := 7

  /** Fourteen more days add seven to the count. */
  lemma FortnightAfter(has: nat -> bool, d0: nat, n: nat)
    requires FlipsWeekly(has)
    ensures CountDays(has, d0, n + 14) == CountDays(has, d0, n) + 7
  {
    Fortnight(has, d0 + n);
    CountDaysConcat(has, d0, n, Week + Week);
  }

  /** Such a pattern is true on exactly half of any `14 * m` consecutive days. */
  lemma {:induction false} CountDaysHalf(has: nat -> bool, d0: nat, m: nat)
    requires FlipsWeekly(has)
    ensures CountDays(has, d0, 14 * m) == 7 * m
  {
    if m > 0 {
      var before := 14 * (m - 1);
      CountDaysHalf(has, d0, m - 1);
      FortnightAfter(has, d0, before);
      assert before + 14 == 14 * m;
    }
  }

  /** The days parent 1 holds under `rotation`. */
  function ParentOneCalendar(rotation: Rotation): nat -> bool {
    (d: nat) => ParentOneHas(rotation, d)
  }

  lemma CalendarFlips(rotation: Rotation)
    ensures FlipsWeekly(ParentOneCalendar(rotation))
  {
    var has := ParentOneCalendar(rotation);
    forall d: nat ensures WeekLater(has, d) == !has(d) {
      ParentOneAlternates(rotation, d);
    }
  }

  /** In any `14 * m` consecutive days parent 1 holds custody for exactly
      `7 * m`, so each parent gets half of every fortnight. */
  lemma EqualShare(rotation: Rotation, d0: nat, m: nat)
    ensures CountDays(ParentOneCalendar(rotation), d0, 14 * m) == 7 * m
  {
    CalendarFlips(rotation);
    CountDaysHalf(ParentOneCalendar(rotation), d0, m);
  }

  // ---------------------------------------------------------------------------
  // Branch selection

  /** A word occurs in the text `str(v)` prints: in a string, or in a key or
      value of a nested dict or list (numbers, dates and ids print no hyphens). */
  predicate Mentions(v: Value, w: string)
    decreases v
  {
    match v
    case Str(s) => Contains(s, w)
    case Obj(m) => exists k | k in m :: Contains(k, w) || Mentions(m[k], w)
    case Arr(xs) => exists i | 0 <= i < |xs| :: Mentions(xs[i], w)
    case _ => false
  }

  /** `custody_agreement.get("custodySchedule", "")`. */
  function Schedule(agreement: Doc): Value {
    if "custodySchedule" in agreement then agreement["custodySchedule"] else Str("")
  }

  /** The rotation the generator picks; `None` when `custodySchedule` is
      present but not text, where `.lower()` raises. */
  function ScheduleRotation(agreement: Doc): Option<Rotation> {
    var schedule := Schedule(agreement);
    if !schedule.Str? then None
    else if Contains(Lower(schedule.s), "2-2-3") || Mentions(Obj(agreement), "2-2-3") then Some(TwoTwoThree)
    else Some(AlternatingWeeks)
  }

  /** 2-2-3 is chosen exactly when "2-2-3" appears anywhere in the agreement;
      the test on the lowercased schedule never decides on its own. */
  lemma ScheduleRotationChoice(agreement: Doc)
    ensures Schedule(agreement).Str? ==>
      (ScheduleRotation(agreement) == Some(TwoTwoThree) <==> Mentions(Obj(agreement), "2-2-3"))
    ensures Schedule(agreement).Str? ==>
      (ScheduleRotation(agreement) == Some(AlternatingWeeks) <==> !Mentions(Obj(agreement), "2-2-3"))
    ensures !Schedule(agreement).Str? <==> ScheduleRotation(agreement).None?
  {
    var schedule := Schedule(agreement);
    if schedule.Str? && Contains(Lower(schedule.s), "2-2-3") {
      LowerContainsCaseless(schedule.s, "2-2-3");
      assert "custodySchedule" in agreement;
      var k := "custodySchedule";
      assert Mentions(agreement[k], "2-2-3");
    }
  }

  // ---------------------------------------------------------------------------
  // The events

  function FamilyQuery(familyId: string): Query {
    Query([Eq("id", Str(familyId))])
  }

  /** The custody events of one family. */
  function CustodyQuery(familyId: string): Query {
    Query([Eq("family_id", Str(familyId)), Eq("type", Str("custody"))])
  }

  /** The dumped `Event` for day number `day`: dated at midnight. */
  function CustodyEvent(familyId: string, day: int, parent: Value): Doc {
    map["id" := Null, "family_id" := Str(familyId), "date" := Time(day * 86400),
        "type" := Str("custody"), "title" := Str("Custody"), "parent" := parent,
        "isSwappable" := Bool(false)]
  }

  /** The events for the `n` days from day number `start`, `offset` days after January 1st. */
  function CustodyEvents(familyId: string, rotation: Rotation, p1: Value, p2: Value,
                         start: int, offset: nat, n: nat): seq<Doc>
  {
    seq(n, k requires 0 <= k < n => CustodyEvent(familyId, start + k, Owner(rotation, p1, p2, offset + k)))
  }

  /** The documents as `insert_one` stores them, numbered from `counter`. */
  function Stamped(docs: seq<Doc>, counter: nat): seq<Doc> {
    seq(|docs|, k requires 0 <= k < |docs| => Stamp(docs[k], counter + k))
  }

  /** Where a run of the generator ends. */
  datatype Outcome =
    | NoFamily                  // no family with that id
    | MissingParent             // a parent email is missing or empty
    | ScheduleNotText           // `custodySchedule` is not a string: `.lower()` raises
    | Generated(rotation: Rotation, parent1: Value, parent2: Value)

  /** The decisions the generator takes before its loop. */
  function Plan(families: seq<Doc>, familyId: string, agreement: Doc): Outcome {
    match FirstMatch(families, FamilyQuery(familyId))
    case None => NoFamily
    case Some(i) =>
      var p1 := Get(families[i], "parent1_email");
      var p2 := Get(families[i], "parent2_email");
      if !Truthy(p1) || !Truthy(p2) then MissingParent
      else match ScheduleRotation(agreement)
        case None => ScheduleNotText
        case Some(r) => Generated(r, p1, p2)
  }

  /** One more day appends one more event. */
  lemma StampedStep(familyId: string, rotation: Rotation, p1: Value, p2: Value,
                    start: int, offset: nat, n: nat, counter: nat)
    ensures Stamped(CustodyEvents(familyId, rotation, p1, p2, start, offset, n + 1), counter)
      == Stamped(CustodyEvents(familyId, rotation, p1, p2, start, offset, n), counter)
        + [Stamp(CustodyEvent(familyId, start + n, Owner(rotation, p1, p2, offset + n)), counter + n)]
  {
  }

  /** The daily loop of `generate_custody_events`: from day number `start`
      through `start + 365`, `offset` being `start`'s distance from January 1st. */
  method InsertDays(events: Collection, familyId: string, rotation: Rotation, p1: Value, p2: Value,
                    start: int, offset: nat)
    requires events.Valid()
    modifies events
    ensures events.Valid()
    ensures events.data == old(events.data)
      + Stamped(CustodyEvents(familyId, rotation, p1, p2, start, offset, 366), old(events.counter))
    ensures events.counter == old(events.counter) + 366
  {
    var reference := start - offset;
    var end := start + 365;
    var current := start;
    while current <= end
      invariant start <= current <= end + 1
      invariant events.Valid()
      invariant events.data == old(events.data)
        + Stamped(CustodyEvents(familyId, rotation, p1, p2, start, offset, current - start), old(events.counter))
      invariant events.counter == old(events.counter) + (current - start)
    {
      StampedStep(familyId, rotation, p1, p2, start, offset, current - start, old(events.counter));
      var daysSinceReference := current - reference;
      var parent := Owner(rotation, p1, p2, daysSinceReference);
      var _ := events.InsertOne(CustodyEvent(familyId, current, parent));
      current := current + 1;
    }
  }

  /** `generate_custody_events`: with a family and both parents, clears the
      family's custody events and inserts one per day from `today` through
      `today + 365`, the owner counted from January 1st of this year. */
  method GenerateCustodyEvents(families: Collection, events: Collection, familyId: string,
                               agreement: Doc, today: Date) returns (outcome: Outcome)
    requires families != events && events.Valid() && ValidDate(today)
    modifies events
    ensures events.Valid()
    ensures outcome == Plan(families.data, familyId, agreement)
    ensures outcome == NoFamily || outcome == MissingParent ==>
      events.data == old(events.data) && events.counter == old(events.counter)
    ensures outcome == ScheduleNotText ==>
      events.data == Where(old(events.data), CustodyQuery(familyId), false)
      && events.counter == old(events.counter)
    ensures outcome.Generated? ==>
      events.data == Where(old(events.data), CustodyQuery(familyId), false)
        + Stamped(CustodyEvents(familyId, outcome.rotation, outcome.parent1, outcome.parent2,
                                Ordinal(today), Ordinal(today) - Ordinal(NewYear(today)), 366),
                  old(events.counter))
      && events.counter == old(events.counter) + 366
  {
    ghost var plan := Plan(families.data, familyId, agreement);
    var found := families.FirstIndex(FamilyQuery(familyId));
    if found.None? {
      return NoFamily;
    }
    var family := families.data[found.value];
    var p1 := Get(family, "parent1_email");
    var p2 := Get(family, "parent2_email");
    if !Truthy(p1) || !Truthy(p2) {
      return MissingParent;
    }
    var rotation := ScheduleRotation(agreement);
    assert plan == if rotation.None? then ScheduleNotText else Generated(rotation.value, p1, p2);
    var _ := events.DeleteMany(CustodyQuery(familyId));
    if rotation.None? {
      return ScheduleNotText;
    }
    var start := Ordinal(today);
    InsertDays(events, familyId, rotation.value, p1, p2, start, start - Ordinal(NewYear(today)));
    outcome := Generated(rotation.value, p1, p2);
  }

  // ---------------------------------------------------------------------------
  // Properties of what the generator stores

  /** `doc` is the custody event of `day` for `parent`, as stored under number `counter`. */
  predicate StoredEvent(doc: Doc, familyId: string, day: int, parent: Value, counter: nat) {
    doc == Stamp(CustodyEvent(familyId, day, parent), counter)
  }

  /** The `k`-th stored event is day `k`'s event, stamped with the `k`-th number. */
  lemma StampedEventAt(familyId: string, rotation: Rotation, p1: Value, p2: Value,
                       start: int, offset: nat, n: nat, counter: nat, k: nat)
    requires k < n
    ensures var docs := Stamped(CustodyEvents(familyId, rotation, p1, p2, start, offset, n), counter);
      |docs| == n && StoredEvent(docs[k], familyId, start + k, Owner(rotation, p1, p2, offset + k), counter + k)
  {
    var events := CustodyEvents(familyId, rotation, p1, p2, start, offset, n);
    assert events[k] == CustodyEvent(familyId, start + k, Owner(rotation, p1, p2, offset + k));
  }

  lemma StampedEventMatches(familyId: string, day: int, parent: Value, counter: nat)
    ensures Matches(Stamp(CustodyEvent(familyId, day, parent), counter), CustodyQuery(familyId))
  {
    var doc := Stamp(CustodyEvent(familyId, day, parent), counter);
    StampedEvent(doc, familyId, day, parent, counter);
    CustodyMatch(doc, familyId);
  }

  /** A document of this family with type "custody" matches the custody query. */
  lemma CustodyMatch(doc: Doc, familyId: string)
    requires "family_id" in doc && doc["family_id"] == Str(familyId)
    requires "type" in doc && doc["type"] == Str("custody")
    ensures Matches(doc, CustodyQuery(familyId))
  {
    MatchesTopLevel(doc, CustodyQuery(familyId));
  }

  /** One event as stored: the day's date at midnight, titled "Custody" with
      type "custody", for the given parent, and the `_id` the store gives it. */
  lemma StampedEvent(doc: Doc, familyId: string, day: int, parent: Value, counter: nat)
    requires StoredEvent(doc, familyId, day, parent, counter)
    ensures && doc.Keys == {"_id", "id", "family_id", "date", "type", "title", "parent", "isSwappable"}
      && doc["type"] == Str("custody") && doc["title"] == Str("Custody")
      && doc["family_id"] == Str(familyId)
      && doc["date"] == Time(day * 86400)
      && doc["parent"] == parent
      && doc["_id"] == Str(DecimalString(counter))
  {
    EventFields(familyId, day, parent);
  }

  /** The dumped event, before the store numbers it. */
  lemma EventFields(familyId: string, day: int, parent: Value)
    ensures var event := CustodyEvent(familyId, day, parent);
      && event.Keys == {"id", "family_id", "date", "type", "title", "parent", "isSwappable"}
      && "_id" !in event
      && event["type"] == Str("custody") && event["title"] == Str("Custody")
      && event["family_id"] == Str(familyId)
      && event["date"] == Time(day * 86400)
      && event["parent"] == parent
  {
  }

  /** Every generated custody event matches the custody query of its family. */
  lemma AllGeneratedMatch(familyId: string, rotation: Rotation, p1: Value, p2: Value,
                          start: int, offset: nat, n: nat, counter: nat)
    ensures var added := Stamped(CustodyEvents(familyId, rotation, p1, p2, start, offset, n), counter);
      forall k :: 0 <= k < |added| ==> Matches(added[k], CustodyQuery(familyId))
  {
    var added := Stamped(CustodyEvents(familyId, rotation, p1, p2, start, offset, n), counter);
    var q := CustodyQuery(familyId);
    forall day: int, parent: Value, c: nat ensures Matches(Stamp(CustodyEvent(familyId, day, parent), c), q) {
      StampedEventMatches(familyId, day, parent, c);
    }
    forall k | 0 <= k < |added| ensures Matches(added[k], q) {
      StampedEventAt(familyId, rotation, p1, p2, start, offset, n, counter, k);
    }
  }

  /** Regeneration replaces instead of accumulating: after a run, the
      family's custody events are exactly the ones it added, and clearing them
      again leaves exactly what the run kept. */
  lemma RegenerationReplaces(previous: seq<Doc>, familyId: string, rotation: Rotation,
                             p1: Value, p2: Value, start: int, offset: nat, n: nat, counter: nat)
    ensures var q := CustodyQuery(familyId);
      var kept := Where(previous, q, false);
      var added := Stamped(CustodyEvents(familyId, rotation, p1, p2, start, offset, n), counter);
      && Where(kept + added, q, true) == added
      && Where(kept + added, q, false) == kept
  {
    var q := CustodyQuery(familyId);
    var kept := Where(previous, q, false);
    var added := Stamped(CustodyEvents(familyId, rotation, p1, p2, start, offset, n), counter);
    WhereConcat(kept, added, q, false);
    WhereConcat(kept, added, q, true);
    WhereIdempotent(previous, q, false);
    WhereRejectedStayRejected(previous, q);
    AllGeneratedMatch(familyId, rotation, p1, p2, start, offset, n, counter);
    WhereNoneRejected(added, q);
    assert kept + [] == kept;
    assert [] + added == added;
  }

  /** After a run the family has at most one custody event per date: its
      custody events are dated on the consecutive days from `start`. */
  lemma OneEventPerDay(previous: seq<Doc>, familyId: string, rotation: Rotation,
                       p1: Value, p2: Value, start: int, offset: nat, n: nat, counter: nat)
    ensures var q := CustodyQuery(familyId);
      var after := Where(previous, q, false)
        + Stamped(CustodyEvents(familyId, rotation, p1, p2, start, offset, n), counter);
      var custody := Where(after, q, true);
      && |custody| == n
      && DatedFrom(custody, start)
      && (forall i, j | 0 <= i < j < n :: custody[i]["date"] != custody[j]["date"])
  {
    RegenerationReplaces(previous, familyId, rotation, p1, p2, start, offset, n, counter);
    var custody := Stamped(CustodyEvents(familyId, rotation, p1, p2, start, offset, n), counter);
    GeneratedDated(familyId, rotation, p1, p2, start, offset, n, counter);
    DatedFromDistinct(custody, start);
  }

  /** Each document is dated at midnight of the day `start + k`, `k` its position. */
  predicate DatedFrom(docs: seq<Doc>, start: int) {
    forall k | 0 <= k < |docs| :: "date" in docs[k] && docs[k]["date"] == Time((start + k) * 86400)
  }

  /** Documents dated on consecutive days have pairwise different dates. */
  lemma DatedFromDistinct(docs: seq<Doc>, start: int)
    requires DatedFrom(docs, start)
    ensures forall i, j | 0 <= i < j < |docs| :: docs[i]["date"] != docs[j]["date"]
  {
    forall i, j | 0 <= i < j < |docs| ensures docs[i]["date"] != docs[j]["date"] {
      assert (start + i) * 86400 < (start + j) * 86400;
    }
  }

  /** The generated events are dated on consecutive days from `start`. */
  lemma GeneratedDated(familyId: string, rotation: Rotation, p1: Value, p2: Value,
                       start: int, offset: nat, n: nat, counter: nat)
    ensures DatedFrom(Stamped(CustodyEvents(familyId, rotation, p1, p2, start, offset, n), counter), start)
  {
    var custody := Stamped(CustodyEvents(familyId, rotation, p1, p2, start, offset, n), counter);
    forall k | 0 <= k < |custody|
      ensures "date" in custody[k] && custody[k]["date"] == Time((start + k) * 86400)
    {
      StampedEventAt(familyId, rotation, p1, p2, start, offset, n, counter, k);
      EventDate(familyId, start + k, Owner(rotation, p1, p2, offset + k), counter + k);
    }
  }

  /** A stored custody event is dated at midnight of its day. */
  lemma EventDate(familyId: string, day: int, parent: Value, counter: nat)
    ensures var doc := Stamp(CustodyEvent(familyId, day, parent), counter);
      "date" in doc && doc["date"] == Time(day * 86400)
  {
    var event := CustodyEvent(familyId, day, parent);
    assert "date" in event && event["date"] == Time(day * 86400);
  }

  /** Running the generator twice with the same inputs is running it once:
      the second run keeps the same other events and stores the same custody
      events again, differing only in the `_id`s the store hands out. */
  lemma RegenerationIdempotent(previous: seq<Doc>, familyId: string, rotation: Rotation,
                               p1: Value, p2: Value, start: int, offset: nat, n: nat,
                               counter1: nat, counter2: nat)
    ensures var q := CustodyQuery(familyId);
      var events := CustodyEvents(familyId, rotation, p1, p2, start, offset, n);
      var once := Where(previous, q, false) + Stamped(events, counter1);
      var twice := Where(once, q, false) + Stamped(events, counter2);
      && Where(twice, q, false) == Where(once, q, false)
      && SameButIds(twice, once)
  {
    var q := CustodyQuery(familyId);
    var events := CustodyEvents(familyId, rotation, p1, p2, start, offset, n);
    var kept := Where(previous, q, false);
    var once := kept + Stamped(events, counter1);
    RegenerationReplaces(previous, familyId, rotation, p1, p2, start, offset, n, counter1);
    RegenerationReplaces(once, familyId, rotation, p1, p2, start, offset, n, counter2);
    EventsUnstamped(familyId, rotation, p1, p2, start, offset, n);
    RestampedAgree(events, counter2, counter1);
    SameButIdsConcat(kept, Stamped(events, counter2), Stamped(events, counter1));
  }

  /** Two lists of documents that agree position by position on every key but `_id`. */
  predicate SameButIds(s: seq<Doc>, t: seq<Doc>) {
    |s| == |t| && forall k | 0 <= k < |s| :: s[k] - {"_id"} == t[k] - {"_id"}
  }

  lemma SameButIdsConcat(kept: seq<Doc>, s: seq<Doc>, t: seq<Doc>)
    requires SameButIds(s, t)
    ensures SameButIds(kept + s, kept + t)
  {
    forall k | 0 <= k < |kept + s| ensures (kept + s)[k] - {"_id"} == (kept + t)[k] - {"_id"} {
      if k >= |kept| {
        assert (kept + s)[k] == s[k - |kept|] && (kept + t)[k] == t[k - |kept|];
      }
    }
  }

  /** The dumped events carry no `_id`, so the store numbers each of them. */
  lemma EventsUnstamped(familyId: string, rotation: Rotation, p1: Value, p2: Value,
                        start: int, offset: nat, n: nat)
    ensures forall k | 0 <= k < n :: "_id" !in CustodyEvents(familyId, rotation, p1, p2, start, offset, n)[k]
  {
    forall k | 0 <= k < n ensures "_id" !in CustodyEvents(familyId, rotation, p1, p2, start, offset, n)[k] {
      EventFields(familyId, start + k, Owner(rotation, p1, p2, offset + k));
    }
  }

  /** Numbering the same documents from two counters differs only in `_id`. */
  lemma RestampedAgree(docs: seq<Doc>, counter1: nat, counter2: nat)
    requires forall k | 0 <= k < |docs| :: "_id" !in docs[k]
    ensures SameButIds(Stamped(docs, counter1), Stamped(docs, counter2))
  {
    forall k | 0 <= k < |docs|
      ensures Stamped(docs, counter1)[k] - {"_id"} == Stamped(docs, counter2)[k] - {"_id"}
    {
      UnstampedEvent(docs[k], counter1 + k, counter2 + k);
    }
  }

  /** Stamping changes nothing but `_id`. */
  lemma UnstampedEvent(doc: Doc, counter1: nat, counter2: nat)
    requires "_id" !in doc
    ensures Stamp(doc, counter1) - {"_id"} == doc
    ensures Stamp(doc, counter2) - {"_id"} == Stamp(doc, counter1) - {"_id"}
  {
    assert (Stamp(doc, counter1) - {"_id"}).Keys == doc.Keys;
    assert (Stamp(doc, counter2) - {"_id"}).Keys == doc.Keys;
  }

  /** Only this family's custody events are removed: every other event is
      kept, and every kept event is one of the old ones. */
  lemma OthersUntouched(previous: seq<Doc>, familyId: string, e: Doc)
    ensures e in Where(previous, CustodyQuery(familyId), false) <==>
      e in previous && !Matches(e, CustodyQuery(familyId))
  {
    WhereMembers(previous, CustodyQuery(familyId), false, e);
  }
}

=== FILE: calendar_router.dfy ===
/** The calendar endpoints: events and change requests kept in two
    module-level dictionaries. */
module CalendarRouter {
  import opened Wrappers
  import opened Dates
  import opened Http

  /** A `datetime`: a date and the seconds since its midnight. */
  datatype DateTime = DateTime(date: Date, second: nat)

  /** `Event` (the pydantic record). */
  datatype Event = Event(id: Option<string>, familyId: string, date: DateTime, kind: string,
                         title: string, parent: Option<string>, isSwappable: Option<bool>)

  /** `EventCreate`. */
  datatype EventCreate = EventCreate(date: DateTime, kind: string, title: string,
                                     parent: Option<string>, isSwappable: Option<bool>)

  /** `ChangeRequestCreate`. */
  datatype ChangeRequestCreate = ChangeRequestCreate(eventId: string, requestType: string,
                                                     newDate: Option<DateTime>, swapEventId: Option<string>,
                                                     reason: Option<string>)

  /** A change request, with the fields of `ChangeRequest` the handlers
      use. `newDate` is the date the event moves to on approval; the handlers
      read it under the name `requestedDate`, which the record does not
      declare (see `ChangeRequestsAsWrittenFail`). */
  datatype ChangeRequest = ChangeRequest(id: Option<string>, eventId: string, requestedByEmail: string,
                                         status: string, reason: Option<string>, createdAt: DateTime,
                                         newDate: Option<DateTime>)

  // ---------------------------------------------------------------------------
  // Dictionaries with insertion order

  /** A `dict` keyed by strings: its keys in insertion order and its entries. */
  datatype Dict<V> = Dict(keys: seq<string>, entries: map<string, V>) {

    /** Each key is listed once, and exactly the keys with entries are listed. */
    ghost predicate Valid() {
      && (forall i, j | 0 <= i < j < |keys| :: keys[i] != keys[j])
      && (forall k :: k in entries <==> k in keys)
    }

    /** `d[k] = v`: a new key goes last, an existing key keeps its place. */
    function Put(k: string, v: V): (d: Dict<V>)
      ensures d.entries == entries[k := v]
    {
      Dict(if k in entries then keys else keys + [k], entries[k := v])
    }

    /** `list(d.values())`. */
    function Values(): seq<V>
      requires Valid()
    {
      seq(|keys|, i requires 0 <= i < |keys| => entries[keys[i]])
    }
  }

  function EmptyDict<V>(): (d: Dict<V>)
    ensures d.Valid() && d.Values() == []
  {
    Dict([], map[])
  }

  /** Assignment keeps a dictionary well formed; a new key is appended to the
      order, and an existing key keeps its position. */
  lemma PutValid<V>(d: Dict<V>, k: string, v: V)
    requires d.Valid()
    ensures d.Put(k, v).Valid()
    ensures k !in d.entries ==> d.Put(k, v).Values() == d.Values() + [v]
    ensures k in d.entries ==> |d.Put(k, v).Values()| == |d.Values()|
    ensures k in d.entries ==> d.Put(k, v).keys == d.keys
    ensures k in d.entries ==> forall i | 0 <= i < |d.keys| ::
      d.Put(k, v).Values()[i] == if d.keys[i] == k then v else d.Values()[i]
  {
    var e := d.Put(k, v);
    if k !in d.entries {
      assert e.keys == d.keys + [k];
      assert e.Values() == d.Values() + [v];
    }
  }

  /** The values list holds every entry, and nothing else. */
  lemma ValuesComplete<V>(d: Dict<V>)
    requires d.Valid()
    ensures forall k | k in d.entries :: d.entries[k] in d.Values()
    ensures forall x | x in d.Values() :: exists k | k in d.entries :: d.entries[k] == x
  {
    forall k | k in d.entries ensures d.entries[k] in d.Values() {
      var i :| 0 <= i < |d.keys| && d.keys[i] == k;
      assert d.Values()[i] == d.entries[k];
    }
  }

  // ---------------------------------------------------------------------------
  // Listing by month

  /** The events dated in the given year and month, in order. */
  function InMonth(events: seq<Event>, year: int, month: int): seq<Event>
    decreases |events|
  {
    if events == [] then []
    else
      var e := events[0];
      (if e.date.date.year == year && e.date.date.month == month then [e] else [])
        + InMonth(events[1..], year, month)
  }

  /** An event is listed iff it is stored and dated in that year and month. */
  lemma {:induction false} InMonthMembers(events: seq<Event>, year: int, month: int, e: Event)
    ensures e in InMonth(events, year, month) <==>
      e in events && e.date.date.year == year && e.date.date.month == month
    decreases |events|
  {
    if events != [] {
      InMonthMembers(events[1..], year, month, e);
      assert events == [events[0]] + events[1..];
    }
  }

  lemma {:induction false} InMonthAppend(events: seq<Event>, e: Event, year: int, month: int)
    ensures InMonth(events + [e], year, month)
      == InMonth(events, year, month)
        + (if e.date.date.year == year && e.date.date.month == month then [e] else [])
    decreases |events|
  {
    if events == [] {
      assert [e][1..] == [];
    } else {
      assert (events + [e])[1..] == events[1..] + [e];
      InMonthAppend(events[1..], e, year, month);
    }
  }

  // ---------------------------------------------------------------------------
  // Change requests

  /** The fields `ChangeRequestCreate` declares. */
  const CreateFields: set<string> := {"event_id", "requestType", "newDate", "swapEventId", "reason"}

  /** The fields of the pydantic `ChangeRequest` that have no default. */
  const RequiredRequestFields: set<string> :=
    {"event_id", "requestedBy_email", "createdAt", "requestType", "eventTitle", "eventType", "eventDate"}

  /** The keyword arguments the create handler passes to `ChangeRequest(...)`. */
  const SuppliedRequestFields: set<string> :=
    {"id", "event_id", "requestedBy_email", "status", "requestedDate", "reason", "createdAt"}

  /** The placeholder identity the handlers use while authentication is off. */
  const PlaceholderEmail: string := "placeholder@example.com"
  const PlaceholderFamily: string := "placeholder-family-id"

  /** `create_change_request` as it is written, for an existing event: the
      attribute `requestedDate` is read from a record that does not declare it,
      and the record built lacks required fields; either raises. */
  function CreateRequestAsWritten(data: ChangeRequestCreate, id: string, now: DateTime): Result<ChangeRequest, Failure> {
    if "requestedDate" !in CreateFields then
      Err(InternalError("'ChangeRequestCreate' object has no attribute 'requestedDate'"))
    else if !(RequiredRequestFields <= SuppliedRequestFields) then
      Err(InternalError("validation error for ChangeRequest"))
    else
      Ok(ChangeRequest(Some(id), data.eventId, PlaceholderEmail, "pending", data.reason, now, data.newDate))
  }

  /** The fields `ChangeRequest` declares. */
  const RequestFields: set<string> :=
    {"id", "event_id", "requestedBy_email", "status", "reason", "createdAt", "updatedAt",
     "resolvedBy_email", "requestType", "eventTitle", "eventType", "eventParent", "eventDate",
     "newDate", "swapEventId", "swapEventTitle", "swapEventDate"}

  /** The approval step of `update_change_request` as it is written: for an
      approval the attribute `requestedDate` is read from a stored request,
      which does not declare it; a rejection never reads it. */
  function ApproveAsWritten(request: ChangeRequest, status: string): Result<ChangeRequest, Failure> {
    if status == "approved" && "requestedDate" !in RequestFields then
      Err(InternalError("'ChangeRequest' object has no attribute 'requestedDate'"))
    else
      Ok(request.(status := status))
  }

  /** As written, no change request can ever be created, and a stored one
      could never be approved: both handlers read `requestedDate`, which
      neither record declares. */
  lemma ChangeRequestsAsWrittenFail(data: ChangeRequestCreate, id: string, now: DateTime, request: ChangeRequest)
    ensures CreateRequestAsWritten(data, id, now).Err?
    ensures CreateRequestAsWritten(data, id, now).error.InternalError?
    ensures RequiredRequestFields - SuppliedRequestFields == {"requestType", "eventTitle", "eventType", "eventDate"}
    ensures ApproveAsWritten(request, "approved").Err?
    ensures ApproveAsWritten(request, "rejected") == Ok(request.(status := "rejected"))
  {
    assert "requestType" in RequiredRequestFields && "requestType" !in SuppliedRequestFields;
    assert "requestedDate" !in RequestFields;
  }

  /** The request the handler evidently means to build: pending, for the
      given event, moving it to the date asked for (`newDate`). */
  function NewRequest(data: ChangeRequestCreate, id: string, now: DateTime): (r: ChangeRequest)
    ensures r.id == Some(id) && r.status == "pending" && r.eventId == data.eventId
    ensures r.newDate == data.newDate && r.requestedByEmail == PlaceholderEmail
    ensures r.reason == data.reason && r.createdAt == now
  {
    ChangeRequest(Some(id), data.eventId, PlaceholderEmail, "pending", data.reason, now, data.newDate)
  }

  /** A status the update handler accepts. */
  predicate IsResolution(status: string) {
    status == "approved" || status == "rejected"
  }

  /** The event store after resolving `request` with `status`: only approval
      with a requested date of an event still stored moves that event. */
  function Resolve(events: map<string, Event>, request: ChangeRequest, status: string): (r: map<string, Event>)
    ensures r.Keys == events.Keys
    ensures forall k | k in events && k != request.eventId :: r[k] == events[k]
    ensures status == "approved" && request.newDate.Some? && request.eventId in events ==>
      r[request.eventId] == events[request.eventId].(date := request.newDate.value)
    ensures status != "approved" || request.newDate.None? ==> r == events
  {
    if status == "approved" && request.newDate.Some? && request.eventId in events then
      events[request.eventId := events[request.eventId].(date := request.newDate.value)]
    else events
  }

  /** The two dictionaries behind the calendar endpoints. */
  class CalendarStore {
    var events: Dict<Event>
    var requests: Dict<ChangeRequest>

    ghost predicate Valid()
      reads this
    {
      events.Valid() && requests.Valid()
    }

    constructor ()
      ensures Valid() && events.Values() == [] && requests.Values() == []
    {
      events := EmptyDict();
      requests := EmptyDict();
    }

    /** `get_calendar_events`: the stored events dated in `year`/`month`, in
        insertion order. */
    method GetCalendarEvents(year: int, month: int) returns (r: seq<Event>)
      requires Valid()
      ensures r == InMonth(events.Values(), year, month)
      ensures forall e :: e in r <==>
        e in events.Values() && e.date.date.year == year && e.date.date.month == month
    {
      var all := events.Values();
      r := [];
      var i := 0;
      while i < |all|
        invariant 0 <= i <= |all|
        invariant r == InMonth(all[..i], year, month)
      {
        InMonthAppend(all[..i], all[i], year, month);
        assert all[..i + 1] == all[..i] + [all[i]];
        if all[i].date.date.year == year && all[i].date.date.month == month {
          r := r + [all[i]];
        }
        i := i + 1;
      }
      assert all[..|all|] == all;
      forall e ensures e in r <==> e in all && e.date.date.year == year && e.date.date.month == month {
        InMonthMembers(all, year, month, e);
      }
    }

    /** `create_calendar_event`: stores the event under `newId` (a fresh
        uuid), for the placeholder family, and returns it. */
    method CreateCalendarEvent(data: EventCreate, newId: string) returns (e: Event)
      requires Valid()
      modifies this
      ensures Valid() && requests == old(requests)
      ensures e == Event(Some(newId), PlaceholderFamily, data.date, data.kind, data.title,
                         data.parent, data.isSwappable)
      ensures events.entries == old(events.entries)[newId := e]
      ensures newId !in old(events.entries) ==> events.Values() == old(events.Values()) + [e]
    {
      e := Event(Some(newId), PlaceholderFamily, data.date, data.kind, data.title, data.parent, data.isSwappable);
      PutValid(events, newId, e);
      events := events.Put(newId, e);
    }

    /** `create_change_request` with the requested date taken from `newDate`:
        refused for an unknown event, otherwise stored pending under `newId`. */
    method CreateChangeRequest(data: ChangeRequestCreate, newId: string, now: DateTime)
      returns (r: Result<ChangeRequest, Failure>)
      requires Valid()
      modifies this
      ensures Valid() && events == old(events)
      ensures data.eventId !in events.entries ==> r == Err(NotFound("Event not found")) && requests == old(requests)
      ensures data.eventId in events.entries ==>
        && r == Ok(NewRequest(data, newId, now))
        && requests.entries == old(requests.entries)[newId := r.value]
        && (newId !in old(requests.entries) ==> requests.Values() == old(requests.Values()) + [r.value])
    {
      if data.eventId !in events.entries {
        return Err(NotFound("Event not found"));
      }
      var request := NewRequest(data, newId, now);
      PutValid(requests, newId, request);
      requests := requests.Put(newId, request);
      r := Ok(request);
    }

    /** `update_change_request`: unknown id first, then an invalid status;
        otherwise the status is recorded and an approval moves the event. */
    method UpdateChangeRequest(id: string, status: string) returns (r: Result<ChangeRequest, Failure>)
      requires Valid()
      modifies this
      ensures Valid()
      ensures id !in old(requests.entries) ==>
        r == Err(NotFound("Change request not found")) && events == old(events) && requests == old(requests)
      ensures id in old(requests.entries) && !IsResolution(status) ==>
        r == Err(BadRequest("Status must be 'approved' or 'rejected'"))
        && events == old(events) && requests == old(requests)
      ensures id in old(requests.entries) && IsResolution(status) ==>
        var updated := old(requests.entries)[id].(status := status);
        && r == Ok(updated)
        && requests.entries == old(requests.entries)[id := updated]
        && requests.keys == old(requests.keys)
        && events.keys == old(events.keys)
        && events.entries == Resolve(old(events.entries), old(requests.entries)[id], status)
    {
      if id !in requests.entries {
        return Err(NotFound("Change request not found"));
      }
      var request := requests.entries[id];
      if !IsResolution(status) {
        return Err(BadRequest("Status must be 'approved' or 'rejected'"));
      }
      request := request.(status := status);
      if status == "approved" && request.newDate.Some? {
        var eventId := request.eventId;
        if eventId in events.entries {
          var moved := events.entries[eventId].(date := request.newDate.value);
          PutValid(events, eventId, moved);
          events := events.Put(eventId, moved);
        }
      }
      PutValid(requests, id, request);
      requests := requests.Put(id, request);
      r := Ok(request);
    }

    /** `get_change_requests`: every stored request, in insertion order. */
    method GetChangeRequests() returns (r: seq<ChangeRequest>)
      requires Valid()
      ensures |r| == |requests.keys|
      ensures forall i | 0 <= i < |r| :: r[i] == requests.entries[requests.keys[i]]
      ensures forall k | k in requests.entries :: requests.entries[k] in r
      ensures forall x | x in r :: exists k | k in requests.entries :: requests.entries[k] == x
    {
      r := requests.Values();
      ValuesComplete(requests);
    }
  }
}

=== FILE: dates.dfy ===
/** Proleptic Gregorian calendar dates and their day numbers, as Python's
    `date` computes them (`toordinal`, `date + timedelta(days=1)`). */
module Dates {

  datatype Date = Date(year: int, month: int, day: int)

  predicate IsLeap(y: int) {
    y % 4 == 0 && (y % 100 != 0 || y % 400 == 0)
  }

  function DaysInMonth(y: int, m: int): nat
    requires 1 <= m <= 12
  {
    if m == 2 then (if IsLeap(y) then 29 else 28)
    else if m == 4 || m == 6 || m == 9 || m == 11 then 30
    else 31
  }

  /** Days in the months of year `y` before month `m`. */
  function DaysBeforeMonth(y: int, m: int): nat
    requires 1 <= m <= 12
    decreases m
  {
    if m == 1 then 0 else DaysBeforeMonth(y, m - 1) + DaysInMonth(y, m - 1)
  }

  /** Days in the years before year `y`, counted from year 1. */
  function DaysBeforeYear(y: int): int
    requires y >= 1
  {
    var p := y - 1;
    365 * p + p / 4 - p / 100 + p / 400
  }

  /** The range Python's `date` accepts. */
  predicate ValidDate(d: Date) {
    1 <= d.year <= 9999 && 1 <= d.month <= 12 && 1 <= d.day <= DaysInMonth(d.year, d.month)
  }

  /** `date.toordinal()`: 0001-01-01 is day 1. */
  function Ordinal(d: Date): int
    requires ValidDate(d)
  {
    DaysBeforeYear(d.year) + DaysBeforeMonth(d.year, d.month) + d.day
  }

  /** January 1st of the year of `d`. */
  function NewYear(d: Date): (r: Date)
    requires ValidDate(d)
    ensures ValidDate(r) && Ordinal(r) <= Ordinal(d)
  {
    Date(d.year, 1, 1)
  }

  /** `d + timedelta(days=1)` (Python overflows past 9999-12-31, where this yields an invalid date). */
  function NextDay(d: Date): (r: Date)
    requires ValidDate(d)
  {
    if d.day < DaysInMonth(d.year, d.month) then Date(d.year, d.month, d.day + 1)
    else if d.month < 12 then Date(d.year, d.month + 1, 1)
    else Date(d.year + 1, 1, 1)
  }

  /** Floor division by a constant steps up exactly when the next value is a multiple of it. */
  lemma DivSteps(p: nat)
    ensures (p + 1) / 4 == p / 4 + (if (p + 1) % 4 == 0 then 1 else 0)
    ensures (p + 1) / 100 == p / 100 + (if (p + 1) % 100 == 0 then 1 else 0)
    ensures (p + 1) / 400 == p / 400 + (if (p + 1) % 400 == 0 then 1 else 0)
  {
  }

  function Step(divides: bool): int {
    if divides then 1 else 0
  }

  lemma DaysBeforeYearStep(y: int)
    requires y >= 1
    ensures DaysBeforeYear(y + 1) == DaysBeforeYear(y) + (if IsLeap(y) then 366 else 365)
  {
    DivSteps(y - 1);
    assert DaysBeforeYear(y + 1) ==
      DaysBeforeYear(y) + 365 + Step(y % 4 == 0) - Step(y % 100 == 0) + Step(y % 400 == 0);
    LeapSteps(y);
  }

  /** The leap rule, as the three divisibility steps of the day count add up. */
  lemma LeapSteps(y: int)
    ensures (if IsLeap(y) then 366 else 365) ==
      365 + Step(y % 4 == 0) - Step(y % 100 == 0) + Step(y % 400 == 0)
  {
    if y % 400 == 0 {
      var k := y / 400;
      assert y == 100 * (4 * k);
      assert y == 4 * (100 * k);
    } else if y % 100 == 0 {
      var k := y / 100;
      assert y == 4 * (25 * k);
    }
  }

  lemma DaysInYear(y: int)
    ensures DaysBeforeMonth(y, 12) + DaysInMonth(y, 12) == if IsLeap(y) then 366 else 365
  {
    var leap := if IsLeap(y) then 1 else 0;
    assert DaysBeforeMonth(y, 3) == 59 + leap;
    assert DaysBeforeMonth(y, 6) == 151 + leap;
    assert DaysBeforeMonth(y, 9) == 243 + leap;
    assert DaysBeforeMonth(y, 12) == 334 + leap;
  }

  /** Stepping a date by one day adds one to its day number, so a day number
      stands for the date the loop advances one day at a time. */
  lemma NextDayOrdinal(d: Date)
    requires ValidDate(d) && !(d.year == 9999 && d.month == 12 && d.day == 31)
    ensures ValidDate(NextDay(d)) && Ordinal(NextDay(d)) == Ordinal(d) + 1
  {
    if d.day < DaysInMonth(d.year, d.month) {
    } else if d.month < 12 {
      NextMonthOrdinal(d);
    } else {
      NextYearOrdinal(d);
    }
  }

  lemma NextMonthOrdinal(d: Date)
    requires ValidDate(d) && d.day == DaysInMonth(d.year, d.month) && d.month < 12
    ensures NextDay(d) == Date(d.year, d.month + 1, 1)
    ensures ValidDate(NextDay(d)) && Ordinal(NextDay(d)) == Ordinal(d) + 1
  {
    assert DaysBeforeMonth(d.year, d.month + 1) ==
      DaysBeforeMonth(d.year, d.month) + DaysInMonth(d.year, d.month);
  }

  lemma NextYearOrdinal(d: Date)
    requires ValidDate(d) && d.month == 12 && d.day == 31 && d.year < 9999
    ensures NextDay(d) == Date(d.year + 1, 1, 1)
    ensures ValidDate(NextDay(d)) && Ordinal(NextDay(d)) == Ordinal(d) + 1
  {
    DaysBeforeYearStep(d.year);
    DaysInYear(d.year);
    assert Ordinal(Date(d.year + 1, 1, 1)) == DaysBeforeYear(d.year + 1) + 1;
  }
}

=== FILE: document_parser.dfy ===
/** The custody-agreement reader: text extraction dispatch, the prompt
    sample, and the pattern parser used when no language model answers. */
module DocumentParser {
  import opened Wrappers
  import opened Text
  import opened FamilyRouter

  // ---------------------------------------------------------------------------
  // Regular expressions, as used by the pattern parser

  /** `\s` (the characters `str.isspace` accepts) and `.` (anything but a
      newline: the patterns are compiled without DOTALL). */
  datatype CharClass = Whitespace | AnyButNewline

  predicate InClass(c: char, k: CharClass) {
    match k
    case Whitespace => IsSpace(c)
    case AnyButNewline => c != '\n'
  }

  /** One element of a pattern: a literal, a one-character set (`[/-]`),
      or a class repeated zero (`*`) or one (`+`) or more times. */
  datatype Piece = Lit(w: string) | OneOf(cs: string) | Star(k: CharClass) | Plus(k: CharClass)

  /** The pattern `ps` matches all of `t`. */
  predicate Match(t: string, ps: seq<Piece>)
    decreases |ps|, |t|
  {
    if ps == [] then t == []
    else match ps[0]
      case Lit(w) => |w| <= |t| && t[..|w|] == w && Match(t[|w|..], ps[1..])
      case OneOf(cs) => |t| >= 1 && t[0] in cs && Match(t[1..], ps[1..])
      case Star(k) => Match(t, ps[1..]) || (|t| >= 1 && InClass(t[0], k) && Match(t[1..], ps))
      case Plus(k) => |t| >= 1 && InClass(t[0], k) && Match(t[1..], [Star(k)] + ps[1..])
  }

  /** `re.search(pattern, s)` succeeds: some slice of `s` matches. */
  predicate Search(s: string, ps: seq<Piece>) {
    exists i, j | 0 <= i <= j <= |s| :: Match(s[i..j], ps)
  }

  const EqualSlash: seq<Piece> := [Lit("50"), Star(Whitespace), OneOf("/-"), Star(Whitespace), Lit("50")]
  const EqualTime: seq<Piece> := [Lit("equal"), Plus(Whitespace), Lit("time")]
  const FiftyFifty: seq<Piece> := [Lit("fifty"), Plus(Whitespace), Lit("fifty")]
  const PrimaryThenSecondary: seq<Piece> := [Lit("primary"), Star(AnyButNewline), Lit("secondary")]
  const PrimaryCustody: seq<Piece> := [Lit("primary"), Plus(Whitespace), Lit("custody")]
  const JointLegal: seq<Piece> := [Lit("joint"), Plus(Whitespace), Lit("legal"), Plus(Whitespace), Lit("custody")]
  const SoleLegal: seq<Piece> := [Lit("sole"), Plus(Whitespace), Lit("legal"), Plus(Whitespace), Lit("custody")]
  const AlternateThenHoliday: seq<Piece> := [Lit("alternat"), Star(AnyButNewline), Lit("holiday")]
  const HolidayThenAlternate: seq<Piece> := [Lit("holiday"), Star(AnyButNewline), Lit("alternat")]
  const DigitsTwoTwoThree: seq<Piece> :=
    [Lit("2"), Star(Whitespace), Lit("-"), Star(Whitespace), Lit("2"), Star(Whitespace), Lit("-"),
     Star(Whitespace), Lit("3")]
  const WordsTwoTwoThree: seq<Piece> :=
    [Lit("two"), Star(AnyButNewline), Lit("two"), Star(AnyButNewline), Lit("three")]
  const WeekOnWeekOff: seq<Piece> :=
    [Lit("week"), Star(AnyButNewline), Lit("on"), Star(AnyButNewline), Lit("week"), Star(AnyButNewline), Lit("off")]
  const AlternateWeek: seq<Piece> := [Lit("alternat"), Star(AnyButNewline), Lit("week")]

  predicate EqualSplitRe(t: string) { Search(t, EqualSlash) || Search(t, EqualTime) || Search(t, FiftyFifty) }
  predicate PrimaryRe(t: string) { Search(t, PrimaryThenSecondary) || Search(t, PrimaryCustody) }
  predicate JointRe(t: string) { Search(t, JointLegal) }
  predicate SoleRe(t: string) { Search(t, SoleLegal) }
  predicate HolidayRe(t: string) { Search(t, AlternateThenHoliday) || Search(t, HolidayThenAlternate) }
  predicate TwoTwoThreeRe(t: string) { Search(t, DigitsTwoTwoThree) || Search(t, WordsTwoTwoThree) }
  predicate WeekRe(t: string) { Search(t, WeekOnWeekOff) || Search(t, AlternateWeek) }

  // ---------------------------------------------------------------------------
  // Building matches

  lemma MatchEmpty()
    ensures Match("", [])
  {
  }

  lemma LitThen(w: string, t: string, ps: seq<Piece>)
    requires Match(t, ps)
    ensures Match(w + t, [Lit(w)] + ps)
  {
    var s := w + t;
    assert s[..|w|] == w && s[|w|..] == t;
    assert ([Lit(w)] + ps)[1..] == ps;
  }

  lemma OneOfThen(c: char, cs: string, t: string, ps: seq<Piece>)
    requires c in cs && Match(t, ps)
    ensures Match([c] + t, [OneOf(cs)] + ps)
  {
    assert ([c] + t)[1..] == t;
    assert ([OneOf(cs)] + ps)[1..] == ps;
  }

  /** A run of class characters is absorbed by `*`. */
  lemma {:induction false} StarThen(g: string, k: CharClass, t: string, ps: seq<Piece>)
    requires forall i | 0 <= i < |g| :: InClass(g[i], k)
    requires Match(t, ps)
    ensures Match(g + t, [Star(k)] + ps)
    decreases |g|
  {
    assert ([Star(k)] + ps)[1..] == ps;
    if g == [] {
      assert g + t == t;
    } else {
      StarThen(g[1..], k, t, ps);
      assert (g + t)[1..] == g[1..] + t;
      assert (g + t)[0] == g[0];
    }
  }

  lemma PlusThen(g: string, k: CharClass, t: string, ps: seq<Piece>)
    requires |g| >= 1 && forall i | 0 <= i < |g| :: InClass(g[i], k)
    requires Match(t, ps)
    ensures Match(g + t, [Plus(k)] + ps)
  {
    StarThen(g[1..], k, t, ps);
    assert (g + t)[1..] == g[1..] + t;
    assert ([Plus(k)] + ps)[1..] == ps;
  }

  /** A slice that matches makes the search succeed, whatever surrounds it. */
  lemma SearchWithin(a: string, t: string, b: string, ps: seq<Piece>)
    requires Match(t, ps)
    ensures Search(a + t + b, ps)
  {
    var s := a + t + b;
    assert s[|a|..|a| + |t|] == t;
  }

  /** A match of a pattern starting with a literal starts with that literal. */
  lemma MatchStartsWith(t: string, w: string, ps: seq<Piece>)
    requires Match(t, [Lit(w)] + ps)
    ensures |w| <= |t| && t[..|w|] == w
  {
    assert ([Lit(w)] + ps)[0] == Lit(w);
  }

  /** A search for a pattern that starts with a literal finds that literal. */
  lemma SearchFindsLiteral(t: string, w: string, ps: seq<Piece>)
    requires Search(t, [Lit(w)] + ps)
    ensures Contains(t, w)
  {
    var i, j :| 0 <= i <= j <= |t| && Match(t[i..j], [Lit(w)] + ps);
    MatchStartsWith(t[i..j], w, ps);
    assert t[i..i + |w|] == t[i..j][..|w|];
    ContainsWitness(t, w, i);
  }

  /** Text mentioning neither "2" nor "two" never reads as 2-2-3. */
  lemma NoTwoTwoThree(t: string)
    requires !Contains(t, "2") && !Contains(t, "two")
    ensures !TwoTwoThreeRe(t)
  {
    assert DigitsTwoTwoThree == [Lit("2")] + DigitsTwoTwoThree[1..];
    assert WordsTwoTwoThree == [Lit("two")] + WordsTwoTwoThree[1..];
    if Search(t, DigitsTwoTwoThree) {
      SearchFindsLiteral(t, "2", DigitsTwoTwoThree[1..]);
    }
    if Search(t, WordsTwoTwoThree) {
      SearchFindsLiteral(t, "two", WordsTwoTwoThree[1..]);
    }
  }

  // ---------------------------------------------------------------------------
  // The pattern parser

  datatype ChildSupport = ChildSupport(amount: int, payer: string, frequency: string)

  /** What the parsers return (confidence scores are left out). */
  datatype ParsedAgreement = ParsedAgreement(custodyArrangement: string, custodySchedule: Option<string>,
                                             holidaySchedule: Option<string>, decisionMaking: string,
                                             expenseSplit: ExpenseSplit, childSupport: ChildSupport,
                                             extractedTerms: seq<Term>, startDate: Option<string>,
                                             endDate: Option<string>)

  /** The record the pattern parser starts from. */
  const DefaultAgreement: ParsedAgreement :=
    ParsedAgreement("custom", None, None, "joint", ExpenseSplit("50-50", 50, 50), ChildSupport(0, "none", "none"),
                    [], None, None)

  /** `_parse_with_patterns`: the tests run on the lowercased text in a fixed
      order, each of them filling its fields and adding its term. */
  function ParsePatterns(text: string): (r: ParsedAgreement)
    ensures var t := Lower(text);
      && (EqualSplitRe(t) ==> r.custodyArrangement == "50-50" && r.expenseSplit == ExpenseSplit("50-50", 50, 50))
      && (!EqualSplitRe(t) && PrimaryRe(t) ==>
            r.custodyArrangement == "primary-secondary" && r.expenseSplit == ExpenseSplit("60-40", 60, 40))
      && (!EqualSplitRe(t) && !PrimaryRe(t) ==>
            r.custodyArrangement == "custom" && r.expenseSplit == ExpenseSplit("50-50", 50, 50))
      && (r.decisionMaking == "sole" <==> !JointRe(t) && SoleRe(t))
      && (r.decisionMaking == "joint" <==> JointRe(t) || !SoleRe(t))
      && (r.holidaySchedule == Some("Alternating holidays") <==> HolidayRe(t))
      && (r.holidaySchedule.None? <==> !HolidayRe(t))
      && (TwoTwoThreeRe(t) ==> r.custodySchedule == Some("2-2-3 schedule"))
      && (!TwoTwoThreeRe(t) && WeekRe(t) ==> r.custodySchedule == Some("Week-on/week-off"))
      && (!TwoTwoThreeRe(t) && !WeekRe(t) ==> r.custodySchedule.None?)
    ensures r.expenseSplit.parent1 + r.expenseSplit.parent2 == 100
  {
    var t := Lower(text);
    var split :=
      if EqualSplitRe(t) then ("50-50", [SplitTermEqual], ExpenseSplit("50-50", 50, 50))
      else if PrimaryRe(t) then ("primary-secondary", [SplitTermPrimary], ExpenseSplit("60-40", 60, 40))
      else ("custom", [], ExpenseSplit("50-50", 50, 50));
    var decision :=
      if JointRe(t) then ("joint", [LegalTerm])
      else if SoleRe(t) then ("sole", [])
      else ("joint", []);
    var holiday := if HolidayRe(t) then (Some("Alternating holidays"), [HolidayTerm]) else (None, []);
    var schedule :=
      if TwoTwoThreeRe(t) then Some("2-2-3 schedule")
      else if WeekRe(t) then Some("Week-on/week-off")
      else None;
    ParsedAgreement(split.0, schedule, holiday.0, decision.0, split.2, ChildSupport(0, "none", "none"),
                    split.1 + decision.1 + holiday.1, None, None)
  }

  /** The terms the pattern parser reports: one per test that matched, at
      most three; and with no test matching, the default record untouched. */
  lemma ParsePatternsTerms(text: string)
    ensures var t := Lower(text); var r := ParsePatterns(text);
      && (EqualSplitRe(t) ==> SplitTermEqual in r.extractedTerms && SplitTermPrimary !in r.extractedTerms)
      && (!EqualSplitRe(t) && PrimaryRe(t) ==> SplitTermPrimary in r.extractedTerms)
      && (LegalTerm in r.extractedTerms <==> JointRe(t))
      && (HolidayTerm in r.extractedTerms <==> HolidayRe(t))
      && |r.extractedTerms| <= 3
      && ((!EqualSplitRe(t) && !PrimaryRe(t) && !JointRe(t) && !SoleRe(t) && !HolidayRe(t)
           && !TwoTwoThreeRe(t) && !WeekRe(t)) ==> r == DefaultAgreement)
  {
    TermsDistinct();
  }

  /** A text that mentions "primary custody" and no equal split reads as
      primary/secondary with a 60-40 split. */
  lemma PrimaryCustodyReading(text: string, a: string, g: string, b: string)
    requires Lower(text) == a + ("primary" + g + "custody") + b
    requires |g| >= 1 && forall i | 0 <= i < |g| :: IsSpace(g[i])
    requires !Contains(Lower(text), "50") && !Contains(Lower(text), "equal") && !Contains(Lower(text), "fifty")
    ensures ParsePatterns(text).custodyArrangement == "primary-secondary"
    ensures ParsePatterns(text).expenseSplit == ExpenseSplit("60-40", 60, 40)
  {
    PrimaryFound(a, g, b);
    NoEqualSplit(Lower(text));
  }

  /** `\s*-\s*` in front of a match. */
  lemma SpacedDash(t: string, ps: seq<Piece>)
    requires Match(t, ps)
    ensures Match("-" + t, [Star(Whitespace), Lit("-"), Star(Whitespace)] + ps)
  {
    StarThen("", Whitespace, t, ps);
    assert "" + t == t;
    LitThen("-", t, [Star(Whitespace)] + ps);
    assert [Lit("-")] + ([Star(Whitespace)] + ps) == [Lit("-"), Star(Whitespace)] + ps;
    StarThen("", Whitespace, "-" + t, [Lit("-"), Star(Whitespace)] + ps);
    assert "" + ("-" + t) == "-" + t;
    assert [Star(Whitespace)] + ([Lit("-"), Star(Whitespace)] + ps) == [Star(Whitespace), Lit("-"), Star(Whitespace)] + ps;
  }

  lemma DigitsMatch()
    ensures Match("2-2-3", DigitsTwoTwoThree)
  {
    var dash := [Star(Whitespace), Lit("-"), Star(Whitespace)];
    var three: seq<Piece> := [Lit("3")];
    MatchEmpty();
    LitThen("3", "", []);
    assert "3" + "" == "3" && [Lit("3")] + [] == three;
    SpacedDash("3", three);
    LitThen("2", "-" + "3", dash + three);
    SpacedDash("2" + ("-" + "3"), [Lit("2")] + (dash + three));
    LitThen("2", "-" + ("2" + ("-" + "3")), dash + ([Lit("2")] + (dash + three)));
    assert "2" + ("-" + ("2" + ("-" + "3"))) == "2-2-3";
    assert [Lit("2")] + (dash + ([Lit("2")] + (dash + three))) == DigitsTwoTwoThree;
  }

  /** A literal alone matches itself. */
  lemma LitAlone(w: string)
    ensures Match(w, [Lit(w)])
  {
    MatchEmpty();
    LitThen(w, "", []);
    assert w + "" == w && [Lit(w)] + [] == [Lit(w)];
  }

  lemma Regroup(a: string, b: string, c: string)
    ensures a + (b + c) == a + b + c
  {
  }

  lemma RegroupPieces(p: Piece, q: Piece, ps: seq<Piece>)
    ensures [p] + ([q] + ps) == [p, q] + ps
  {
  }

  /** A literal, then a run of class characters absorbed by `*`. */
  lemma LitStarThen(w: string, g: string, k: CharClass, t: string, ps: seq<Piece>)
    requires forall i | 0 <= i < |g| :: InClass(g[i], k)
    requires Match(t, ps)
    ensures Match(w + g + t, [Lit(w), Star(k)] + ps)
  {
    StarThen(g, k, t, ps);
    LitThen(w, g + t, [Star(k)] + ps);
    Regroup(w, g, t);
    RegroupPieces(Lit(w), Star(k), ps);
  }

  /** A literal, then a non-empty run of class characters absorbed by `+`. */
  lemma LitPlusThen(w: string, g: string, k: CharClass, t: string, ps: seq<Piece>)
    requires |g| >= 1 && forall i | 0 <= i < |g| :: InClass(g[i], k)
    requires Match(t, ps)
    ensures Match(w + g + t, [Lit(w), Plus(k)] + ps)
  {
    PlusThen(g, k, t, ps);
    LitThen(w, g + t, [Plus(k)] + ps);
    Regroup(w, g, t);
    RegroupPieces(Lit(w), Plus(k), ps);
  }

  lemma NoNewline(g: string)
    requires '\n' !in g
    ensures forall i | 0 <= i < |g| :: InClass(g[i], AnyButNewline)
  {
  }

  /** "alternat", anything on the same line, then "week". */
  lemma AlternateWeekMatch(g: string)
    requires '\n' !in g
    ensures Match("alternat" + g + "week", AlternateWeek)
  {
    NoNewline(g);
    LitAlone("week");
    LitStarThen("alternat", g, AnyButNewline, "week", [Lit("week")]);
    assert [Lit("alternat"), Star(AnyButNewline)] + [Lit("week")] == AlternateWeek;
  }

  /** "holiday", anything on the same line, then "alternat". */
  lemma HolidayMatch(g: string)
    requires '\n' !in g
    ensures Match("holiday" + g + "alternat", HolidayThenAlternate)
  {
    NoNewline(g);
    LitAlone("alternat");
    LitStarThen("holiday", g, AnyButNewline, "alternat", [Lit("alternat")]);
    assert [Lit("holiday"), Star(AnyButNewline)] + [Lit("alternat")] == HolidayThenAlternate;
  }

  lemma JointLegalPieces()
    ensures [Lit("joint"), Plus(Whitespace)] + ([Lit("legal"), Plus(Whitespace)] + [Lit("custody")]) == JointLegal
  {
  }

  /** "joint legal custody" with any runs of whitespace between the words. */
  lemma JointLegalMatch(g1: string, g2: string)
    requires |g1| >= 1 && forall i | 0 <= i < |g1| :: IsSpace(g1[i])
    requires |g2| >= 1 && forall i | 0 <= i < |g2| :: IsSpace(g2[i])
    ensures Match("joint" + g1 + "legal" + g2 + "custody", JointLegal)
  {
    var legal := "legal" + g2 + "custody";
    LitAlone("custody");
    LitPlusThen("legal", g2, Whitespace, "custody", [Lit("custody")]);
    LitPlusThen("joint", g1, Whitespace, legal, [Lit("legal"), Plus(Whitespace)] + [Lit("custody")]);
    Regroup("joint" + g1, "legal" + g2, "custody");
    Regroup("joint" + g1, "legal", g2);
    JointLegalPieces();
  }

  lemma EqualSlashPieces()
    ensures [Lit("50"), Star(Whitespace)] + ([OneOf("/-")] + ([Star(Whitespace)] + [Lit("50")])) == EqualSlash
  {
  }

  /** "50", a slash or a hyphen, "50", with optional whitespace around the separator. */
  lemma EqualSlashMatch(g1: string, sep: char, g2: string)
    requires forall i | 0 <= i < |g1| :: IsSpace(g1[i])
    requires sep == '/' || sep == '-'
    requires forall i | 0 <= i < |g2| :: IsSpace(g2[i])
    ensures Match("50" + g1 + [sep] + g2 + "50", EqualSlash)
  {
    var tail := [Star(Whitespace)] + [Lit("50")];
    LitAlone("50");
    StarThen(g2, Whitespace, "50", [Lit("50")]);
    OneOfThen(sep, "/-", g2 + "50", tail);
    LitStarThen("50", g1, Whitespace, [sep] + (g2 + "50"), [OneOf("/-")] + tail);
    Regroup("50" + g1, [sep], g2 + "50");
    Regroup("50" + g1 + [sep], g2, "50");
    EqualSlashPieces();
  }

  /** The phrases the patterns look for are found wherever they appear. */
  lemma JointFound(a: string, g1: string, g2: string, b: string)
    requires |g1| >= 1 && forall i | 0 <= i < |g1| :: IsSpace(g1[i])
    requires |g2| >= 1 && forall i | 0 <= i < |g2| :: IsSpace(g2[i])
    ensures JointRe(a + ("joint" + g1 + "legal" + g2 + "custody") + b)
  {
    JointLegalMatch(g1, g2);
    SearchWithin(a, "joint" + g1 + "legal" + g2 + "custody", b, JointLegal);
  }

  lemma EqualSplitFound(a: string, g1: string, sep: char, g2: string, b: string)
    requires forall i | 0 <= i < |g1| :: IsSpace(g1[i])
    requires sep == '/' || sep == '-'
    requires forall i | 0 <= i < |g2| :: IsSpace(g2[i])
    ensures EqualSplitRe(a + ("50" + g1 + [sep] + g2 + "50") + b)
  {
    EqualSlashMatch(g1, sep, g2);
    SearchWithin(a, "50" + g1 + [sep] + g2 + "50", b, EqualSlash);
  }

  /** "primary", a run of whitespace, then "custody". */
  lemma PrimaryCustodyMatch(g: string)
    requires |g| >= 1 && forall i | 0 <= i < |g| :: IsSpace(g[i])
    ensures Match("primary" + g + "custody", PrimaryCustody)
  {
    LitAlone("custody");
    LitPlusThen("primary", g, Whitespace, "custody", [Lit("custody")]);
    PrimaryCustodyPieces();
  }

  lemma PrimaryCustodyPieces()
    ensures [Lit("primary"), Plus(Whitespace)] + [Lit("custody")] == PrimaryCustody
  {
  }

  /** "primary custody" is found on its own, even with "secondary" on a
      later line where `primary.*secondary` cannot reach it. */
  lemma PrimaryFound(a: string, g: string, b: string)
    requires |g| >= 1 && forall i | 0 <= i < |g| :: IsSpace(g[i])
    ensures PrimaryRe(a + ("primary" + g + "custody") + b)
  {
    PrimaryCustodyMatch(g);
    SearchWithin(a, "primary" + g + "custody", b, PrimaryCustody);
  }

  /** Text mentioning none of "50", "equal" and "fifty" never reads as an
      equal split. */
  lemma NoEqualSplit(t: string)
    requires !Contains(t, "50") && !Contains(t, "equal") && !Contains(t, "fifty")
    ensures !EqualSplitRe(t)
  {
    assert EqualSlash == [Lit("50")] + EqualSlash[1..];
    assert EqualTime == [Lit("equal")] + EqualTime[1..];
    assert FiftyFifty == [Lit("fifty")] + FiftyFifty[1..];
    if Search(t, EqualSlash) {
      SearchFindsLiteral(t, "50", EqualSlash[1..]);
    }
    if Search(t, EqualTime) {
      SearchFindsLiteral(t, "equal", EqualTime[1..]);
    }
    if Search(t, FiftyFifty) {
      SearchFindsLiteral(t, "fifty", FiftyFifty[1..]);
    }
  }

  lemma TwoTwoThreeFound(a: string, b: string)
    ensures TwoTwoThreeRe(a + "2-2-3" + b)
  {
    DigitsMatch();
    SearchWithin(a, "2-2-3", b, DigitsTwoTwoThree);
  }

  lemma HolidayFound(a: string, g: string, b: string)
    requires '\n' !in g
    ensures HolidayRe(a + ("holiday" + g + "alternat") + b)
  {
    HolidayMatch(g);
    SearchWithin(a, "holiday" + g + "alternat", b, HolidayThenAlternate);
  }

  lemma WeekFound(a: string, g: string, b: string)
    requires '\n' !in g
    ensures WeekRe(a + ("alternat" + g + "week") + b)
  {
    AlternateWeekMatch(g);
    SearchWithin(a, "alternat" + g + "week", b, AlternateWeek);
  }

  // ---------------------------------------------------------------------------
  // Extraction and the model fallback

  /** The file type as dispatched on: lowercased, dots removed. */
  function NormalizeType(fileType: string): (r: string)
    ensures '.' !in r
    ensures forall i | 0 <= i < |r| :: !('A' <= r[i] <= 'Z')
    ensures |r| <= |fileType|
  {
    ReplaceCharRemoves(Lower(fileType), '.', "", '.');
    NoCapitalsAfterRemoval(Lower(fileType));
    ReplaceChar(Lower(fileType), '.', "")
  }

  /** Removing the dots from text without capitals leaves it without capitals
      and no longer. */
  lemma {:induction false} NoCapitalsAfterRemoval(s: string)
    requires forall i | 0 <= i < |s| :: !('A' <= s[i] <= 'Z')
    ensures forall i | 0 <= i < |ReplaceChar(s, '.', "")| :: !('A' <= ReplaceChar(s, '.', "")[i] <= 'Z')
    ensures |ReplaceChar(s, '.', "")| <= |s|
    decreases |s|
  {
    if s != [] {
      NoCapitalsAfterRemoval(s[1..]);
    }
  }

  /** Normalisation works piece by piece ... */
  lemma NormalizeTypeConcat(a: string, b: string)
    ensures NormalizeType(a + b) == NormalizeType(a) + NormalizeType(b)
  {
    LowerConcat(a, b);
    ReplaceCharConcat(Lower(a), Lower(b), '.', "");
  }

  /** ... and on one character drops a dot and lowercases anything else, so
      together these fix its value on every input. */
  lemma NormalizeTypeChar(c: char)
    ensures NormalizeType([c]) == if c == '.' then "" else [LowerChar(c)]
  {
    assert Lower([c]) == [LowerChar(c)];
    assert [LowerChar(c)][1..] == [];
    assert ReplaceChar([LowerChar(c)], '.', "") == (if LowerChar(c) == '.' then "" else [LowerChar(c)]) + ReplaceChar([], '.', "");
  }

  /** A type already lowercase and without dots is kept as it is. */
  lemma NormalizeTypeFixed(s: string)
    requires '.' !in s && forall i | 0 <= i < |s| :: !('A' <= s[i] <= 'Z')
    ensures NormalizeType(s) == s
  {
    LowerIdentity(s);
    ReplaceCharAbsent(s, '.', "");
  }

  lemma NormalizeTypeExamples()
    ensures NormalizeType(".PDF") == "pdf" && NormalizeType("Docx") == "docx"
  {
    assert Lower(".PDF") == ".pdf";
    assert ReplaceChar(".pdf", '.', "") == "" + ReplaceChar("pdf", '.', "");
    ReplaceCharAbsent("pdf", '.', "");
    assert Lower("Docx") == "docx";
    ReplaceCharAbsent("docx", '.', "");
  }

  /** `sep.join(parts)` for a separator string. */
  function JoinWith(parts: seq<string>, sep: string): string
    decreases |parts|
  {
    if parts == [] then "" else if |parts| == 1 then parts[0] else parts[0] + sep + JoinWith(parts[1..], sep)
  }

  /** The pages that yield text (`if text:`). */
  function NonEmptyPages(pages: seq<Option<string>>): (r: seq<string>)
    ensures forall i | 0 <= i < |r| :: r[i] != ""
    ensures |r| <= |pages|
    decreases |pages|
  {
    if pages == [] then []
    else (if pages[0].Some? && pages[0].value != "" then [pages[0].value] else []) + NonEmptyPages(pages[1..])
  }

  lemma {:induction false} NonEmptyPagesAppend(pages: seq<Option<string>>, p: Option<string>)
    ensures NonEmptyPages(pages + [p]) == NonEmptyPages(pages) + (if p.Some? && p.value != "" then [p.value] else [])
    decreases |pages|
  {
    if pages == [] {
      assert [p][1..] == [];
    } else {
      assert (pages + [p])[1..] == pages[1..] + [p];
      NonEmptyPagesAppend(pages[1..], p);
    }
  }

  const PdfMissing: string := "PDF support not available. Install pdfplumber: pip install pdfplumber"
  const DocxMissing: string := "DOCX support not available. Install python-docx: pip install python-docx"
  const PdfTooShort: string := "Could not extract sufficient text from PDF. File may be scanned/image-based."
  const DocxTooShort: string := "Could not extract sufficient text from document."

  /** `_extract_from_pdf` over what the PDF library yields: the page texts, or
      the message of its failure. */
  function PdfText(loaded: Result<seq<Option<string>>, string>): (r: Result<string, string>)
    ensures loaded.Err? ==> r == Err("Error extracting text from PDF: " + loaded.error)
    ensures r.Ok? ==> |Strip(r.value)| >= 50 && r.value == JoinWith(NonEmptyPages(loaded.value), "\n\n")
    ensures loaded.Ok? && |Strip(JoinWith(NonEmptyPages(loaded.value), "\n\n"))| < 50 ==> r == Err(PdfTooShort)
    ensures loaded.Ok? && |Strip(JoinWith(NonEmptyPages(loaded.value), "\n\n"))| >= 50 ==>
      r == Ok(JoinWith(NonEmptyPages(loaded.value), "\n\n"))
  {
    match loaded
    case Err(e) => Err("Error extracting text from PDF: " + e)
    case Ok(pages) =>
      var extracted := JoinWith(NonEmptyPages(pages), "\n\n");
      if |Strip(extracted)| < 50 then Err(PdfTooShort) else Ok(extracted)
  }

  /** The page loop of `_extract_from_pdf`. */
  method ExtractFromPdf(loaded: Result<seq<Option<string>>, string>) returns (r: Result<string, string>)
    ensures r == PdfText(loaded)
  {
    if loaded.Err? {
      return Err("Error extracting text from PDF: " + loaded.error);
    }
    var pages := loaded.value;
    var parts: seq<string> := [];
    var i := 0;
    while i < |pages|
      invariant 0 <= i <= |pages|
      invariant parts == NonEmptyPages(pages[..i])
    {
      NonEmptyPagesAppend(pages[..i], pages[i]);
      assert pages[..i + 1] == pages[..i] + [pages[i]];
      if pages[i].Some? && pages[i].value != "" {
        parts := parts + [pages[i].value];
      }
      i := i + 1;
    }
    assert pages[..|pages|] == pages;
    var extracted := JoinWith(parts, "\n\n");
    if |Strip(extracted)| < 50 {
      return Err(PdfTooShort);
    }
    r := Ok(extracted);
  }

  /** `_extract_from_docx` over the paragraph texts, or the library's failure
      message. The length check sits inside the `try`, so its message comes
      back wrapped like any other failure. */
  function DocxText(loaded: Result<seq<string>, string>): (r: Result<string, string>)
    ensures loaded.Err? ==> r == Err("Error extracting text from DOCX: " + loaded.error)
    ensures r.Ok? ==> |Strip(r.value)| >= 50 && r.value == JoinWith(loaded.value, "\n")
    ensures loaded.Ok? && |Strip(JoinWith(loaded.value, "\n"))| < 50 ==>
      r == Err("Error extracting text from DOCX: " + DocxTooShort)
    ensures loaded.Ok? && |Strip(JoinWith(loaded.value, "\n"))| >= 50 ==> r == Ok(JoinWith(loaded.value, "\n"))
  {
    match loaded
    case Err(e) => Err("Error extracting text from DOCX: " + e)
    case Ok(paragraphs) =>
      var extracted := JoinWith(paragraphs, "\n");
      if |Strip(extracted)| < 50 then Err("Error extracting text from DOCX: " + DocxTooShort) else Ok(extracted)
  }

  /** `extract_text_from_file`: dispatch on the normalised type. The text of a
      `.txt` file is its UTF-8 decoding, given; the libraries' outputs are
      given as well, with whether each library is installed. */
  function ExtractText(fileType: string, decodedText: string, pdfSupport: bool,
                       pdf: Result<seq<Option<string>>, string>, docxSupport: bool,
                       docx: Result<seq<string>, string>): (r: Result<string, string>)
    ensures r.Ok? ==> NormalizeType(fileType) in ["pdf", "doc", "docx", "txt"]
    ensures NormalizeType(fileType) !in ["pdf", "doc", "docx", "txt"] ==>
      r == Err("Unsupported file type: " + fileType + ". Supported: pdf, docx, doc, txt")
    ensures NormalizeType(fileType) == "txt" ==> r == Ok(decodedText)
    ensures NormalizeType(fileType) in ["pdf", "doc", "docx"] && r.Ok? ==> |Strip(r.value)| >= 50
    ensures NormalizeType(fileType) == "pdf" ==> r == if pdfSupport then PdfText(pdf) else Err(PdfMissing)
    ensures NormalizeType(fileType) in ["doc", "docx"] ==>
      r == if docxSupport then DocxText(docx) else Err(DocxMissing)
  {
    var t := NormalizeType(fileType);
    if t == "pdf" then
      if !pdfSupport then Err(PdfMissing)
      else PdfText(pdf)
    else if t in ["doc", "docx"] then
      if !docxSupport then Err(DocxMissing)
      else DocxText(docx)
    else if t == "txt" then Ok(decodedText)
    else Err("Unsupported file type: " + fileType + ". Supported: pdf, docx, doc, txt")
  }

  /** The part of the text `_build_parsing_prompt` embeds: its first 8000
      characters at most. */
  function PromptSample(text: string): (r: string)
    ensures |r| <= 8000 && |r| <= |text| && r == text[..|r|]
    ensures |text| <= 8000 ==> r == text
    ensures |text| > 8000 ==> |r| == 8000
  {
    if |text| > 8000 then text[..8000] else text
  }

  /** What the language model produced: no client configured, a failed call
      or unreadable answer, or a parsed answer. */
  datatype AiOutcome = NoClient | Failed | Answered(result: ParsedAgreement)

  /** `parse_with_ai`: the model's answer when there is one, otherwise the
      pattern parser's result. */
  function ParseWithAi(text: string, ai: AiOutcome): (r: ParsedAgreement)
    ensures !ai.Answered? ==> r == ParsePatterns(text)
    ensures ai.Answered? ==> r == ai.result
  {
    if ai.Answered? then ai.result else ParsePatterns(text)
  }

  /** `parse_document`: extraction first, its failure passed on unchanged;
      then the model, or the pattern parser when the model gives no answer. */
  function ParseDocument(fileType: string, decodedText: string, pdfSupport: bool,
                         pdf: Result<seq<Option<string>>, string>, docxSupport: bool,
                         docx: Result<seq<string>, string>, ai: AiOutcome): (r: Result<ParsedAgreement, string>)
    ensures var extracted := ExtractText(fileType, decodedText, pdfSupport, pdf, docxSupport, docx);
      && (extracted.Err? <==> r.Err?)
      && (extracted.Err? ==> r.error == extracted.error)
      && (extracted.Ok? && !ai.Answered? ==> r == Ok(ParsePatterns(extracted.value)))
      && (extracted.Ok? && ai.Answered? ==> r == Ok(ai.result))
    ensures NormalizeType(fileType) == "txt" && !ai.Answered? ==> r == Ok(ParsePatterns(decodedText))
  {
    var extracted := ExtractText(fileType, decodedText, pdfSupport, pdf, docxSupport, docx);
    if extracted.Err? then Err(extracted.error) else Ok(ParseWithAi(extracted.value, ai))
  }
}

=== FILE: documents.dfy ===
/** The document and folder endpoints: file classification, folder ids,
    per-folder counts, the upload decision and the deletion guards. */
module Documents {
  import opened Wrappers
  import opened Text
  import opened Http
  import Sorting

  // ---------------------------------------------------------------------------
  // File names

  /** `get_file_type`'s extension: the text after the last '.', lowercased;
      empty when the name has no '.'. */
  function TypeExtension(fileName: string): string {
    if '.' in fileName then Lower(LastPiece(fileName, '.')) else ""
  }

  /** The category of a lowercased extension. */
  function Classify(ext: string): string {
    if ext == "pdf" then "pdf"
    else if ext in ["doc", "docx"] then "doc"
    else if ext in ["jpg", "jpeg", "png", "gif", "webp"] then "image"
    else if ext in ["mp4", "mov", "avi", "mkv"] then "video"
    else "other"
  }

  /** `get_file_type`. */
  function FileType(fileName: string): (r: string)
    ensures r in ["pdf", "doc", "image", "video", "other"]
    ensures '.' !in fileName ==> r == "other"
  {
    Classify(TypeExtension(fileName))
  }

  /** The type of `stem.ext` is decided by `ext` alone, whatever its case. */
  lemma FileTypeOfExtension(stem: string, ext: string)
    requires '.' !in ext
    ensures FileType(stem + "." + ext) == Classify(Lower(ext))
  {
    LastPieceAfterSep(stem, ext, '.');
    assert stem + "." + ext == stem + ['.'] + ext;
    assert (stem + ['.'] + ext)[|stem|] == '.';
  }

  /** `save_document_file`'s extension: the text after the last '.', as
      written, or "pdf" when there is none. */
  function StoredExtension(fileName: string): string {
    if '.' in fileName then LastPiece(fileName, '.') else "pdf"
  }

  const FilesPrefix: string := "/api/v1/documents/files/"

  /** The stored file's name and the URL that serves it. */
  function StoredFileName(documentId: string, fileName: string): string {
    documentId + "." + StoredExtension(fileName)
  }

  function FileUrl(documentId: string, fileName: string): string {
    FilesPrefix + StoredFileName(documentId, fileName)
  }

  /** The stored file keeps the type of the uploaded name, except that a name
      without extension is stored as a PDF. */
  lemma StoredFileKeepsType(documentId: string, fileName: string)
    ensures '.' in fileName ==> FileType(StoredFileName(documentId, fileName)) == FileType(fileName)
    ensures '.' !in fileName ==> FileType(StoredFileName(documentId, fileName)) == "pdf"
    ensures FileUrl(documentId, fileName)[..|FilesPrefix|] == FilesPrefix
  {
    var ext := StoredExtension(fileName);
    FileTypeOfExtension(documentId, ext);
    if '.' !in fileName {
      assert Lower("pdf") == "pdf";
    }
  }

  // ---------------------------------------------------------------------------
  // Sizes

  /** `format_file_size`: the unit chosen, with the exact text for bytes;
      the one-decimal value printed for larger units is not modelled. */
  datatype SizeLabel = Bytes(text: string) | Kilobytes(bytes: nat) | Megabytes(bytes: nat) | Gigabytes(bytes: nat)

  const KB: nat := 1024
  const MB: nat := 1024 * 1024
  const GB: nat := 1024 * 1024 * 1024

  function FormatFileSize(size: nat): SizeLabel {
    if size < KB then Bytes(DecimalString(size) + " B")
    else if size < MB then Kilobytes(size)
    else if size < GB then Megabytes(size)
    else Gigabytes(size)
  }

  function UnitRank(l: SizeLabel): nat {
    match l
    case Bytes(_) => 0
    case Kilobytes(_) => 1
    case Megabytes(_) => 2
    case Gigabytes(_) => 3
  }

  /** The unit is the largest one the size reaches: the whole part of the
      scaled value is at least 1 and, below GB, under 1024. */
  lemma SizeUnitBounds(size: nat)
    ensures FormatFileSize(size).Bytes? ==> size < 1024 && FormatFileSize(size).text == DecimalString(size) + " B"
    ensures FormatFileSize(size).Kilobytes? ==> 1 <= size / KB < 1024
    ensures FormatFileSize(size).Megabytes? ==> 1 <= size / MB < 1024
    ensures FormatFileSize(size).Gigabytes? ==> 1 <= size / GB
  {
    if KB <= size < MB {
      ScaledBounds(size, KB);
    } else if MB <= size < GB {
      ScaledBounds(size, MB);
    } else if GB <= size {
      ScaledAtLeastOne(size, GB);
    }
  }

  lemma ScaledAtLeastOne(n: nat, c: nat)
    requires 0 < c <= n
    ensures 1 <= n / c
  {
  }

  lemma ScaledBounds(n: nat, c: nat)
    requires 0 < c <= n < 1024 * c
    ensures 1 <= n / c < 1024
  {
    ScaledAtLeastOne(n, c);
  }

  /** A larger file never gets a smaller unit. */
  lemma SizeUnitMonotone(a: nat, b: nat)
    requires a <= b
    ensures UnitRank(FormatFileSize(a)) <= UnitRank(FormatFileSize(b))
  {
  }

  // ---------------------------------------------------------------------------
  // Folder ids

  /** The id (and custom category) of a custom folder: lowercased, spaces
      turned into '-', then '&' into "and". */
  function FolderSlug(name: string): string {
    ReplaceChar(ReplaceChar(Lower(name), ' ', "-"), '&', "and")
  }

  /** A folder id has no space, no '&' and no capital letter. */
  lemma SlugClean(name: string)
    ensures ' ' !in FolderSlug(name) && '&' !in FolderSlug(name)
    ensures forall i | 0 <= i < |FolderSlug(name)| :: !('A' <= FolderSlug(name)[i] <= 'Z')
  {
    var lower := Lower(name);
    var dashed := ReplaceChar(lower, ' ', "-");
    var slug := ReplaceChar(dashed, '&', "and");
    ReplaceCharRemoves(lower, ' ', "-", ' ');
    ReplaceCharRemoves(dashed, '&', "and", ' ');
    ReplaceCharRemoves(dashed, '&', "and", '&');
    forall i | 0 <= i < |slug| ensures !('A' <= slug[i] <= 'Z') {
      var d := slug[i];
      ReplaceCharMembers(dashed, '&', "and", d);
      if d in dashed {
        ReplaceCharMembers(lower, ' ', "-", d);
      }
    }
  }

  /** Slugging a folder id gives the same id back. */
  lemma SlugIdempotent(name: string)
    ensures FolderSlug(FolderSlug(name)) == FolderSlug(name)
  {
    var slug := FolderSlug(name);
    SlugClean(name);
    LowerIdentity(slug);
    ReplaceCharAbsent(slug, ' ', "-");
    ReplaceCharAbsent(slug, '&', "and");
  }

  // ---------------------------------------------------------------------------
  // Records

  /** A default folder of `DEFAULT_FOLDERS` (display fields left out). */
  datatype DefaultFolder = DefaultFolder(id: string, name: string, documentTypes: seq<string>, isSpecial: bool)

  const DefaultFolders: seq<DefaultFolder> := [
    DefaultFolder("legal", "Legal Documents", ["custody-agreement", "court-order", "financial"], false),
    DefaultFolder("medical", "Medical Records", ["medical"], false),
    DefaultFolder("school", "School Documents", ["school"], false),
    DefaultFolder("emergency", "Emergency Contacts", ["emergency"], false),
    DefaultFolder("memories", "Pictures & Memories", ["memories"], true)
  ]

  /** A stored custom folder; `storeId` is the `_id` the store gave it, as text. */
  datatype Folder = Folder(id: string, familyId: string, name: string, description: string, icon: string,
                           color: string, bgColor: string, customCategory: string, createdAt: int,
                           createdBy: string, updatedAt: Option<int>, storeId: string)

  datatype FolderCreate = FolderCreate(name: string, description: string, icon: string, color: string, bgColor: string)

  datatype FolderUpdate = FolderUpdate(name: Option<string>, description: Option<string>, icon: Option<string>,
                                       color: Option<string>, bgColor: Option<string>)

  /** A folder as the endpoints return it. */
  datatype FolderView = FolderView(id: string, name: string, documentTypes: seq<string>, count: nat,
                                   isCustom: bool, isSpecial: bool, customCategory: Option<string>)

  /** A stored document. */
  datatype Document = Document(id: string, familyId: string, folderId: Option<string>, name: string, kind: string,
                               customCategory: Option<string>, fileUrl: string, fileName: string, fileType: string,
                               fileSize: nat, description: Option<string>, tags: seq<string>, isProtected: bool,
                               protectionReason: Option<string>, uploadedBy: string, childrenIds: seq<string>,
                               createdAt: int)

  /** `DocumentUpload` without its content, which only its decoded size and
      the outcome of writing it stand for. */
  datatype DocumentUpload = DocumentUpload(folderId: Option<string>, name: string, kind: string,
                                           description: Option<string>, tags: Option<seq<string>>,
                                           fileName: string, childrenIds: Option<seq<string>>)

  /** A document as the endpoints return it. */
  datatype DocumentView = DocumentView(id: string, name: string, kind: string, customCategory: Option<string>,
                                       size: SizeLabel, isProtected: bool, protectionReason: Option<string>,
                                       fileType: string, fileUrl: string, fileName: string)

  // ---------------------------------------------------------------------------
  // Counting

  /** Documents whose type is one of `kinds`. */
  function CountOfKinds(docs: seq<Document>, kinds: seq<string>): nat
    decreases |docs|
  {
    if docs == [] then 0 else (if docs[0].kind in kinds then 1 else 0) + CountOfKinds(docs[1..], kinds)
  }

  /** Documents filed under the custom category `category`. */
  function CountInCategory(docs: seq<Document>, category: string): nat
    decreases |docs|
  {
    if docs == [] then 0
    else (if docs[0].customCategory == Some(category) then 1 else 0) + CountInCategory(docs[1..], category)
  }

  /** Counting over disjoint type lists adds up. */
  lemma {:induction false} CountOfKindsUnion(docs: seq<Document>, a: seq<string>, b: seq<string>)
    requires forall k | k in a :: k !in b
    ensures CountOfKinds(docs, a + b) == CountOfKinds(docs, a) + CountOfKinds(docs, b)
    decreases |docs|
  {
    if docs != [] {
      CountOfKindsUnion(docs[1..], a, b);
    }
  }

  /** The count shown for a default folder; "memories" is counted by its own
      test, which agrees with its type list. */
  function DefaultCount(f: DefaultFolder, docs: seq<Document>): (r: nat)
    ensures f in DefaultFolders ==> r == CountOfKinds(docs, f.documentTypes)
  {
    if f.id == "memories" then CountOfKinds(docs, ["memories"]) else CountOfKinds(docs, f.documentTypes)
  }

  /** Every type of a default folder belongs to that folder only. */
  function AllDefaultTypes(): seq<string> {
    DefaultFolders[0].documentTypes + DefaultFolders[1].documentTypes + DefaultFolders[2].documentTypes
      + DefaultFolders[3].documentTypes + DefaultFolders[4].documentTypes
  }

  /** The default folders' counts add up to the documents of any default type:
      no document is counted in two default folders. */
  lemma DefaultCountsPartition(docs: seq<Document>)
    ensures DefaultCount(DefaultFolders[0], docs) + DefaultCount(DefaultFolders[1], docs)
      + DefaultCount(DefaultFolders[2], docs) + DefaultCount(DefaultFolders[3], docs)
      + DefaultCount(DefaultFolders[4], docs) == CountOfKinds(docs, AllDefaultTypes())
  {
    var t := seq(5, i requires 0 <= i < 5 => DefaultFolders[i].documentTypes);
    assert t[0] == ["custody-agreement", "court-order", "financial"];
    CountOfKindsUnion(docs, t[0], t[1]);
    CountOfKindsUnion(docs, t[0] + t[1], t[2]);
    CountOfKindsUnion(docs, t[0] + t[1] + t[2], t[3]);
    CountOfKindsUnion(docs, t[0] + t[1] + t[2] + t[3], t[4]);
  }

  // ---------------------------------------------------------------------------
  // Selections

  function FamilyDocuments(docs: seq<Document>, familyId: string): seq<Document>
    decreases |docs|
  {
    if docs == [] then []
    else (if docs[0].familyId == familyId then [docs[0]] else []) + FamilyDocuments(docs[1..], familyId)
  }

  function FamilyFolders(folders: seq<Folder>, familyId: string): seq<Folder>
    decreases |folders|
  {
    if folders == [] then []
    else (if folders[0].familyId == familyId then [folders[0]] else []) + FamilyFolders(folders[1..], familyId)
  }

  /** Position of the family's folder with id `id` (`find_one({"family_id", "id"})`). */
  function FindFolder(folders: seq<Folder>, familyId: string, id: string): (r: Option<nat>)
    ensures r.Some? ==> r.value < |folders| && folders[r.value].familyId == familyId && folders[r.value].id == id
    ensures r.Some? ==> forall j | 0 <= j < r.value :: !(folders[j].familyId == familyId && folders[j].id == id)
    ensures r.None? ==> forall j | 0 <= j < |folders| :: !(folders[j].familyId == familyId && folders[j].id == id)
    decreases |folders|
  {
    if folders == [] then None
    else if folders[0].familyId == familyId && folders[0].id == id then Some(0)
    else match FindFolder(folders[1..], familyId, id)
      case None => None
      case Some(i) => Some(i + 1)
  }

  /** `create_folder`'s duplicate test as written: a folder of the family with the same name. */
  predicate NameTaken(folders: seq<Folder>, familyId: string, name: string) {
    exists j | 0 <= j < |folders| :: folders[j].familyId == familyId && folders[j].name == name
  }

  /** The duplicate test that keeps folder ids addressable: the same name, or
      the same id. */
  predicate FolderTaken(folders: seq<Folder>, familyId: string, name: string) {
    NameTaken(folders, familyId, name) || FindFolder(folders, familyId, FolderSlug(name)).Some?
  }

  /** Within a family, no two folders share an id, so every lookup by id is
      unambiguous. */
  ghost predicate UniqueFolderIds(folders: seq<Folder>) {
    forall i, j | 0 <= i < j < |folders| ::
      folders[i].familyId == folders[j].familyId ==> folders[i].id != folders[j].id
  }

  /** Position of the first document with id `id`, in any family. */
  function FindDocument(docs: seq<Document>, id: string): (r: Option<nat>)
    ensures r.Some? ==> r.value < |docs| && docs[r.value].id == id
    ensures r.Some? ==> forall j | 0 <= j < r.value :: docs[j].id != id
    ensures r.None? ==> forall j | 0 <= j < |docs| :: docs[j].id != id
    decreases |docs|
  {
    if docs == [] then None
    else if docs[0].id == id then Some(0)
    else match FindDocument(docs[1..], id)
      case None => None
      case Some(i) => Some(i + 1)
  }

  /** Position of the family's document with id `id`. */
  function FindFamilyDocument(docs: seq<Document>, familyId: string, id: string): (r: Option<nat>)
    ensures r.Some? ==> r.value < |docs| && docs[r.value].id == id && docs[r.value].familyId == familyId
    ensures r.Some? ==> forall j | 0 <= j < r.value :: !(docs[j].id == id && docs[j].familyId == familyId)
    ensures r.None? ==> forall j | 0 <= j < |docs| :: !(docs[j].id == id && docs[j].familyId == familyId)
    decreases |docs|
  {
    if docs == [] then None
    else if docs[0].id == id && docs[0].familyId == familyId then Some(0)
    else match FindFamilyDocument(docs[1..], familyId, id)
      case None => None
      case Some(i) => Some(i + 1)
  }

  // ---------------------------------------------------------------------------
  // Views

  function DefaultView(f: DefaultFolder, docs: seq<Document>): FolderView {
    FolderView(f.id, f.name, f.documentTypes, DefaultCount(f, docs), false, f.isSpecial, None)
  }

  /** A custom folder is listed under its id, or under its `_id` when its id
      is empty. */
  function CustomView(f: Folder, docs: seq<Document>): (v: FolderView)
    ensures f.id != "" ==> v.id == f.id
    ensures f.id == "" ==> v.id == f.storeId
    ensures v.count == CountInCategory(docs, f.customCategory) && v.isCustom
  {
    FolderView(if f.id != "" then f.id else f.storeId, f.name, ["custom"], CountInCategory(docs, f.customCategory),
               true, false, Some(f.customCategory))
  }

  /** What `get_folders` lists: the five default folders, then the family's
      custom folders, each with its count over the family's documents. */
  function FolderListing(folders: seq<Folder>, docs: seq<Document>, familyId: string): seq<FolderView> {
    var mine := FamilyDocuments(docs, familyId);
    var custom := FamilyFolders(folders, familyId);
    seq(|DefaultFolders|, i requires 0 <= i < |DefaultFolders| => DefaultView(DefaultFolders[i], mine))
      + seq(|custom|, i requires 0 <= i < |custom| => CustomView(custom[i], mine))
  }

  function DocumentViewOf(d: Document): DocumentView {
    DocumentView(d.id, d.name, d.kind, d.customCategory, FormatFileSize(d.fileSize), d.isProtected,
                 d.protectionReason, d.fileType, d.fileUrl, d.fileName)
  }

  /** Newest first; documents created at the same time keep their order. */
  function NewestFirst(): (Document, Document) -> bool {
    (a: Document, b: Document) => b.createdAt <= a.createdAt
  }

  lemma NewestFirstPreorder()
    ensures Sorting.TotalPreorder(NewestFirst())
  {
  }

  /** The documents `get_documents` selects: the family's, narrowed to a
      default folder's types or a custom folder's category. */
  datatype Selection = AllOfFamily | OfKinds(kinds: seq<string>) | InCategory(category: string)

  predicate Selected(d: Document, familyId: string, s: Selection) {
    d.familyId == familyId &&
    match s
    case AllOfFamily => true
    case OfKinds(kinds) => d.kind in kinds
    case InCategory(c) => d.customCategory == Some(c)
  }

  /** The same test through the in-memory matcher, which knows equality and
      `$or` only: a document's type never equals the `{"$in": ...}` operator
      document, so a default-folder narrowing selects nothing. */
  predicate SelectedInMemory(d: Document, familyId: string, s: Selection) {
    d.familyId == familyId &&
    match s
    case AllOfFamily => true
    case OfKinds(_) => false
    case InCategory(c) => d.customCategory == Some(c)
  }

  function SelectInMemory(docs: seq<Document>, familyId: string, s: Selection): seq<Document>
    decreases |docs|
  {
    if docs == [] then []
    else (if SelectedInMemory(docs[0], familyId, s) then [docs[0]] else []) + SelectInMemory(docs[1..], familyId, s)
  }

  /** Listing a default folder through the in-memory matcher comes back empty
      although the folder list counts documents in it: a court order is
      counted in "legal" but not listed there. */
  lemma DefaultFolderListingAsWritten(d: Document)
    requires d.kind == "court-order"
    ensures DefaultCount(DefaultFolders[0], [d]) == 1
    ensures SelectInMemory([d], d.familyId, OfKinds(DefaultFolders[0].documentTypes)) == []
    ensures Select([d], d.familyId, OfKinds(DefaultFolders[0].documentTypes)) == [d]
  {
    assert [d][1..] == [];
    assert d.kind in DefaultFolders[0].documentTypes;
    assert CountOfKinds([d], DefaultFolders[0].documentTypes) == 1 + CountOfKinds([], DefaultFolders[0].documentTypes);
  }

  /** With the operator understood, a folder lists exactly the documents it
      counts: for type lists (default folders) and for categories (custom ones). */
  lemma {:induction false} ListingAgreesWithCount(docs: seq<Document>, familyId: string, kinds: seq<string>)
    ensures |Select(docs, familyId, OfKinds(kinds))| == CountOfKinds(FamilyDocuments(docs, familyId), kinds)
    decreases |docs|
  {
    if docs != [] {
      ListingAgreesWithCount(docs[1..], familyId, kinds);
      var rest := FamilyDocuments(docs[1..], familyId);
      var sel := Select(docs[1..], familyId, OfKinds(kinds));
      assert |Select(docs, familyId, OfKinds(kinds))|
        == (if Selected(docs[0], familyId, OfKinds(kinds)) then 1 else 0) + |sel|;
      if docs[0].familyId == familyId {
        assert FamilyDocuments(docs, familyId) == [docs[0]] + rest;
        assert ([docs[0]] + rest)[1..] == rest;
      } else {
        assert FamilyDocuments(docs, familyId) == [] + rest == rest;
      }
    }
  }

  lemma {:induction false} CustomListingAgreesWithCount(docs: seq<Document>, familyId: string, category: string)
    ensures |Select(docs, familyId, InCategory(category))| == CountInCategory(FamilyDocuments(docs, familyId), category)
    decreases |docs|
  {
    if docs != [] {
      CustomListingAgreesWithCount(docs[1..], familyId, category);
      var rest := FamilyDocuments(docs[1..], familyId);
      var sel := Select(docs[1..], familyId, InCategory(category));
      assert |Select(docs, familyId, InCategory(category))|
        == (if Selected(docs[0], familyId, InCategory(category)) then 1 else 0) + |sel|;
      if docs[0].familyId == familyId {
        assert FamilyDocuments(docs, familyId) == [docs[0]] + rest;
        assert ([docs[0]] + rest)[1..] == rest;
      } else {
        assert FamilyDocuments(docs, familyId) == [] + rest == rest;
      }
    }
  }

  function Select(docs: seq<Document>, familyId: string, s: Selection): seq<Document>
    decreases |docs|
  {
    if docs == [] then []
    else (if Selected(docs[0], familyId, s) then [docs[0]] else []) + Select(docs[1..], familyId, s)
  }

  lemma {:induction false} SelectAppend(docs: seq<Document>, d: Document, familyId: string, s: Selection)
    ensures Select(docs + [d], familyId, s)
      == Select(docs, familyId, s) + (if Selected(d, familyId, s) then [d] else [])
    decreases |docs|
  {
    if docs == [] {
      assert [d][1..] == [];
    } else {
      var head := if Selected(docs[0], familyId, s) then [docs[0]] else [];
      var tail := if Selected(d, familyId, s) then [d] else [];
      var rest := Select(docs[1..], familyId, s);
      assert (docs + [d])[0] == docs[0];
      assert (docs + [d])[1..] == docs[1..] + [d];
      SelectAppend(docs[1..], d, familyId, s);
      assert Select(docs + [d], familyId, s) == head + (rest + tail);
      assert head + (rest + tail) == (head + rest) + tail;
    }
  }

  lemma {:induction false} SelectMembers(docs: seq<Document>, familyId: string, s: Selection, d: Document)
    ensures d in Select(docs, familyId, s) <==> d in docs && Selected(d, familyId, s)
    decreases |docs|
  {
    if docs != [] {
      SelectMembers(docs[1..], familyId, s, d);
      assert docs == [docs[0]] + docs[1..];
    }
  }

  // ---------------------------------------------------------------------------
  // Upload decisions

  /** The type and custom category an upload gets: a custom folder of the
      family forces "custom" and its category; otherwise the type supplied. */
  function Placement(folders: seq<Folder>, familyId: string, folderId: Option<string>, kind: string)
    : (r: (string, Option<string>))
    ensures folderId.Some? && folderId.value != "" && FindFolder(folders, familyId, folderId.value).Some? ==>
      r.0 == "custom" && r.1 == Some(folders[FindFolder(folders, familyId, folderId.value).value].customCategory)
    ensures !(folderId.Some? && folderId.value != "" && FindFolder(folders, familyId, folderId.value).Some?) ==>
      r == (kind, None)
  {
    if folderId.Some? && folderId.value != "" then
      match FindFolder(folders, familyId, folderId.value)
      case Some(i) => ("custom", Some(folders[i].customCategory))
      case None => (kind, None)
    else (kind, None)
  }

  const AgreementProtected: string :=
    "This is your official divorce contract and cannot be deleted. It serves as the legal foundation for your co-parenting arrangement."
  const DecreeProtected: string :=
    "This is your official divorce decree and cannot be deleted. It contains critical legal information and court orders."

  /** Whether a type is protected, and the reason shown when deletion is refused. */
  function Protection(kind: string): (r: (bool, Option<string>))
    ensures r.0 <==> kind == "custody-agreement" || kind == "court-order"
    ensures r.0 <==> r.1.Some?
  {
    if kind == "custody-agreement" then (true, Some(AgreementProtected))
    else if kind == "court-order" then (true, Some(DecreeProtected))
    else (false, None)
  }

  const ProtectedPrefix: string := "This document is protected and cannot be deleted. "
  const DefaultProtectionReason: string := "It contains critical legal information."

  /** The refusal to delete a protected document: a fixed opening, then the
      stored reason, or a general one when none (or an empty one) is stored. */
  function ProtectionMessage(reason: Option<string>): (m: string)
    ensures |m| > |ProtectedPrefix| && m[..|ProtectedPrefix|] == ProtectedPrefix
    ensures reason.Some? && reason.value != "" ==> m[|ProtectedPrefix|..] == reason.value
    ensures reason.None? || reason.value == "" ==> m[|ProtectedPrefix|..] == DefaultProtectionReason
  {
    ProtectedPrefix + (if reason.Some? && reason.value != "" then reason.value else DefaultProtectionReason)
  }

  /** A document protected on upload is refused with the reason of its type. */
  lemma ProtectionMessageNamesType(kind: string)
    requires Protection(kind).0
    ensures kind == "custody-agreement" ==> ProtectionMessage(Protection(kind).1) == ProtectedPrefix + AgreementProtected
    ensures kind == "court-order" ==> ProtectionMessage(Protection(kind).1) == ProtectedPrefix + DecreeProtected
    ensures ProtectionMessage(Protection(kind).1) != ProtectionMessage(None)
  {
    var m := ProtectionMessage(Protection(kind).1);
    assert m[|ProtectedPrefix|..] != DefaultProtectionReason by {
      assert |AgreementProtected| != |DefaultProtectionReason| && |DecreeProtected| != |DefaultProtectionReason|;
    }
  }

  /** `update_folder`'s overwrite of one field: only a non-empty value replaces it. */
  function Overwrite(current: string, supplied: Option<string>): (r: string)
    ensures supplied.Some? && supplied.value != "" ==> r == supplied.value
    ensures supplied.None? || supplied.value == "" ==> r == current
  {
    if supplied.Some? && supplied.value != "" then supplied.value else current
  }

  /** The folder after `update_folder`: only fields supplied with a non-empty
      value change, and the update time is set. */
  function UpdatedFolder(f: Folder, u: FolderUpdate, now: int): (r: Folder)
    ensures r.id == f.id && r.familyId == f.familyId && r.customCategory == f.customCategory
    ensures r.createdAt == f.createdAt && r.createdBy == f.createdBy && r.updatedAt == Some(now)
    ensures r.storeId == f.storeId
    ensures r.name == Overwrite(f.name, u.name) && r.description == Overwrite(f.description, u.description)
    ensures r.icon == Overwrite(f.icon, u.icon) && r.color == Overwrite(f.color, u.color)
    ensures r.bgColor == Overwrite(f.bgColor, u.bgColor)
  {
    f.(name := Overwrite(f.name, u.name), description := Overwrite(f.description, u.description),
       icon := Overwrite(f.icon, u.icon), color := Overwrite(f.color, u.color),
       bgColor := Overwrite(f.bgColor, u.bgColor), updatedAt := Some(now))
  }

  /** Sending the same update again changes only the update time. */
  lemma UpdatedFolderIdempotent(f: Folder, u: FolderUpdate, t1: int, t2: int)
    ensures UpdatedFolder(UpdatedFolder(f, u, t1), u, t2) == UpdatedFolder(f, u, t2)
  {
  }

  /** A document uploaded into a custom folder can always be deleted later. */
  lemma CustomUploadsDeletable(folders: seq<Folder>, familyId: string, folderId: string, kind: string)
    requires folderId != "" && FindFolder(folders, familyId, folderId).Some?
    ensures !Protection(Placement(folders, familyId, Some(folderId), kind).0).0
  {
  }

  // ---------------------------------------------------------------------------
  // The endpoints

  /** The refusal to delete a folder that still holds `n` documents. */
  function FolderNotEmpty(n: nat): string {
    NotEmptyHead + DecimalString(n) + NotEmptyTail
  }

  const NotEmptyHead: string := "Cannot delete folder with "
  const NotEmptyTail: string := [' '] + "document(s). Please delete or move documents first."

  /** The refusal names the number of documents: different counts give
      different messages. */
  lemma FolderNotEmptyNamesCount(a: nat, b: nat)
    requires FolderNotEmpty(a) == FolderNotEmpty(b)
    ensures a == b
  {
    assert NotEmptyTail[0] == ' ';
    CountReadBack(NotEmptyHead, NotEmptyTail, a, b);
  }

  /** A count between a fixed text and a text starting with a non-digit is
      read back uniquely. */
  lemma CountReadBack(head: string, tail: string, a: nat, b: nat)
    requires |tail| >= 1 && !('0' <= tail[0] <= '9')
    requires head + DecimalString(a) + tail == head + DecimalString(b) + tail
    ensures a == b
  {
    assert (head + DecimalString(a) + tail)[|head|..] == DecimalString(a) + tail;
    assert (head + DecimalString(b) + tail)[|head|..] == DecimalString(b) + tail;
    DecimalPrefix(a, tail, b, tail);
  }

  /** The folder and document collections behind the document endpoints. The
      caller's family is resolved beforehand (`None` when the user has none);
      ids, times and the file outcome are parameters. */
  class DocumentStore {
    var folders: seq<Folder>
    var documents: seq<Document>

    ghost predicate Valid()
      reads this
    {
      UniqueFolderIds(folders)
    }

    constructor ()
      ensures Valid() && folders == [] && documents == []
    {
      folders := [];
      documents := [];
    }

    /** `get_folders`. */
    method GetFolders(familyId: Option<string>) returns (r: Result<seq<FolderView>, Failure>)
      ensures familyId.None? ==> r == Err(NotFound("Family not found"))
      ensures familyId.Some? ==> r == Ok(FolderListing(folders, documents, familyId.value))
    {
      if familyId.None? {
        return Err(NotFound("Family not found"));
      }
      var fid := familyId.value;
      var mine := FamilyDocuments(documents, fid);
      var custom := FamilyFolders(folders, fid);
      var views: seq<FolderView> := [];
      var i := 0;
      while i < |DefaultFolders|
        invariant 0 <= i <= |DefaultFolders|
        invariant views == seq(i, k requires 0 <= k < i => DefaultView(DefaultFolders[k], mine))
      {
        views := views + [DefaultView(DefaultFolders[i], mine)];
        i := i + 1;
      }
      ghost var defaults := views;
      var j := 0;
      while j < |custom|
        invariant 0 <= j <= |custom|
        invariant views == defaults + seq(j, k requires 0 <= k < j => CustomView(custom[k], mine))
      {
        views := views + [CustomView(custom[j], mine)];
        j := j + 1;
      }
      r := Ok(views);
    }

    /** `create_folder`, with the duplicate test extended to ids. */
    method CreateFolder(familyId: Option<string>, data: FolderCreate, now: int, userEmail: string, storeId: string)
      returns (r: Result<FolderView, Failure>)
      requires Valid()
      modifies this
      ensures Valid() && documents == old(documents)
      ensures familyId.None? ==> r == Err(NotFound("Family not found")) && folders == old(folders)
      ensures familyId.Some? && FolderTaken(old(folders), familyId.value, data.name) ==>
        r == Err(BadRequest("Folder with this name already exists")) && folders == old(folders)
      ensures familyId.Some? && !FolderTaken(old(folders), familyId.value, data.name) ==>
        var slug := FolderSlug(data.name);
        && folders == old(folders) + [Folder(slug, familyId.value, data.name, data.description, data.icon,
                                             data.color, data.bgColor, slug, now, userEmail, None, storeId)]
        && r == Ok(FolderView(slug, data.name, ["custom"], 0, true, false, Some(slug)))
    {
      if familyId.None? {
        return Err(NotFound("Family not found"));
      }
      var fid := familyId.value;
      var slug := FolderSlug(data.name);
      if FolderTaken(folders, fid, data.name) {
        return Err(BadRequest("Folder with this name already exists"));
      }
      var folder := Folder(slug, fid, data.name, data.description, data.icon, data.color, data.bgColor,
                           slug, now, userEmail, None, storeId);
      folders := folders + [folder];
      r := Ok(FolderView(slug, data.name, ["custom"], 0, true, false, Some(slug)));
    }

    /** `update_folder`: the family's folder with that id gets the non-empty
        supplied fields; its count is recomputed from its category. */
    method UpdateFolder(familyId: Option<string>, folderId: string, u: FolderUpdate, now: int)
      returns (r: Result<FolderView, Failure>)
      requires Valid()
      modifies this
      ensures Valid() && documents == old(documents)
      ensures familyId.None? ==> r == Err(NotFound("Family not found")) && folders == old(folders)
      ensures familyId.Some? && FindFolder(old(folders), familyId.value, folderId).None? ==>
        r == Err(NotFound("Folder not found")) && folders == old(folders)
      ensures familyId.Some? && FindFolder(old(folders), familyId.value, folderId).Some? ==>
        var i := FindFolder(old(folders), familyId.value, folderId).value;
        var updated := UpdatedFolder(old(folders)[i], u, now);
        && folders == old(folders)[i := updated]
        && r == Ok(CustomView(updated, FamilyDocuments(documents, familyId.value)).(id := folderId))
    {
      if familyId.None? {
        return Err(NotFound("Family not found"));
      }
      var fid := familyId.value;
      var found := FindFolder(folders, fid, folderId);
      if found.None? {
        return Err(NotFound("Folder not found"));
      }
      var i := found.value;
      var updated := UpdatedFolder(folders[i], u, now);
      folders := folders[i := updated];
      r := Ok(CustomView(updated, FamilyDocuments(documents, fid)).(id := folderId));
    }

    /** `delete_folder`: refused while documents are filed under the folder's
        category; otherwise the folder alone is removed. */
    method DeleteFolder(familyId: Option<string>, folderId: string) returns (r: Result<string, Failure>)
      requires Valid()
      modifies this
      ensures Valid() && documents == old(documents)
      ensures familyId.None? ==> r == Err(NotFound("Family not found")) && folders == old(folders)
      ensures familyId.Some? && FindFolder(old(folders), familyId.value, folderId).None? ==>
        r == Err(NotFound("Folder not found")) && folders == old(folders)
      ensures familyId.Some? && FindFolder(old(folders), familyId.value, folderId).Some? ==>
        var i := FindFolder(old(folders), familyId.value, folderId).value;
        var n := CountInCategory(FamilyDocuments(documents, familyId.value), old(folders)[i].customCategory);
        && (n > 0 ==> r == Err(BadRequest(FolderNotEmpty(n))) && folders == old(folders))
        && (n == 0 ==> r == Ok("Folder deleted successfully") && folders == old(folders)[..i] + old(folders)[i + 1..])
    {
      if familyId.None? {
        return Err(NotFound("Family not found"));
      }
      var fid := familyId.value;
      var found := FindFolder(folders, fid, folderId);
      if found.None? {
        return Err(NotFound("Folder not found"));
      }
      var i := found.value;
      var n := CountInCategory(FamilyDocuments(documents, fid), folders[i].customCategory);
      if n > 0 {
        return Err(BadRequest(FolderNotEmpty(n)));
      }
      folders := folders[..i] + folders[i + 1..];
      r := Ok("Folder deleted successfully");
    }

    /** `get_documents`: the family's documents, narrowed to a folder when one
        is given, newest first. */
    method GetDocuments(familyId: Option<string>, folderId: Option<string>)
      returns (r: Result<seq<DocumentView>, Failure>)
      ensures familyId.None? ==> r == Err(NotFound("Family not found"))
      ensures familyId.Some? ==>
        match SelectionFor(familyId.value, folderId)
        case None => r == Err(NotFound("Folder not found"))
        case Some(s) =>
          var chosen := Sorting.Sort(Select(documents, familyId.value, s), NewestFirst());
          r == Ok(seq(|chosen|, k requires 0 <= k < |chosen| => DocumentViewOf(chosen[k])))
    {
      if familyId.None? {
        return Err(NotFound("Family not found"));
      }
      var fid := familyId.value;
      var selection := SelectionFor(fid, folderId);
      if selection.None? {
        return Err(NotFound("Folder not found"));
      }
      var s := selection.value;
      var matching: seq<Document> := [];
      var i := 0;
      while i < |documents|
        invariant 0 <= i <= |documents|
        invariant matching == Select(documents[..i], fid, s)
      {
        SelectAppend(documents[..i], documents[i], fid, s);
        assert documents[..i + 1] == documents[..i] + [documents[i]];
        if Selected(documents[i], fid, s) {
          matching := matching + [documents[i]];
        }
        i := i + 1;
      }
      assert documents[..|documents|] == documents;
      var chosen := Sorting.Sort(matching, NewestFirst());
      var views: seq<DocumentView> := [];
      var k := 0;
      while k < |chosen|
        invariant 0 <= k <= |chosen|
        invariant views == seq(k, j requires 0 <= j < k => DocumentViewOf(chosen[j]))
      {
        views := views + [DocumentViewOf(chosen[k])];
        k := k + 1;
      }
      r := Ok(views);
    }

    /** The narrowing `get_documents` applies for `folderId`: a default folder
        by its types, a custom folder by its category, `None` for an unknown one. */
    function SelectionFor(familyId: string, folderId: Option<string>): Option<Selection>
      reads this
    {
      if folderId.None? || folderId.value == "" then Some(AllOfFamily)
      else match DefaultFolderNamed(folderId.value)
        case Some(f) => Some(OfKinds(f.documentTypes))
        case None =>
          match FindFolder(folders, familyId, folderId.value)
          case Some(i) => Some(InCategory(folders[i].customCategory))
          case None => None
    }

    /** `upload_document`: the decoded size (`None` when the content is not
        base64) and whether the file was written are inputs. */
    method UploadDocument(familyId: Option<string>, data: DocumentUpload, newId: string,
                          decodedSize: Option<nat>, fileWritten: bool, now: int, userEmail: string)
      returns (r: Result<DocumentView, Failure>)
      requires Valid()
      modifies this
      ensures Valid() && folders == old(folders)
      ensures familyId.None? ==> r == Err(NotFound("Family not found")) && documents == old(documents)
      ensures familyId.Some? && (decodedSize.None? || !fileWritten) ==>
        r.Err? && r.error.InternalError? && documents == old(documents)
      ensures familyId.Some? && decodedSize.Some? && fileWritten ==>
        var placed := Placement(folders, familyId.value, data.folderId, data.kind);
        var protection := Protection(placed.0);
        var doc := Document(newId, familyId.value, data.folderId, data.name, placed.0, placed.1,
                            FileUrl(newId, data.fileName), data.fileName, FileType(data.fileName),
                            decodedSize.value, data.description,
                            if data.tags.Some? then data.tags.value else [],
                            protection.0, protection.1, userEmail,
                            if data.childrenIds.Some? then data.childrenIds.value else [], now);
        && documents == old(documents) + [doc]
        && r == Ok(DocumentViewOf(doc))
    {
      if familyId.None? {
        return Err(NotFound("Family not found"));
      }
      var fid := familyId.value;
      var fileType := FileType(data.fileName);
      if decodedSize.None? {
        return Err(InternalError("Incorrect padding"));
      }
      var fileUrl := if fileWritten then FileUrl(newId, data.fileName) else "";
      if fileUrl == "" {
        return Err(InternalError("Failed to save document file"));
      }
      var placed := Placement(folders, fid, data.folderId, data.kind);
      var protection := Protection(placed.0);
      var doc := Document(newId, fid, data.folderId, data.name, placed.0, placed.1, fileUrl, data.fileName,
                          fileType, decodedSize.value, data.description,
                          if data.tags.Some? then data.tags.value else [],
                          protection.0, protection.1, userEmail,
                          if data.childrenIds.Some? then data.childrenIds.value else [], now);
      documents := documents + [doc];
      r := Ok(DocumentViewOf(doc));
    }

    /** `delete_document`: a protected document is refused with its reason;
        otherwise the first document with that id is removed. */
    method DeleteDocument(familyId: Option<string>, documentId: string) returns (r: Result<string, Failure>)
      requires Valid()
      modifies this
      ensures Valid() && folders == old(folders)
      ensures familyId.None? ==> r == Err(NotFound("Family not found")) && documents == old(documents)
      ensures familyId.Some? && FindFamilyDocument(old(documents), familyId.value, documentId).None? ==>
        r == Err(NotFound("Document not found")) && documents == old(documents)
      ensures familyId.Some? && FindFamilyDocument(old(documents), familyId.value, documentId).Some? ==>
        var d := old(documents)[FindFamilyDocument(old(documents), familyId.value, documentId).value];
        && (d.isProtected ==> r == Err(Forbidden(ProtectionMessage(d.protectionReason))) && documents == old(documents))
        && (!d.isProtected ==>
              var i := FindDocument(old(documents), documentId).value;
              r == Ok("Document deleted successfully") && documents == old(documents)[..i] + old(documents)[i + 1..])
    {
      if familyId.None? {
        return Err(NotFound("Family not found"));
      }
      var found := FindFamilyDocument(documents, familyId.value, documentId);
      if found.None? {
        return Err(NotFound("Document not found"));
      }
      var d := documents[found.value];
      if d.isProtected {
        return Err(Forbidden(ProtectionMessage(d.protectionReason)));
      }
      var i := FindDocument(documents, documentId).value;
      documents := documents[..i] + documents[i + 1..];
      r := Ok("Document deleted successfully");
    }
  }

  /** `DEFAULT_FOLDERS` looked up by id. */
  function DefaultFolderNamed(id: string): (r: Option<DefaultFolder>)
    ensures r.Some? ==> r.value in DefaultFolders && r.value.id == id
    ensures r.None? ==> forall i | 0 <= i < |DefaultFolders| :: DefaultFolders[i].id != id
  {
    if id == "legal" then Some(DefaultFolders[0])
    else if id == "medical" then Some(DefaultFolders[1])
    else if id == "school" then Some(DefaultFolders[2])
    else if id == "emergency" then Some(DefaultFolders[3])
    else if id == "memories" then Some(DefaultFolders[4])
    else None
  }

  // ---------------------------------------------------------------------------
  // Folder ids and the duplicate test

  /** The duplicate test as written lets two folders of a family share an id:
      "Tax" and "tax" differ by name but both get "tax", and every later
      lookup by that id finds the first folder only. */
  lemma SlugCollisionAsWritten(familyId: string, now: int, email: string)
    ensures var first := Folder(FolderSlug("Tax"), familyId, "Tax", "", "", "", "", FolderSlug("Tax"), now, email, None, "1");
      var second := Folder(FolderSlug("tax"), familyId, "tax", "", "", "", "", FolderSlug("tax"), now, email, None, "2");
      && !NameTaken([first], familyId, "tax")
      && !UniqueFolderIds([first, second])
      && FindFolder([first, second], familyId, second.id) == Some(0)
  {
    SlugOfTax("Tax");
    SlugOfTax("tax");
    assert "Tax"[0] != "tax"[0];
    var first := Folder("tax", familyId, "Tax", "", "", "", "", "tax", now, email, None, "1");
    var second := Folder("tax", familyId, "tax", "", "", "", "", "tax", now, email, None, "2");
    assert [first, second][0].id == [first, second][1].id;
    assert FindFolder([first, second], familyId, "tax") == Some(0);
  }

  lemma SlugOfTax(name: string)
    requires name == "Tax" || name == "tax"
    ensures FolderSlug(name) == "tax"
  {
    assert Lower(name) == "tax" by {
      assert |Lower(name)| == 3;
      assert Lower(name)[0] == 't' && Lower(name)[1] == 'a' && Lower(name)[2] == 'x';
    }
    ReplaceCharAbsent("tax", ' ', "-");
    ReplaceCharAbsent("tax", '&', "and");
  }

  /** With the extended test, creating a folder keeps folder ids unique. */
  lemma CreateKeepsIdsUnique(folders: seq<Folder>, f: Folder, name: string)
    requires UniqueFolderIds(folders)
    requires !FolderTaken(folders, f.familyId, name) && f.id == FolderSlug(name)
    ensures UniqueFolderIds(folders + [f])
  {
    var s := folders + [f];
    forall i, j | 0 <= i < j < |s| && s[i].familyId == s[j].familyId ensures s[i].id != s[j].id {
      if j == |folders| {
        assert s[i] == folders[i];
      }
    }
  }
}

=== FILE: family.dfy ===
/** The family router: creating a family and linking the second parent,
    children, the family code, and the keyword reading of an uploaded
    custody contract. */
module FamilyRouter {
  import opened Wrappers
  import opened Text
  import opened Http
  import Dates
  import Store

  // ---------------------------------------------------------------------------
  // Records

  datatype Child = Child(id: Option<string>, name: string, dateOfBirth: Dates.Date, grade: Option<string>,
                         school: Option<string>, allergies: Option<string>, medications: Option<string>,
                         notes: Option<string>)

  /** One extracted term (its confidence score is left out). */
  datatype Term = Term(term: string, value: string)

  datatype ExpenseSplit = ExpenseSplit(ratio: string, parent1: nat, parent2: nat)

  datatype ParsedData = ParsedData(parsed: bool, extractedTerms: seq<Term>)

  datatype CustodyAgreement = CustodyAgreement(uploadDate: Option<int>, fileName: Option<string>,
                                               parsedData: Option<ParsedData>, custodySchedule: Option<string>,
                                               holidaySchedule: Option<string>, decisionMaking: Option<string>,
                                               expenseSplit: Option<ExpenseSplit>)

  datatype Family = Family(id: Option<string>, familyName: string, familyCode: Option<string>,
                           parent1Email: string, parent2Email: Option<string>, parent1Name: Option<string>,
                           parent2Name: Option<string>, children: seq<Child>, custodyArrangement: Option<string>,
                           custodyAgreement: Option<CustodyAgreement>, createdAt: Option<int>, linkedAt: Option<int>)

  datatype FamilyCreate = FamilyCreate(familyName: string, parent1Name: string, parent2Email: Option<string>,
                                       custodyArrangement: Option<string>)

  datatype ChildCreate = ChildCreate(name: string, dateOfBirth: Dates.Date, grade: Option<string>,
                                     school: Option<string>, allergies: Option<string>,
                                     medications: Option<string>, notes: Option<string>)

  /** The fields a child update sets (`exclude_unset`): `Some` for a field
      that was sent, carrying the value sent, `None` for one that was not. */
  datatype ChildUpdate = ChildUpdate(name: Option<string>, dateOfBirth: Option<Dates.Date>,
                                     grade: Option<Option<string>>, school: Option<Option<string>>,
                                     allergies: Option<Option<string>>, medications: Option<Option<string>>,
                                     notes: Option<Option<string>>)

  // ---------------------------------------------------------------------------
  // Family codes

  /** Upper-case letters and digits without the look-alikes 0, O, I, L and 1. */
  const CodeAlphabet: string := "ABCDEFGHJKMNPQRSTUVWXYZ23456789"

  predicate AllowedCodeChar(c: char) {
    ('A' <= c <= 'Z' || '0' <= c <= '9') && c !in "0OIL1"
  }

  /** The alphabet is exactly the allowed characters. */
  lemma CodeAlphabetExact(c: char)
    ensures c in CodeAlphabet <==> AllowedCodeChar(c)
  {
  }

  predicate IsFamilyCode(code: string) {
    |code| == 6 && forall i | 0 <= i < 6 :: AllowedCodeChar(code[i])
  }

  /** One attempt of the generator: six positions in the alphabet. */
  predicate ValidDraw(draw: seq<nat>) {
    |draw| == 6 && forall j | 0 <= j < 6 :: draw[j] < |CodeAlphabet|
  }

  predicate ValidDraws(draws: seq<seq<nat>>) {
    forall k | 0 <= k < |draws| :: ValidDraw(draws[k])
  }

  function Spell(draw: seq<nat>): (code: string)
    requires ValidDraw(draw)
    ensures IsFamilyCode(code)
  {
    var code := seq(6, j requires 0 <= j < 6 => CodeAlphabet[draw[j]]);
    assert forall j | 0 <= j < 6 :: code[j] in CodeAlphabet;
    forall j | 0 <= j < 6 ensures AllowedCodeChar(code[j]) {
      CodeAlphabetExact(code[j]);
    }
    code
  }

  predicate CodeInUse(families: seq<Family>, code: string) {
    exists i | 0 <= i < |families| :: families[i].familyCode == Some(code)
  }

  /** The code the generator settles on: the first drawn code no family uses;
      `None` when every drawn code is taken. */
  function FirstUnusedCode(families: seq<Family>, draws: seq<seq<nat>>): Option<string>
    requires ValidDraws(draws)
    decreases |draws|
  {
    if draws == [] then None
    else if !CodeInUse(families, Spell(draws[0])) then Some(Spell(draws[0]))
    else FirstUnusedCode(families, draws[1..])
  }

  /** A generated code is well formed and unused; without one, every draw
      was a code already in use. */
  lemma {:induction false} FirstUnusedCodeSound(families: seq<Family>, draws: seq<seq<nat>>)
    requires ValidDraws(draws)
    ensures FirstUnusedCode(families, draws).Some? ==>
      IsFamilyCode(FirstUnusedCode(families, draws).value) && !CodeInUse(families, FirstUnusedCode(families, draws).value)
    ensures FirstUnusedCode(families, draws).None? ==>
      forall k | 0 <= k < |draws| :: CodeInUse(families, Spell(draws[k]))
    decreases |draws|
  {
    if draws != [] && CodeInUse(families, Spell(draws[0])) {
      FirstUnusedCodeSound(families, draws[1..]);
      if FirstUnusedCode(families, draws).None? {
        forall k | 0 <= k < |draws| ensures CodeInUse(families, Spell(draws[k])) {
          if k > 0 {
            assert draws[k] == draws[1..][k - 1];
          }
        }
      }
    }
  }

  /** `generate_family_code`: draws until a code is free. The random choices
      are the draws; the model stops when they run out. */
  method GenerateFamilyCode(families: seq<Family>, draws: seq<seq<nat>>) returns (code: Option<string>)
    requires ValidDraws(draws)
    ensures code == FirstUnusedCode(families, draws)
  {
    var k := 0;
    while k < |draws|
      invariant 0 <= k <= |draws|
      invariant FirstUnusedCode(families, draws) == FirstUnusedCode(families, draws[k..])
    {
      assert draws[k..][1..] == draws[k + 1..];
      var candidate := Spell(draws[k]);
      if !CodeInUse(families, candidate) {
        return Some(candidate);
      }
      k := k + 1;
    }
    code := None;
  }

  /** No two families share a code. */
  ghost predicate UniqueCodes(families: seq<Family>) {
    forall i, j | 0 <= i < j < |families| ::
      families[i].familyCode.Some? ==> families[i].familyCode != families[j].familyCode
  }

  // ---------------------------------------------------------------------------
  // Lookups

  /** The caller's family: the first one naming `email` as either parent. */
  function CallerFamily(families: seq<Family>, email: string): (r: Option<nat>)
    ensures r.Some? ==> r.value < |families| && IsParent(families[r.value], email)
    ensures r.Some? ==> forall j | 0 <= j < r.value :: !IsParent(families[j], email)
    ensures r.None? ==> forall j | 0 <= j < |families| :: !IsParent(families[j], email)
    decreases |families|
  {
    if families == [] then None
    else if IsParent(families[0], email) then Some(0)
    else match CallerFamily(families[1..], email)
      case None => None
      case Some(i) => Some(i + 1)
  }

  predicate IsParent(f: Family, email: string) {
    f.parent1Email == email || f.parent2Email == Some(email)
  }

  /** The first family with code `code`. */
  function FamilyWithCode(families: seq<Family>, code: string): (r: Option<nat>)
    ensures r.Some? ==> r.value < |families| && families[r.value].familyCode == Some(code)
    ensures r.Some? ==> forall j | 0 <= j < r.value :: families[j].familyCode != Some(code)
    ensures r.None? <==> !CodeInUse(families, code)
    decreases |families|
  {
    if families == [] then None
    else if families[0].familyCode == Some(code) then Some(0)
    else
      var rest := FamilyWithCode(families[1..], code);
      if rest.None? then
        assert forall j | 0 <= j < |families| :: families[j].familyCode != Some(code) by {
          forall j | 0 <= j < |families| ensures families[j].familyCode != Some(code) {
            if j > 0 {
              assert families[j] == families[1..][j - 1];
            }
          }
        }
        None
      else
        assert families[1..][rest.value] == families[rest.value + 1];
        Some(rest.value + 1)
  }

  /** The first child with id `childId`. */
  function FirstChild(children: seq<Child>, childId: string): (r: Option<nat>)
    ensures r.Some? ==> r.value < |children| && children[r.value].id == Some(childId)
    ensures r.Some? ==> forall j | 0 <= j < r.value :: children[j].id != Some(childId)
    ensures r.None? ==> forall j | 0 <= j < |children| :: children[j].id != Some(childId)
    decreases |children|
  {
    if children == [] then None
    else if children[0].id == Some(childId) then Some(0)
    else match FirstChild(children[1..], childId)
      case None => None
      case Some(i) => Some(i + 1)
  }

  /** The search over the stored children after the update. */
  method FindChild(children: seq<Child>, childId: string) returns (r: Option<nat>)
    ensures r == FirstChild(children, childId)
  {
    var j := 0;
    while j < |children|
      invariant 0 <= j <= |children|
      invariant forall k | 0 <= k < j :: children[k].id != Some(childId)
    {
      if children[j].id == Some(childId) {
        return Some(j);
      }
      j := j + 1;
    }
    r := None;
  }

  // ---------------------------------------------------------------------------
  // Child updates

  function Pick<T>(current: T, sent: Option<T>): (r: T)
    ensures sent.Some? ==> r == sent.value
    ensures sent.None? ==> r == current
  {
    if sent.Some? then sent.value else current
  }

  /** The child with the sent fields replaced; the id never changes. */
  function ApplyChildUpdate(c: Child, u: ChildUpdate): (r: Child)
    ensures r.id == c.id
    ensures u == ChildUpdate(None, None, None, None, None, None, None) ==> r == c
    ensures u.name.Some? ==> r.name == u.name.value
    ensures u.name.None? ==> r.name == c.name
    ensures u.dateOfBirth.Some? ==> r.dateOfBirth == u.dateOfBirth.value
    ensures u.dateOfBirth.None? ==> r.dateOfBirth == c.dateOfBirth
    ensures u.grade.Some? ==> r.grade == u.grade.value
    ensures u.grade.None? ==> r.grade == c.grade
    ensures u.school.Some? ==> r.school == u.school.value
    ensures u.school.None? ==> r.school == c.school
    ensures u.allergies.Some? ==> r.allergies == u.allergies.value
    ensures u.allergies.None? ==> r.allergies == c.allergies
    ensures u.medications.Some? ==> r.medications == u.medications.value
    ensures u.medications.None? ==> r.medications == c.medications
    ensures u.notes.Some? ==> r.notes == u.notes.value
    ensures u.notes.None? ==> r.notes == c.notes
  {
    c.(name := Pick(c.name, u.name), dateOfBirth := Pick(c.dateOfBirth, u.dateOfBirth),
       grade := Pick(c.grade, u.grade), school := Pick(c.school, u.school),
       allergies := Pick(c.allergies, u.allergies), medications := Pick(c.medications, u.medications),
       notes := Pick(c.notes, u.notes))
  }

  /** Applying the same update twice changes nothing more. */
  lemma ChildUpdateIdempotent(c: Child, u: ChildUpdate)
    ensures ApplyChildUpdate(ApplyChildUpdate(c, u), u) == ApplyChildUpdate(c, u)
  {
  }

  /** Through the in-memory store, the update query of `update_child` never
      matches: the path "children.id" reaches the children list, which is not
      a dict, so the lookup yields `None` and never equals the child id. */
  lemma UpdateChildQueryNeverMatches(doc: Store.Doc, familyKey: Store.Value, childId: string)
    requires "children" in doc && doc["children"].Arr?
    ensures !Store.Matches(doc, Store.Query([Store.Eq("_id", familyKey), Store.Eq("children.id", Store.Str(childId))]))
  {
    ChildrenIdPath();
    assert Store.Lookup(Store.Obj(doc), ["children", "id"]) == Store.Lookup(doc["children"], ["id"]);
    var q := Store.Query([Store.Eq("_id", familyKey), Store.Eq("children.id", Store.Str(childId))]);
    assert !Store.Holds(doc, q.clauses[1]);
  }

  /** The path "children.id" has the two segments "children" and "id". */
  lemma ChildrenIdPath()
    ensures Split("children.id", '.') == ["children", "id"]
  {
    var a, b := "children", "id";
    SplitWithoutSep(b, '.');
    SplitWithoutSep(a, '.');
    SplitAroundSep(a, b, '.');
    assert a + ['.'] + b == "children.id";
  }

  // ---------------------------------------------------------------------------
  // Contract keywords

  datatype ContractTerms = ContractTerms(custodySchedule: string, holidaySchedule: string, decisionMaking: string,
                                         expenseSplit: ExpenseSplit, parsedData: ParsedData)

  predicate EqualTimeMentioned(text: string) {
    Contains(text, "50/50") || Contains(text, "50-50") || Contains(text, "equal time")
  }

  predicate PrimarySecondaryMentioned(text: string) {
    Contains(text, "primary") && Contains(text, "secondary")
  }

  const SplitTermEqual: Term := Term("Custody Split", "50/50 Equal Time")
  const SplitTermPrimary: Term := Term("Custody Split", "Primary/Secondary")
  const LegalTerm: Term := Term("Legal Custody", "Joint Legal Custody")
  const HolidayTerm: Term := Term("Holiday Schedule", "Alternating Holidays")

  /** `parse_contract_with_ai`: keyword tests on the lowercased text. */
  function ParseContract(content: string): (r: ContractTerms)
    ensures r.custodySchedule == "Extracted from agreement" && r.parsedData.parsed
    ensures r.expenseSplit.parent1 + r.expenseSplit.parent2 == 100
    ensures r.expenseSplit.ratio == "50-50" <==> EqualTimeMentioned(Lower(content))
    ensures r.expenseSplit.ratio == "60-40" <==>
      !EqualTimeMentioned(Lower(content)) && PrimarySecondaryMentioned(Lower(content))
    ensures EqualTimeMentioned(Lower(content)) ==> r.expenseSplit == ExpenseSplit("50-50", 50, 50)
    ensures !EqualTimeMentioned(Lower(content)) && PrimarySecondaryMentioned(Lower(content)) ==>
      r.expenseSplit == ExpenseSplit("60-40", 60, 40)
    ensures !EqualTimeMentioned(Lower(content)) && !PrimarySecondaryMentioned(Lower(content)) ==>
      r.expenseSplit == ExpenseSplit("custom", 50, 50)
    ensures r.holidaySchedule == "Alternating holidays as specified" && r.decisionMaking == "Joint legal custody"
    ensures |r.parsedData.extractedTerms| <= 3
  {
    var text := Lower(content);
    var split :=
      if EqualTimeMentioned(text) then ([SplitTermEqual], ExpenseSplit("50-50", 50, 50))
      else if PrimarySecondaryMentioned(text) then ([SplitTermPrimary], ExpenseSplit("60-40", 60, 40))
      else ([], ExpenseSplit("custom", 50, 50));
    var legal := if Contains(text, "joint legal custody") then [LegalTerm] else [];
    var holiday := if Contains(text, "alternate") && Contains(text, "holiday") then [HolidayTerm] else [];
    ContractTerms("Extracted from agreement", "Alternating holidays as specified", "Joint legal custody",
                  split.1, ParsedData(true, split.0 + legal + holiday))
  }

  /** The four terms the parsers report are told apart by their texts. */
  lemma TermsDistinct()
    ensures SplitTermEqual != SplitTermPrimary
    ensures LegalTerm !in {SplitTermEqual, SplitTermPrimary}
    ensures HolidayTerm !in {SplitTermEqual, SplitTermPrimary, LegalTerm}
  {
    assert SplitTermEqual.value[0] != SplitTermPrimary.value[0];
    assert LegalTerm.term[0] != SplitTermEqual.term[0];
    assert HolidayTerm.term[0] != SplitTermEqual.term[0] && HolidayTerm.term[0] != LegalTerm.term[0];
  }

  /** Each term is reported exactly when the lowercased contract mentions it:
      the equal-time split, the primary/secondary split only without an
      equal-time phrase, joint legal custody and alternating holidays. */
  lemma ContractTermsReported(content: string)
    ensures var r := ParseContract(content);
      && (SplitTermEqual in r.parsedData.extractedTerms <==> EqualTimeMentioned(Lower(content)))
      && (SplitTermPrimary in r.parsedData.extractedTerms <==>
            !EqualTimeMentioned(Lower(content)) && PrimarySecondaryMentioned(Lower(content)))
      && (LegalTerm in r.parsedData.extractedTerms <==> Contains(Lower(content), "joint legal custody"))
      && (HolidayTerm in r.parsedData.extractedTerms <==>
            Contains(Lower(content), "alternate") && Contains(Lower(content), "holiday"))
  {
    TermsDistinct();
  }

  lemma LowerIdempotent(s: string)
    ensures Lower(Lower(s)) == Lower(s)
  {
    LowerHasNoCapitals(s);
    LowerIdentity(Lower(s));
  }

  /** The reading ignores letter case. */
  lemma ParseContractIgnoresCase(content: string)
    ensures ParseContract(Lower(content)) == ParseContract(content)
  {
    LowerIdempotent(content);
  }

  /** The agreement an upload stores. */
  function AgreementFrom(terms: ContractTerms, fileName: string, now: int): CustodyAgreement {
    CustodyAgreement(Some(now), Some(fileName), Some(terms.parsedData), Some(terms.custodySchedule),
                     Some(terms.holidaySchedule), Some(terms.decisionMaking), Some(terms.expenseSplit))
  }

  // ---------------------------------------------------------------------------
  // The endpoints

  /** The families collection as the family router uses it. */
  class FamilyStore {
    var families: seq<Family>

    ghost predicate Valid()
      reads this
    {
      UniqueCodes(families)
    }

    constructor ()
      ensures Valid() && families == []
    {
      families := [];
    }

    /** `create_family`: refused for a caller who is already a parent of some
        family; otherwise a family with a fresh code, the caller as first
        parent and no children is appended. */
    method CreateFamily(email: string, data: FamilyCreate, newId: string, draws: seq<seq<nat>>, now: int)
      returns (r: Result<Family, Failure>)
      requires Valid() && ValidDraws(draws)
      modifies this
      ensures Valid()
      ensures CallerFamily(old(families), email).Some? ==>
        r == Err(BadRequest("User already has a family profile")) && families == old(families)
      ensures CallerFamily(old(families), email).None? && FirstUnusedCode(old(families), draws).None? ==>
        r.Err? && families == old(families)
      ensures CallerFamily(old(families), email).None? && FirstUnusedCode(old(families), draws).Some? ==>
        var code := FirstUnusedCode(old(families), draws).value;
        && r == Ok(Family(Some(newId), data.familyName, Some(code), email, data.parent2Email, Some(data.parent1Name),
                          None, [], data.custodyArrangement, None, Some(now), None))
        && families == old(families) + [r.value]
        && IsFamilyCode(code) && !CodeInUse(old(families), code)
    {
      if CallerFamily(families, email).Some? {
        return Err(BadRequest("User already has a family profile"));
      }
      var code := GenerateFamilyCode(families, draws);
      FirstUnusedCodeSound(families, draws);
      if code.None? {
        return Err(InternalError("No unused family code drawn"));
      }
      var family := Family(Some(newId), data.familyName, code, email, data.parent2Email, Some(data.parent1Name),
                           None, [], data.custodyArrangement, None, Some(now), None);
      families := families + [family];
      r := Ok(family);
    }

    /** `link_to_family`: refusals in order (caller already a parent, unknown
        code, second parent already set); on success only the second parent's
        email and name and the link time change. */
    method LinkToFamily(email: string, code: string, parent2Name: string, now: int)
      returns (r: Result<Family, Failure>)
      requires Valid()
      modifies this
      ensures Valid()
      ensures CallerFamily(old(families), email).Some? ==>
        r == Err(BadRequest("User already has a family profile")) && families == old(families)
      ensures CallerFamily(old(families), email).None? && FamilyWithCode(old(families), code).None? ==>
        r == Err(NotFound("Invalid Family Code")) && families == old(families)
      ensures CallerFamily(old(families), email).None? && FamilyWithCode(old(families), code).Some? ==>
        var i := FamilyWithCode(old(families), code).value;
        var f := old(families)[i];
        && (f.parent2Email.Some? && f.parent2Email.value != "" ==>
              r == Err(BadRequest("This family already has two parents linked")) && families == old(families))
        && (!(f.parent2Email.Some? && f.parent2Email.value != "") ==>
              var linked := f.(parent2Email := Some(email), parent2Name := Some(parent2Name), linkedAt := Some(now));
              families == old(families)[i := linked] && r == Ok(linked))
    {
      if CallerFamily(families, email).Some? {
        return Err(BadRequest("User already has a family profile"));
      }
      var found := FamilyWithCode(families, code);
      if found.None? {
        return Err(NotFound("Invalid Family Code"));
      }
      var i := found.value;
      var f := families[i];
      if f.parent2Email.Some? && f.parent2Email.value != "" {
        return Err(BadRequest("This family already has two parents linked"));
      }
      var linked := f.(parent2Email := Some(email), parent2Name := Some(parent2Name), linkedAt := Some(now));
      families := families[i := linked];
      r := Ok(linked);
    }

    /** `add_child`: the child, with a fresh id, is appended to the caller's family. */
    method AddChild(email: string, data: ChildCreate, newId: string) returns (r: Result<Child, Failure>)
      requires Valid()
      modifies this
      ensures Valid()
      ensures CallerFamily(old(families), email).None? ==>
        r == Err(NotFound("Family profile not found")) && families == old(families)
      ensures CallerFamily(old(families), email).Some? ==>
        var i := CallerFamily(old(families), email).value;
        var c := Child(Some(newId), data.name, data.dateOfBirth, data.grade, data.school, data.allergies,
                       data.medications, data.notes);
        && r == Ok(c)
        && families == old(families)[i := old(families)[i].(children := old(families)[i].children + [c])]
    {
      var found := CallerFamily(families, email);
      if found.None? {
        return Err(NotFound("Family profile not found"));
      }
      var i := found.value;
      var c := Child(Some(newId), data.name, data.dateOfBirth, data.grade, data.school, data.allergies,
                     data.medications, data.notes);
      families := families[i := families[i].(children := families[i].children + [c])];
      r := Ok(c);
    }

    /** `update_child` with the positional update it is written for: the first
        child of the caller's family with that id gets the sent fields. */
    method UpdateChild(email: string, childId: string, u: ChildUpdate) returns (r: Result<Child, Failure>)
      requires Valid()
      modifies this
      ensures Valid()
      ensures CallerFamily(old(families), email).None? ==>
        r == Err(NotFound("Family profile not found")) && families == old(families)
      ensures CallerFamily(old(families), email).Some? ==>
        var i := CallerFamily(old(families), email).value;
        var kids := old(families)[i].children;
        && (FirstChild(kids, childId).None? ==> r == Err(NotFound("Child not found")) && families == old(families))
        && (FirstChild(kids, childId).Some? ==>
              var j := FirstChild(kids, childId).value;
              var updated := ApplyChildUpdate(kids[j], u);
              && r == Ok(updated)
              && families == old(families)[i := old(families)[i].(children := kids[j := updated])])
    {
      var found := CallerFamily(families, email);
      if found.None? {
        return Err(NotFound("Family profile not found"));
      }
      var i := found.value;
      var kids := families[i].children;
      var j := FindChild(kids, childId);
      if j.None? {
        return Err(NotFound("Child not found"));
      }
      var updated := ApplyChildUpdate(kids[j.value], u);
      families := families[i := families[i].(children := kids[j.value := updated])];
      r := Ok(updated);
    }

    /** `upload_contract`: the decoded text (or the decoder's error message)
        is an input; the caller's family gets a new agreement, replacing any
        previous one wholesale. Nothing else changes, and no custody events
        are generated. */
    method UploadContract(email: string, fileName: string, decoded: Result<string, string>, now: int)
      returns (r: Result<CustodyAgreement, Failure>)
      requires Valid()
      modifies this
      ensures Valid()
      ensures CallerFamily(old(families), email).None? ==>
        r == Err(NotFound("Family profile not found")) && families == old(families)
      ensures CallerFamily(old(families), email).Some? && decoded.Err? ==>
        r == Err(BadRequest("Invalid file content: " + decoded.error)) && families == old(families)
      ensures CallerFamily(old(families), email).Some? && decoded.Ok? ==>
        var i := CallerFamily(old(families), email).value;
        var agreement := AgreementFrom(ParseContract(decoded.value), fileName, now);
        && r == Ok(agreement)
        && families == old(families)[i := old(families)[i].(custodyAgreement := Some(agreement))]
    {
      var found := CallerFamily(families, email);
      if found.None? {
        return Err(NotFound("Family profile not found"));
      }
      if decoded.Err? {
        return Err(BadRequest("Invalid file content: " + decoded.error));
      }
      var i := found.value;
      var agreement := AgreementFrom(ParseContract(decoded.value), fileName, now);
      families := families[i := families[i].(custodyAgreement := Some(agreement))];
      r := Ok(agreement);
    }
  }

  /** Appending a family whose code is unused keeps codes unique. */
  lemma AppendKeepsCodesUnique(families: seq<Family>, f: Family)
    requires UniqueCodes(families)
    requires f.familyCode.Some? && !CodeInUse(families, f.familyCode.value)
    ensures UniqueCodes(families + [f])
  {
    var s := families + [f];
    forall i, j | 0 <= i < j < |s| && s[i].familyCode.Some? ensures s[i].familyCode != s[j].familyCode {
      if j == |families| {
        assert s[i] == families[i];
      }
    }
  }
}

=== FILE: http.dfy ===
/** The HTTP errors the route handlers raise. */
module Http {
  datatype Failure =
    | NotFound(detail: string)       // 404
    | BadRequest(detail: string)     // 400
    | Forbidden(detail: string)      // 403
    | InternalError(detail: string)  // 500, an uncaught exception turned into a response
}

=== FILE: sorting.dfy ===
/** Python's `sorted(xs, key=..., reverse=...)` / `list.sort`, as a stable
    insertion sort over an arbitrary total preorder. */
module Sorting {

  /** `le` is total and transitive, i.e. a key comparison `key(a) <= key(b)`. */
  ghost predicate TotalPreorder<T(!new)>(le: (T, T) -> bool) {
    && (forall a, b :: le(a, b) || le(b, a))
    && (forall a, b, c :: le(a, b) && le(b, c) ==> le(a, c))
  }

  predicate SortedBy<T>(s: seq<T>, le: (T, T) -> bool) {
    forall i, j | 0 <= i < j < |s| :: le(s[i], s[j])
  }

  /** Places `x` in front of the first element it is `le` to, so that `x`
      stays ahead of the elements it ties with. */
  function Insert<T>(x: T, s: seq<T>, le: (T, T) -> bool): seq<T>
    decreases |s|
  {
    if s == [] || le(x, s[0]) then [x] + s else [s[0]] + Insert(x, s[1..], le)
  }

  function Sort<T>(s: seq<T>, le: (T, T) -> bool): seq<T>
    decreases |s|
  {
    if s == [] then [] else Insert(s[0], Sort(s[1..], le), le)
  }

  lemma {:induction false} InsertPermutes<T>(x: T, s: seq<T>, le: (T, T) -> bool)
    ensures multiset(Insert(x, s, le)) == multiset(s) + multiset{x}
    decreases |s|
  {
    if s != [] && !le(x, s[0]) {
      InsertPermutes(x, s[1..], le);
      assert s == [s[0]] + s[1..];
    }
  }

  lemma {:induction false} InsertSorted<T(!new)>(x: T, s: seq<T>, le: (T, T) -> bool)
    requires TotalPreorder(le) && SortedBy(s, le)
    ensures SortedBy(Insert(x, s, le), le)
    decreases |s|
  {
    if s == [] || le(x, s[0]) {
      var r := [x] + s;
      forall i, j | 0 <= i < j < |r| ensures le(r[i], r[j]) {
        if i == 0 && j > 1 {
          assert le(s[0], s[j - 1]);
        }
      }
    } else {
      var t := Insert(x, s[1..], le);
      InsertSorted(x, s[1..], le);
      InsertPermutes(x, s[1..], le);
      var r := [s[0]] + t;
      forall i, j | 0 <= i < j < |r| ensures le(r[i], r[j]) {
        if i == 0 {
          var y := r[j];
          assert y in multiset(t);
          assert y in multiset(s[1..]) + multiset{x};
          if y == x {
          } else {
            assert y in s[1..];
            var k :| 0 <= k < |s[1..]| && s[1..][k] == y;
            assert le(s[0], s[k + 1]);
          }
        }
      }
    }
  }

  /** The sort only reorders. */
  lemma {:induction false} SortPermutes<T>(s: seq<T>, le: (T, T) -> bool)
    ensures multiset(Sort(s, le)) == multiset(s)
    decreases |s|
  {
    if s != [] {
      SortPermutes(s[1..], le);
      InsertPermutes(s[0], Sort(s[1..], le), le);
      assert s == [s[0]] + s[1..];
    }
  }

  /** The result is ordered by `le`. */
  lemma {:induction false} SortSorted<T(!new)>(s: seq<T>, le: (T, T) -> bool)
    requires TotalPreorder(le)
    ensures SortedBy(Sort(s, le), le)
    decreases |s|
  {
    if s != [] {
      SortSorted(s[1..], le);
      InsertSorted(s[0], Sort(s[1..], le), le);
    }
  }

  /** `y` alone when it ties with `x` under `le`, nothing otherwise. */
  function TieOf<T>(y: T, x: T, le: (T, T) -> bool): seq<T> {
    if le(y, x) && le(x, y) then [y] else []
  }

  /** The elements of `s` that tie with `x`, in their order in `s`. */
  function Tied<T>(s: seq<T>, x: T, le: (T, T) -> bool): seq<T>
    decreases |s|
  {
    if s == [] then [] else TieOf(s[0], x, le) + Tied(s[1..], x, le)
  }

  /** Inserting `y` puts it ahead of every element it ties with. */
  lemma {:induction false} InsertTied<T(!new)>(y: T, s: seq<T>, x: T, le: (T, T) -> bool)
    requires TotalPreorder(le)
    ensures Tied(Insert(y, s, le), x, le) == TieOf(y, x, le) + Tied(s, x, le)
    decreases |s|
  {
    if s == [] || le(y, s[0]) {
      assert ([y] + s)[1..] == s;
    } else {
      InsertTied(y, s[1..], x, le);
      assert ([s[0]] + Insert(y, s[1..], le))[1..] == Insert(y, s[1..], le);
    }
  }

  /** The sort is stable: the elements that tie with any `x` keep their
      relative order. */
  lemma {:induction false} SortStable<T(!new)>(s: seq<T>, x: T, le: (T, T) -> bool)
    requires TotalPreorder(le)
    ensures Tied(Sort(s, le), x, le) == Tied(s, x, le)
    decreases |s|
  {
    if s != [] {
      SortStable(s[1..], x, le);
      InsertTied(s[0], Sort(s[1..], le), x, le);
    }
  }
}

=== FILE: store.dfy ===
/** The in-memory document store every router goes through: documents are
    dictionaries, queries are equality tests on dotted paths combined with `$or`. */
module Store {
  import opened Wrappers
  import opened Text
  import Sorting

  /** A stored value: the JSON-like values the routers put into documents. */
  datatype Value =
    | Null
    | Bool(b: bool)
    | Int(i: int)
    | Str(s: string)
    | Time(t: int)                     // a `datetime`, in seconds
    | Oid(hex: string)                 // a bson `ObjectId`
    | Obj(fields: map<string, Value>)  // a nested dict
    | Arr(items: seq<Value>)           // a list

  /** A top-level document. */
  type Doc = map<string, Value>

  /** Python truthiness (`if value:`). */
  predicate Truthy(v: Value) {
    match v
    case Null => false
    case Bool(b) => b
    case Int(i) => i != 0
    case Str(s) => s != ""
    case Time(_) => true
    case Oid(_) => true
    case Obj(m) => m != map[]
    case Arr(xs) => xs != []
  }

  /** `dict.get(key)`: one level, no dotted paths. */
  function Get(doc: Doc, key: string): Value {
    if key in doc then doc[key] else Null
  }

  /** `_normalize`: an ObjectId compares as its string form. */
  function Normalize(v: Value): Value {
    if v.Oid? then Str(v.hex) else v
  }

  // ---------------------------------------------------------------------------
  // Dotted paths

  /** Follows `parts` through nested dicts; `Null` as soon as a segment is
      missing or the current value is not a dict. */
  function Lookup(v: Value, parts: seq<string>): Value
    decreases |parts|
  {
    if parts == [] then v
    else if v.Obj? && parts[0] in v.fields then Lookup(v.fields[parts[0]], parts[1..])
    else Null
  }

  /** The value `_get_value(doc, key)` yields. */
  function GetPath(doc: Doc, key: string): Value {
    Lookup(Obj(doc), Split(key, '.'))
  }

  /** A key without dots reads one level, like `dict.get`. */
  lemma GetPathTopLevel(doc: Doc, key: string)
    requires '.' !in key
    ensures GetPath(doc, key) == Get(doc, key)
  {
    SplitWithoutSep(key, '.');
    assert [key][1..] == [];
    if key in doc {
      assert Lookup(Obj(doc), [key]) == Lookup(doc[key], []);
    }
  }

  /** A lookup along `p + q` is a lookup along `p` followed by one along `q`:
      a missing segment anywhere yields `Null`. */
  lemma {:induction false} LookupConcat(v: Value, p: seq<string>, q: seq<string>)
    ensures Lookup(v, p + q) == Lookup(Lookup(v, p), q)
    decreases |p|
  {
    if p == [] {
      assert p + q == q;
    } else if v.Obj? && p[0] in v.fields {
      assert (p + q)[1..] == p[1..] + q;
      LookupConcat(v.fields[p[0]], p[1..], q);
    } else if q != [] {
      assert (p + q)[0] == p[0];
    }
  }

  /** `_get_value`: walks the segments of `key` one at a time. */
  method GetValue(doc: Doc, key: string) returns (r: Value)
    ensures r == GetPath(doc, key)
  {
    var parts := Split(key, '.');
    var current := Obj(doc);
    var i := 0;
    while i < |parts|
      invariant 0 <= i <= |parts|
      invariant Lookup(current, parts[i..]) == GetPath(doc, key)
    {
      if current.Obj? && parts[i] in current.fields {
        current := current.fields[parts[i]];
      } else {
        return Null;
      }
      i := i + 1;
    }
    return current;
  }

  /** `_set_value` on the segments `parts`: missing or non-dict intermediate
      segments become fresh dicts, the last segment receives `v`. */
  function SetPath(m: Doc, parts: seq<string>, v: Value): (r: Doc)
    requires |parts| >= 1
    ensures m.Keys <= r.Keys
    ensures forall k | k in m && k != parts[0] :: r[k] == m[k]
    decreases |parts|
  {
    if |parts| == 1 then m[parts[0] := v]
    else
      var child := if parts[0] in m && m[parts[0]].Obj? then m[parts[0]].fields else map[];
      m[parts[0] := Obj(SetPath(child, parts[1..], v))]
  }

  /** `_set_value(doc, key, v)`. */
  function SetValue(doc: Doc, key: string, v: Value): (r: Doc)
    ensures doc.Keys <= r.Keys
  {
    SetPath(doc, Split(key, '.'), v)
  }

  /** Reading back a path just written yields the written value. */
  lemma {:induction false} LookupAfterSetPath(m: Doc, parts: seq<string>, v: Value)
    requires |parts| >= 1
    ensures Lookup(Obj(SetPath(m, parts, v)), parts) == v
    decreases |parts|
  {
    if |parts| > 1 {
      var child := if parts[0] in m && m[parts[0]].Obj? then m[parts[0]].fields else map[];
      LookupAfterSetPath(child, parts[1..], v);
    }
  }

  /** After `_set_value(doc, k, v)`, `_get_value(doc, k) == v`. */
  lemma GetAfterSet(doc: Doc, key: string, v: Value)
    ensures GetPath(SetValue(doc, key, v), key) == v
  {
    LookupAfterSetPath(doc, Split(key, '.'), v);
  }

  /** Writing a path leaves every path that starts with another segment alone. */
  lemma SetPathFrame(m: Doc, parts: seq<string>, v: Value, other: seq<string>)
    requires |parts| >= 1 && |other| >= 1 && other[0] != parts[0]
    ensures Lookup(Obj(SetPath(m, parts, v)), other) == Lookup(Obj(m), other)
  {
  }

  // ---------------------------------------------------------------------------
  // Queries

  /** One key of a query dict: an equality on a dotted path, or `$or`. */
  datatype Clause =
    | Eq(key: string, expected: Value)
    | AnyOf(alternatives: seq<Query>)

  /** A query dict; its keys are conjunctive. */
  datatype Query = Query(clauses: seq<Clause>)

  /** `_matches(document, query)`. */
  predicate Matches(doc: Doc, q: Query)
    decreases q
  {
    forall i | 0 <= i < |q.clauses| :: Holds(doc, q.clauses[i])
  }

  predicate Holds(doc: Doc, c: Clause)
    decreases c
  {
    match c
    case Eq(key, expected) => Normalize(GetPath(doc, key)) == Normalize(expected)
    case AnyOf(alts) => exists j | 0 <= j < |alts| :: Matches(doc, alts[j])
  }

  /** Keys of a query are conjunctive: a query made of two parts matches
      exactly the documents both parts match; the empty query matches all. */
  lemma MatchesConjunction(doc: Doc, p: Query, q: Query)
    ensures Matches(doc, Query(p.clauses + q.clauses)) <==> Matches(doc, p) && Matches(doc, q)
    ensures Matches(doc, Query([]))
  {
    if Matches(doc, p) && Matches(doc, q) {
      ConjunctionIntro(doc, p, q);
    }
    if Matches(doc, Query(p.clauses + q.clauses)) {
      ConjunctionElim(doc, p, q);
    }
  }

  lemma ConjunctionIntro(doc: Doc, p: Query, q: Query)
    requires Matches(doc, p) && Matches(doc, q)
    ensures Matches(doc, Query(p.clauses + q.clauses))
  {
    var pq := p.clauses + q.clauses;
    forall i | 0 <= i < |pq| ensures Holds(doc, pq[i]) {
      if i < |p.clauses| {
        assert pq[i] == p.clauses[i];
      } else {
        assert pq[i] == q.clauses[i - |p.clauses|];
      }
    }
  }

  lemma ConjunctionElim(doc: Doc, p: Query, q: Query)
    requires Matches(doc, Query(p.clauses + q.clauses))
    ensures Matches(doc, p) && Matches(doc, q)
  {
    var pq := p.clauses + q.clauses;
    forall i | 0 <= i < |p.clauses| ensures Holds(doc, p.clauses[i]) {
      assert pq[i] == p.clauses[i];
    }
    forall i | 0 <= i < |q.clauses| ensures Holds(doc, q.clauses[i]) {
      assert pq[|p.clauses| + i] == q.clauses[i];
    }
  }

  /** A query of equalities on top-level keys matches a document holding
      those values under those keys. */
  lemma MatchesTopLevel(doc: Doc, q: Query)
    requires forall i | 0 <= i < |q.clauses| ::
      q.clauses[i].Eq? && '.' !in q.clauses[i].key && q.clauses[i].key in doc
      && Normalize(doc[q.clauses[i].key]) == Normalize(q.clauses[i].expected)
    ensures Matches(doc, q)
  {
    forall i | 0 <= i < |q.clauses| ensures Holds(doc, q.clauses[i]) {
      GetPathTopLevel(doc, q.clauses[i].key);
    }
  }

  /** `$or` holds iff one of its alternatives matches; an empty `$or` never does. */
  lemma MatchesAnyOf(doc: Doc, alts: seq<Query>)
    ensures Matches(doc, Query([AnyOf(alts)])) <==> exists j | 0 <= j < |alts| :: Matches(doc, alts[j])
    ensures alts == [] ==> !Matches(doc, Query([AnyOf(alts)]))
  {
    assert Query([AnyOf(alts)]).clauses[0] == AnyOf(alts);
  }

  /** An ObjectId stored under a top-level key matches a query for its string
      form, and the other way round. */
  lemma MatchesObjectId(doc: Doc, key: string, hex: string)
    requires '.' !in key
    ensures key in doc && doc[key] == Oid(hex) ==> Matches(doc, Query([Eq(key, Str(hex))]))
    ensures key in doc && doc[key] == Str(hex) ==> Matches(doc, Query([Eq(key, Oid(hex))]))
  {
    SplitWithoutSep(key, '.');
    if key in doc {
      assert [key][1..] == [];
      assert GetPath(doc, key) == Lookup(doc[key], []) == doc[key];
      if doc[key] == Oid(hex) || doc[key] == Str(hex) {
        assert Holds(doc, Eq(key, Str(hex))) && Holds(doc, Eq(key, Oid(hex)));
        var q1 := Query([Eq(key, Str(hex))]);
        var q2 := Query([Eq(key, Oid(hex))]);
        assert q1.clauses[0] == Eq(key, Str(hex));
        assert q2.clauses[0] == Eq(key, Oid(hex));
      }
    }
  }

  // ---------------------------------------------------------------------------
  // Selections over the document list

  /** The documents whose matching against `q` equals `matching`, in order. */
  function Where(docs: seq<Doc>, q: Query, matching: bool): seq<Doc>
    decreases |docs|
  {
    if docs == [] then []
    else (if Matches(docs[0], q) == matching then [docs[0]] else []) + Where(docs[1..], q, matching)
  }

  /** All documents matching `q`, in insertion order. */
  function Filter(docs: seq<Doc>, q: Query): seq<Doc> {
    Where(docs, q, true)
  }

  /** A selection of a concatenation is the concatenation of the selections,
      so the selection keeps the documents' order. */
  lemma {:induction false} WhereConcat(s: seq<Doc>, t: seq<Doc>, q: Query, matching: bool)
    ensures Where(s + t, q, matching) == Where(s, q, matching) + Where(t, q, matching)
    decreases |s|
  {
    if s == [] {
      assert s + t == t;
    } else {
      assert (s + t)[1..] == s[1..] + t;
      WhereConcat(s[1..], t, q, matching);
    }
  }

  /** Exactly the documents whose matching is `matching` are selected. */
  lemma {:induction false} WhereMembers(s: seq<Doc>, q: Query, matching: bool, d: Doc)
    ensures d in Where(s, q, matching) <==> d in s && Matches(d, q) == matching
    decreases |s|
  {
    if s != [] {
      WhereMembers(s[1..], q, matching, d);
      assert s == [s[0]] + s[1..];
    }
  }

  /** Selecting twice is selecting once. */
  lemma {:induction false} WhereIdempotent(s: seq<Doc>, q: Query, matching: bool)
    ensures Where(Where(s, q, matching), q, matching) == Where(s, q, matching)
    decreases |s|
  {
    if s != [] {
      WhereIdempotent(s[1..], q, matching);
      var head := if Matches(s[0], q) == matching then [s[0]] else [];
      WhereConcat(head, Where(s[1..], q, matching), q, matching);
      if head != [] {
        assert head[1..] == [];
      }
    }
  }

  /** A list of matching documents has nothing to reject. */
  lemma {:induction false} WhereNoneRejected(s: seq<Doc>, q: Query)
    requires forall k | 0 <= k < |s| :: Matches(s[k], q)
    ensures Where(s, q, false) == []
    ensures Where(s, q, true) == s
    decreases |s|
  {
    if s != [] {
      WhereNoneRejected(s[1..], q);
      assert s == [s[0]] + s[1..];
    }
  }

  /** What one selection rejected, the opposite selection never takes back. */
  lemma {:induction false} WhereRejectedStayRejected(s: seq<Doc>, q: Query)
    ensures Where(Where(s, q, false), q, true) == []
    decreases |s|
  {
    if s != [] {
      WhereRejectedStayRejected(s[1..], q);
      var head := if Matches(s[0], q) then [] else [s[0]];
      WhereConcat(head, Where(s[1..], q, false), q, true);
      if head != [] {
        assert head[1..] == [];
      }
    }
  }

  /** Matching and non-matching documents split the list between them. */
  lemma {:induction false} WhereSizes(s: seq<Doc>, q: Query)
    ensures |Where(s, q, true)| + |Where(s, q, false)| == |s|
    decreases |s|
  {
    if s != [] {
      WhereSizes(s[1..], q);
    }
  }

  /** Index of the first document matching `q`. */
  function FirstMatch(docs: seq<Doc>, q: Query): (r: Option<nat>)
    ensures r.Some? ==> r.value < |docs| && Matches(docs[r.value], q)
    ensures r.Some? ==> forall j | 0 <= j < r.value :: !Matches(docs[j], q)
    ensures r.None? ==> forall j | 0 <= j < |docs| :: !Matches(docs[j], q)
    decreases |docs|
  {
    if docs == [] then None
    else if Matches(docs[0], q) then Some(0)
    else match FirstMatch(docs[1..], q)
      case None => None
      case Some(i) => Some(i + 1)
  }

  /** `list.remove(x)`: drops the first element equal to `x`. */
  function RemoveFirst(s: seq<Doc>, x: Doc): seq<Doc>
    decreases |s|
  {
    if s == [] then []
    else if s[0] == x then s[1..]
    else [s[0]] + RemoveFirst(s[1..], x)
  }

  /** `list.remove(x)` drops `x` at the first index holding it. */
  lemma {:induction false} RemoveFirstAt(s: seq<Doc>, x: Doc, i: nat)
    requires i < |s| && s[i] == x
    requires forall j | 0 <= j < i :: s[j] != x
    ensures RemoveFirst(s, x) == s[..i] + s[i + 1..]
  {
    if i > 0 {
      var t := s[1..];
      assert t[i - 1] == x;
      RemoveFirstAt(t, x, i - 1);
      assert s[..i] == [s[0]] + t[..i - 1];
      assert t[i..] == s[i + 1..];
    }
  }

  /** Removing the first match by equality removes it at its own index: no
      earlier document can equal it, since an equal document would match too. */
  lemma RemoveFirstMatch(s: seq<Doc>, q: Query, i: nat)
    requires FirstMatch(s, q) == Some(i)
    ensures RemoveFirst(s, s[i]) == s[..i] + s[i + 1..]
  {
    forall j | 0 <= j < i ensures s[j] != s[i] {
      assert !Matches(s[j], q);
    }
    RemoveFirstAt(s, s[i], i);
  }

  // ---------------------------------------------------------------------------
  // Updates

  /** An update document: the `$set` and `$push` parts, each an ordered list
      of (dotted key, value) pairs, `None` when the operator is absent. */
  datatype Update = Update(sets: Option<seq<(string, Value)>>, pushes: Option<seq<(string, Value)>>)

  /** `$set`: the pairs applied in order. */
  function ApplySets(doc: Doc, sets: seq<(string, Value)>): (r: Doc)
    ensures doc.Keys <= r.Keys
    decreases |sets|
  {
    if sets == [] then doc
    else
      var last := sets[|sets| - 1];
      SetValue(ApplySets(doc, sets[..|sets| - 1]), last.0, last.1)
  }

  /** The document after the `$push` pairs, and the key whose current value
      was not a list (Python raises there, keeping the changes made so far). */
  datatype PushStep = PushStep(doc: Doc, failedAt: Option<string>)

  /** One `$push` pair: a missing value becomes a one-element list, a list is
      extended in place, anything else cannot be appended to. */
  function PushOne(doc: Doc, key: string, v: Value): (r: PushStep)
    ensures doc.Keys <= r.doc.Keys
  {
    var current := GetPath(doc, key);
    if current.Null? then PushStep(SetValue(doc, key, Arr([v])), None)
    else if current.Arr? then PushStep(SetValue(doc, key, Arr(current.items + [v])), None)
    else PushStep(doc, Some(key))
  }

  function ApplyPushes(doc: Doc, pushes: seq<(string, Value)>): (r: PushStep)
    ensures doc.Keys <= r.doc.Keys
    decreases |pushes|
  {
    if pushes == [] then PushStep(doc, None)
    else
      var before := ApplyPushes(doc, pushes[..|pushes| - 1]);
      var last := pushes[|pushes| - 1];
      if before.failedAt.Some? then before else PushOne(before.doc, last.0, last.1)
  }

  /** A `$push` onto a missing key creates a one-element list, onto a list
      appends at its end. */
  lemma PushOneResult(doc: Doc, key: string, v: Value)
    ensures GetPath(doc, key).Null? ==> GetPath(PushOne(doc, key, v).doc, key) == Arr([v])
    ensures GetPath(doc, key).Arr? ==>
      GetPath(PushOne(doc, key, v).doc, key) == Arr(GetPath(doc, key).items + [v])
    ensures PushOne(doc, key, v).failedAt.None? <==> GetPath(doc, key).Null? || GetPath(doc, key).Arr?
  {
    var current := GetPath(doc, key);
    if current.Null? {
      GetAfterSet(doc, key, Arr([v]));
    } else if current.Arr? {
      GetAfterSet(doc, key, Arr(current.items + [v]));
    }
  }

  /** The loop of `$set` pairs in `update_one` / `update_many`. */
  method SetAll(doc: Doc, sets: seq<(string, Value)>) returns (d: Doc)
    ensures d == ApplySets(doc, sets)
  {
    d := doc;
    var k := 0;
    while k < |sets|
      invariant 0 <= k <= |sets|
      invariant d == ApplySets(doc, sets[..k])
    {
      assert sets[..k + 1][..k] == sets[..k];
      d := SetValue(d, sets[k].0, sets[k].1);
      k := k + 1;
    }
    assert sets[..|sets|] == sets;
  }

  /** The loop of `$push` pairs in `update_one`, stopping where Python raises. */
  method PushAll(doc: Doc, pushes: seq<(string, Value)>) returns (r: PushStep)
    ensures r == ApplyPushes(doc, pushes)
  {
    var d := doc;
    var k := 0;
    while k < |pushes|
      invariant 0 <= k <= |pushes|
      invariant ApplyPushes(doc, pushes[..k]) == PushStep(d, None)
    {
      assert pushes[..k + 1][..k] == pushes[..k];
      var current := GetValue(d, pushes[k].0);
      if current.Null? {
        d := SetValue(d, pushes[k].0, Arr([pushes[k].1]));
      } else if current.Arr? {
        d := SetValue(d, pushes[k].0, Arr(current.items + [pushes[k].1]));
      } else {
        r := PushStep(d, Some(pushes[k].0));
        PushesStopAtFailure(doc, pushes, k + 1);
        return;
      }
      k := k + 1;
    }
    assert pushes[..|pushes|] == pushes;
    r := PushStep(d, None);
  }

  /** Once a push has failed, later pairs change nothing. */
  lemma {:induction false} PushesStopAtFailure(doc: Doc, pushes: seq<(string, Value)>, k: nat)
    requires k <= |pushes| && ApplyPushes(doc, pushes[..k]).failedAt.Some?
    ensures ApplyPushes(doc, pushes) == ApplyPushes(doc, pushes[..k])
    decreases |pushes| - k
  {
    if k < |pushes| {
      assert pushes[..k + 1][..k] == pushes[..k];
      PushesStopAtFailure(doc, pushes, k + 1);
    } else {
      assert pushes[..k] == pushes;
    }
  }

  /** What `update_one` reports. */
  datatype UpdateOutcome =
    | Counts(matched: nat, modified: nat)
    | PushTargetNotList(key: string)   // `current.append` raised

  /** The document `update_one` leaves behind, and its report, for a matched document. */
  function UpdatedDoc(doc: Doc, u: Update): PushStep {
    var afterSet := if u.sets.Some? then ApplySets(doc, u.sets.value) else doc;
    if u.pushes.Some? then ApplyPushes(afterSet, u.pushes.value) else PushStep(afterSet, None)
  }

  /** `update_many`'s result list: `$set` applied to every matching document. */
  function SetMatching(docs: seq<Doc>, q: Query, u: Update): seq<Doc> {
    seq(|docs|, i requires 0 <= i < |docs| =>
      if Matches(docs[i], q) && u.sets.Some? then ApplySets(docs[i], u.sets.value) else docs[i])
  }

  /** `str(counter)` assigned to a document without `_id`. */
  function Stamp(doc: Doc, counter: nat): (r: Doc)
    ensures "_id" in r && forall k | k in doc :: k in r && r[k] == doc[k]
    ensures r.Keys == doc.Keys + {"_id"}
    ensures "_id" !in doc ==> r["_id"] == Str(DecimalString(counter))
  {
    if "_id" in doc then doc else doc["_id" := Str(DecimalString(counter))]
  }

  // ---------------------------------------------------------------------------
  // Cursor sort

  /** `value or ""` for the sort key, a datetime kept as it is. */
  function SortKey(doc: Doc, key: string): Value {
    var v := GetPath(doc, key);
    if v.Time? then v else if Truthy(v) then v else Str("")
  }

  /** Python's `<=` on strings: code point by code point. */
  predicate StrLe(a: string, b: string)
    decreases |a|
  {
    a == [] || (b != [] && (a[0] < b[0] || (a[0] == b[0] && StrLe(a[1..], b[1..]))))
  }

  lemma {:induction false} StrLeTotal(a: string, b: string)
    ensures StrLe(a, b) || StrLe(b, a)
    decreases |a|
  {
    if a != [] && b != [] && a[0] == b[0] {
      StrLeTotal(a[1..], b[1..]);
    }
  }

  lemma {:induction false} StrLeTrans(a: string, b: string, c: string)
    requires StrLe(a, b) && StrLe(b, c)
    ensures StrLe(a, c)
    decreases |a|
  {
    if a != [] && b != [] && c != [] && a[0] == b[0] && b[0] == c[0] {
      StrLeTrans(a[1..], b[1..], c[1..]);
    }
  }

  /** Groups of values Python can compare with each other. */
  function KindRank(v: Value): nat {
    match v
    case Bool(_) => 0
    case Int(_) => 0
    case Str(_) => 1
    case Time(_) => 2
    case Oid(_) => 3
    case Null => 4
    case Obj(_) => 5
    case Arr(_) => 6
  }

  /** A `bool` compares as the integer 0 or 1. */
  function NumberOf(v: Value): int
    requires v.Bool? || v.Int?
  {
    if v.Int? then v.i else if v.b then 1 else 0
  }

  /** Python's comparison of two sort keys, as -1, 0 or 1: numbers, strings,
      datetimes and ObjectIds compare by value, and lists element by element
      (the first unequal pair decides, otherwise the shorter list comes
      first). Values of different kinds, which Python refuses to compare,
      are ordered by `KindRank`; two dicts, which Python also refuses to
      compare, tie. */
  function KeyCmp(a: Value, b: Value): int
    decreases a
  {
    if KindRank(a) != KindRank(b) then (if KindRank(a) < KindRank(b) then -1 else 1)
    else match a
      case Bool(_) => Sign(NumberOf(a) - NumberOf(b))
      case Int(_) => Sign(NumberOf(a) - NumberOf(b))
      case Str(x) => StrCmp(x, b.s)
      case Time(t) => Sign(t - b.t)
      case Oid(h) => StrCmp(h, b.hex)
      case Arr(xs) => ListCmp(xs, b.items)
      case _ => 0
  }

  /** Python's comparison of two lists of sort keys. */
  function ListCmp(xs: seq<Value>, ys: seq<Value>): int
    decreases xs
  {
    if xs == [] then (if ys == [] then 0 else -1)
    else if ys == [] then 1
    else
      var c := KeyCmp(xs[0], ys[0]);
      if c != 0 then c else ListCmp(xs[1..], ys[1..])
  }

  function Sign(n: int): int {
    if n < 0 then -1 else if n == 0 then 0 else 1
  }

  function StrCmp(x: string, y: string): int {
    if x == y then 0 else if StrLe(x, y) then -1 else 1
  }

  /** `a <= b` on sort keys. */
  predicate KeyLe(a: Value, b: Value) {
    KeyCmp(a, b) <= 0
  }

  /** Strings that are `<=` each other both ways are equal. */
  lemma {:induction false} StrLeAntisymmetric(a: string, b: string)
    requires StrLe(a, b) && StrLe(b, a)
    ensures a == b
    decreases |a|
  {
    if a != [] {
      StrLeAntisymmetric(a[1..], b[1..]);
      assert a == [a[0]] + a[1..] && b == [b[0]] + b[1..];
    }
  }

  lemma StrCmpFlip(x: string, y: string)
    ensures StrCmp(y, x) == -StrCmp(x, y)
  {
    StrLeTotal(x, y);
    if x != y && StrLe(x, y) && StrLe(y, x) {
      StrLeAntisymmetric(x, y);
    }
  }

  lemma StrCmpTrans(x: string, y: string, z: string)
    requires StrCmp(x, y) <= 0 && StrCmp(y, z) <= 0
    ensures StrCmp(x, z) <= 0
    ensures StrCmp(x, z) == 0 ==> StrCmp(x, y) == 0 && StrCmp(y, z) == 0
  {
    if x != y && y != z {
      StrLeTrans(x, y, z);
      if x == z {
        StrLeAntisymmetric(x, y);
      }
    }
  }

  /** Swapping the keys flips the comparison. */
  lemma {:induction false} KeyCmpFlip(a: Value, b: Value)
    ensures KeyCmp(b, a) == -KeyCmp(a, b)
    decreases a
  {
    if KindRank(a) == KindRank(b) {
      match a
      case Str(x) => StrCmpFlip(x, b.s);
      case Oid(h) => StrCmpFlip(h, b.hex);
      case Arr(xs) => ListCmpFlip(xs, b.items);
      case _ =>
    }
  }

  lemma {:induction false} ListCmpFlip(xs: seq<Value>, ys: seq<Value>)
    ensures ListCmp(ys, xs) == -ListCmp(xs, ys)
    decreases xs
  {
    if xs != [] && ys != [] {
      KeyCmpFlip(xs[0], ys[0]);
      ListCmpFlip(xs[1..], ys[1..]);
    }
  }

  /** The comparison is transitive, and a tie between the outer keys is a
      tie on both steps. */
  lemma {:induction false} KeyCmpTrans(a: Value, b: Value, c: Value)
    requires KeyCmp(a, b) <= 0 && KeyCmp(b, c) <= 0
    ensures KeyCmp(a, c) <= 0
    ensures KeyCmp(a, c) == 0 ==> KeyCmp(a, b) == 0 && KeyCmp(b, c) == 0
    decreases a
  {
    if KindRank(a) == KindRank(b) == KindRank(c) {
      match a
      case Str(x) => StrCmpTrans(x, b.s, c.s);
      case Oid(h) => StrCmpTrans(h, b.hex, c.hex);
      case Arr(xs) => ListCmpTrans(xs, b.items, c.items);
      case _ =>
    }
  }

  lemma {:induction false} ListCmpTrans(xs: seq<Value>, ys: seq<Value>, zs: seq<Value>)
    requires ListCmp(xs, ys) <= 0 && ListCmp(ys, zs) <= 0
    ensures ListCmp(xs, zs) <= 0
    ensures ListCmp(xs, zs) == 0 ==> ListCmp(xs, ys) == 0 && ListCmp(ys, zs) == 0
    decreases xs
  {
    if xs != [] && ys != [] && zs != [] {
      KeyCmpTrans(xs[0], ys[0], zs[0]);
      if KeyCmp(xs[0], ys[0]) == 0 && KeyCmp(ys[0], zs[0]) == 0 {
        ListCmpTrans(xs[1..], ys[1..], zs[1..]);
      }
    }
  }

  lemma KeyLeTotal(a: Value, b: Value)
    ensures KeyLe(a, b) || KeyLe(b, a)
  {
    KeyCmpFlip(a, b);
  }

  lemma KeyLeTrans(a: Value, b: Value, c: Value)
    requires KeyLe(a, b) && KeyLe(b, c)
    ensures KeyLe(a, c)
  {
    KeyCmpTrans(a, b, c);
  }

  /** Lists compare element by element: a list sorts before another that
      extends it, and otherwise the first differing pair decides. */
  lemma ListOrder(x: Value, y: Value, rest1: seq<Value>, rest2: seq<Value>)
    ensures KeyLe(Arr([x]), Arr([x] + rest1))
    ensures KeyCmp(x, y) < 0 ==> KeyLe(Arr([x] + rest1), Arr([y] + rest2)) && !KeyLe(Arr([y] + rest2), Arr([x] + rest1))
  {
    var xs, ys := [x] + rest1, [y] + rest2;
    assert xs[0] == x && xs[1..] == rest1 && ys[0] == y && ys[1..] == rest2;
    KeyCmpFlip(x, x);
    assert ListCmp([x], xs) == ListCmp([], rest1);
    KeyCmpFlip(x, y);
    assert KeyCmp(x, y) < 0 ==> ListCmp(xs, ys) == KeyCmp(x, y) && ListCmp(ys, xs) == KeyCmp(y, x);
  }

  /** The comparison `sorted` uses: ascending on the key, or descending when
      `reverse` (ties keep their order in both cases). */
  function DocLe(key: string, reverse: bool): (Doc, Doc) -> bool {
    if reverse then (a: Doc, b: Doc) => KeyLe(SortKey(b, key), SortKey(a, key))
    else (a: Doc, b: Doc) => KeyLe(SortKey(a, key), SortKey(b, key))
  }

  lemma DocLePreorder(key: string, reverse: bool)
    ensures Sorting.TotalPreorder(DocLe(key, reverse))
  {
    var le := DocLe(key, reverse);
    forall a: Doc, b: Doc ensures le(a, b) || le(b, a) {
      KeyLeTotal(SortKey(a, key), SortKey(b, key));
    }
    forall a: Doc, b: Doc, c: Doc | le(a, b) && le(b, c) ensures le(a, c) {
      if reverse {
        KeyLeTrans(SortKey(c, key), SortKey(b, key), SortKey(a, key));
      } else {
        KeyLeTrans(SortKey(a, key), SortKey(b, key), SortKey(c, key));
      }
    }
  }

  /** `InMemoryCursor`: the documents a `find` produced. */
  datatype Cursor = Cursor(docs: seq<Doc>) {

    /** `sort(key, direction)`: the same documents ordered by the key,
        descending iff `direction == -1`, missing values counting as "". */
    function Sort(key: string, direction: int): (r: Cursor)
      ensures multiset(r.docs) == multiset(docs)
      ensures direction != -1 ==> forall i, j | 0 <= i < j < |r.docs| ::
        KeyLe(SortKey(r.docs[i], key), SortKey(r.docs[j], key))
      ensures direction == -1 ==> forall i, j | 0 <= i < j < |r.docs| ::
        KeyLe(SortKey(r.docs[j], key), SortKey(r.docs[i], key))
    {
      var le := DocLe(key, direction == -1);
      DocLePreorder(key, direction == -1);
      Sorting.SortPermutes(docs, le);
      Sorting.SortSorted(docs, le);
      Cursor(Sorting.Sort(docs, le))
    }
  }

  /** The cursor sort is stable, in both directions: documents whose keys tie
      keep the order `find` gave them, as `sorted(..., reverse=True)` does. */
  lemma SortStable(docs: seq<Doc>, key: string, direction: int, d: Doc)
    ensures var le := DocLe(key, direction == -1);
      Sorting.Tied(Cursor(docs).Sort(key, direction).docs, d, le) == Sorting.Tied(docs, d, le)
  {
    DocLePreorder(key, direction == -1);
    Sorting.SortStable(docs, d, DocLe(key, direction == -1));
  }

  // ---------------------------------------------------------------------------
  // The collection

  /** `InMemoryCollection`: a list of documents and the counter for `_id`s. */
  class Collection {
    var data: seq<Doc>
    var counter: nat

    /** Every stored document carries an `_id`, so no stored document is the
        empty (falsy) dict, and the counter starts at 1. */
    ghost predicate Valid()
      reads this
    {
      1 <= counter && forall i | 0 <= i < |data| :: "_id" in data[i]
    }

    constructor ()
      ensures Valid() && data == [] && counter == 1
    {
      data := [];
      counter := 1;
    }

    /** `insert_one`: appends a copy, assigning `str(counter)` as `_id` and
        advancing the counter only when the document has no `_id`. */
    method InsertOne(doc: Doc) returns (id: Value)
      requires Valid()
      modifies this
      ensures Valid()
      ensures data == old(data) + [Stamp(doc, old(counter))]
      ensures id == Stamp(doc, old(counter))["_id"]
      ensures "_id" in doc ==> id == doc["_id"] && counter == old(counter)
      ensures "_id" !in doc ==> id == Str(DecimalString(old(counter))) && counter == old(counter) + 1
    {
      var copy := doc;
      if "_id" !in copy {
        copy := copy["_id" := Str(DecimalString(counter))];
        counter := counter + 1;
      }
      data := data + [copy];
      id := copy["_id"];
    }

    /** The scan of `find_one`: the position of the first match. */
    method FirstIndex(q: Query) returns (r: Option<nat>)
      ensures r == FirstMatch(data, q)
    {
      var i := 0;
      while i < |data|
        invariant 0 <= i <= |data|
        invariant forall j | 0 <= j < i :: !Matches(data[j], q)
      {
        if Matches(data[i], q) {
          return Some(i);
        }
        i := i + 1;
      }
      return None;
    }

    /** `find_one`: the first matching document in insertion order. */
    method FindOne(q: Query) returns (r: Option<Doc>)
      ensures r.Some? <==> exists j | 0 <= j < |data| :: Matches(data[j], q)
      ensures r.Some? ==> exists i | 0 <= i < |data| ::
        (data[i] == r.value && Matches(r.value, q) && forall j | 0 <= j < i :: !Matches(data[j], q))
    {
      var i := FirstIndex(q);
      if i.Some? {
        r := Some(data[i.value]);
      } else {
        r := None;
      }
    }

    /** `find`: every match, in insertion order. */
    method Find(q: Query) returns (c: Cursor)
      ensures c.docs == Filter(data, q)
    {
      var out: seq<Doc> := [];
      var i := 0;
      while i < |data|
        invariant 0 <= i <= |data|
        invariant out == Filter(data[..i], q)
      {
        assert data[..i + 1] == data[..i] + [data[i]];
        WhereConcat(data[..i], [data[i]], q, true);
        if Matches(data[i], q) {
          out := out + [data[i]];
        }
        i := i + 1;
      }
      assert data[..|data|] == data;
      c := Cursor(out);
    }

    /** `count_documents`: how many documents match. */
    method CountDocuments(q: Query) returns (n: nat)
      ensures n == |Filter(data, q)|
    {
      n := 0;
      var i := 0;
      while i < |data|
        invariant 0 <= i <= |data|
        invariant n == |Filter(data[..i], q)|
      {
        assert data[..i + 1] == data[..i] + [data[i]];
        WhereConcat(data[..i], [data[i]], q, true);
        if Matches(data[i], q) {
          n := n + 1;
        }
        i := i + 1;
      }
      assert data[..|data|] == data;
    }

    /** `update_one`: without a match it reports 0/0 and changes nothing;
        otherwise only the first match receives `$set` then `$push`. */
    method UpdateOne(q: Query, u: Update) returns (r: UpdateOutcome)
      requires Valid()
      modifies this
      ensures Valid() && counter == old(counter)
      ensures FirstMatch(old(data), q).None? ==> r == Counts(0, 0) && data == old(data)
      ensures FirstMatch(old(data), q).Some? ==>
        var i := FirstMatch(old(data), q).value;
        var step := UpdatedDoc(old(data)[i], u);
        && data == old(data)[i := step.doc]
        && r == (if step.failedAt.Some? then PushTargetNotList(step.failedAt.value)
                 else Counts(1, if u.sets.Some? || u.pushes.Some? then 1 else 0))
    {
      var found := FirstIndex(q);
      if found.None? {
        return Counts(0, 0);
      }
      var i := found.value;
      var doc := data[i];
      if u.sets.Some? {
        doc := SetAll(doc, u.sets.value);
      }
      if u.pushes.Some? {
        var step := PushAll(doc, u.pushes.value);
        data := data[i := step.doc];
        if step.failedAt.Some? {
          return PushTargetNotList(step.failedAt.value);
        }
      } else {
        data := data[i := doc];
      }
      r := Counts(1, if u.sets.Some? || u.pushes.Some? then 1 else 0);
    }

    /** `update_many`: `$set` on every matching document; `$push` is ignored. */
    method UpdateMany(q: Query, u: Update) returns (matched: nat, modified: nat)
      requires Valid()
      modifies this
      ensures Valid() && counter == old(counter)
      ensures data == SetMatching(old(data), q, u)
      ensures matched == |Filter(old(data), q)|
      ensures modified == if u.sets.Some? then matched else 0
    {
      ghost var before := data;
      matched, modified := 0, 0;
      var i := 0;
      while i < |data|
        invariant 0 <= i <= |data| == |before|
        invariant forall j | 0 <= j < i :: data[j] == SetMatching(before, q, u)[j]
        invariant forall j | i <= j < |data| :: data[j] == before[j]
        invariant Valid() && counter == old(counter)
        invariant matched == |Filter(before[..i], q)|
        invariant modified == if u.sets.Some? then matched else 0
      {
        assert before[..i + 1] == before[..i] + [before[i]];
        WhereConcat(before[..i], [before[i]], q, true);
        if Matches(data[i], q) {
          matched := matched + 1;
          if u.sets.Some? {
            var d := SetAll(data[i], u.sets.value);
            data := data[i := d];
            modified := modified + 1;
          }
        }
        i := i + 1;
      }
      assert before[..|before|] == before;
    }

    /** `delete_one`: removes the first match and reports 1, or reports 0. */
    method DeleteOne(q: Query) returns (deleted: nat)
      requires Valid()
      modifies this
      ensures Valid() && counter == old(counter)
      ensures FirstMatch(old(data), q).None? ==> deleted == 0 && data == old(data)
      ensures FirstMatch(old(data), q).Some? ==>
        var i := FirstMatch(old(data), q).value;
        deleted == 1 && data == old(data)[..i] + old(data)[i + 1..]
    {
      var found := FirstIndex(q);
      if found.None? {
        return 0;
      }
      RemoveFirstMatch(data, q, found.value);
      data := RemoveFirst(data, data[found.value]);
      deleted := 1;
    }

    /** `delete_many`: removes every match, keeping the rest in order. */
    method DeleteMany(q: Query) returns (deleted: nat)
      requires Valid()
      modifies this
      ensures Valid() && counter == old(counter)
      ensures data == Where(old(data), q, false)
      ensures deleted == |Filter(old(data), q)|
    {
      WhereSizes(data, q);
      forall d | d in Where(data, q, false) ensures "_id" in d {
        WhereMembers(data, q, false, d);
      }
      deleted := |Filter(data, q)|;
      data := Where(data, q, false);
    }
  }
}

=== FILE: text.dfy ===
/** String helpers standing for the few `str` methods the backend uses. */
module Text {

  /** `str.lower()` restricted to ASCII letters. */
  function LowerChar(c: char): char {
    if 'A' <= c <= 'Z' then (c as int + 32) as char else c
  }

  function Lower(s: string): string {
    seq(|s|, i requires 0 <= i < |s| => LowerChar(s[i]))
  }

  /** `w` occurs in `s` starting at index `i`. */
  predicate OccursAt(s: string, w: string, i: int) {
    0 <= i && i + |w| <= |s| && s[i..i + |w|] == w
  }

  /** Python's `w in s` for strings. */
  predicate Contains(s: string, w: string) {
    exists i | 0 <= i <= |s| - |w| :: OccursAt(s, w, i)
  }

  lemma ContainsWitness(s: string, w: string, i: int)
    requires OccursAt(s, w, i)
    ensures Contains(s, w)
  {
  }

  /** Lowercasing cannot create an occurrence of a word without lowercase
      letters: such a word occurs in `lower(s)` only where it occurs in `s`. */
  lemma LowerContainsCaseless(s: string, w: string)
    requires forall j | 0 <= j < |w| :: !('a' <= w[j] <= 'z')
    requires Contains(Lower(s), w)
    ensures Contains(s, w)
  {
    var i :| 0 <= i <= |s| - |w| && OccursAt(Lower(s), w, i);
    forall j | 0 <= j < |w| ensures s[i + j] == w[j] {
      assert Lower(s)[i..i + |w|][j] == w[j];
    }
    assert s[i..i + |w|] == w;
    assert OccursAt(s, w, i);
  }

  /** `s.split(sep)` for a one-character separator. */
  function Split(s: string, sep: char): (parts: seq<string>)
    ensures |parts| >= 1
    decreases |s|
  {
    if |s| == 0 then [""]
    else if s[0] == sep then [""] + Split(s[1..], sep)
    else Prepend(s[0], Split(s[1..], sep))
  }

  /** The pieces with `c` glued to the front of the first one. */
  function Prepend(c: char, parts: seq<string>): (r: seq<string>)
    requires |parts| >= 1
    ensures |r| == |parts|
  {
    [[c] + parts[0]] + parts[1..]
  }

  /** `sep.join(parts)`. */
  function Join(parts: seq<string>, sep: char): string
    requires |parts| >= 1
    decreases |parts|
  {
    if |parts| == 1 then parts[0] else parts[0] + [sep] + Join(parts[1..], sep)
  }

  /** One step of `Split` on a text given by its first character. */
  lemma SplitCons(c: char, t: string, sep: char)
    ensures Split([c] + t, sep) ==
      if c == sep then [""] + Split(t, sep) else Prepend(c, Split(t, sep))
  {
    assert ([c] + t)[0] == c;
    assert ([c] + t)[1..] == t;
  }

  lemma JoinCons(p: string, parts: seq<string>, sep: char)
    requires |parts| >= 1
    ensures Join([p] + parts, sep) == p + [sep] + Join(parts, sep)
  {
    assert ([p] + parts)[1..] == parts;
  }

  lemma JoinPrepend(c: char, parts: seq<string>, sep: char)
    requires |parts| >= 1
    ensures Join(Prepend(c, parts), sep) == [c] + Join(parts, sep)
  {
    var r := Prepend(c, parts);
    if |parts| > 1 {
      assert r[1..] == parts[1..];
      assert Join(r, sep) == ([c] + parts[0]) + [sep] + Join(parts[1..], sep);
    }
  }

  lemma PrependConcat(c: char, a: seq<string>, b: seq<string>)
    requires |a| >= 1
    ensures Prepend(c, a + b) == Prepend(c, a) + b
  {
    assert (a + b)[0] == a[0];
    assert (a + b)[1..] == a[1..] + b;
  }

  /** Splitting cuts at every separator: joining the pieces gives the text back. */
  lemma {:induction false} SplitJoin(s: string, sep: char)
    ensures Join(Split(s, sep), sep) == s
    decreases |s|
  {
    if |s| > 0 {
      var c, t := s[0], s[1..];
      assert s == [c] + t;
      SplitJoin(t, sep);
      SplitCons(c, t, sep);
      if c == sep {
        JoinCons("", Split(t, sep), sep);
      } else {
        JoinPrepend(c, Split(t, sep), sep);
      }
    }
  }

  /** No piece of a split contains the separator. */
  lemma {:induction false} SplitPiecesClean(s: string, sep: char)
    ensures forall k | 0 <= k < |Split(s, sep)| :: sep !in Split(s, sep)[k]
    decreases |s|
  {
    if |s| > 0 {
      var rest := Split(s[1..], sep);
      SplitPiecesClean(s[1..], sep);
      if s[0] != sep {
        var parts := Prepend(s[0], rest);
        assert sep !in rest[0];
        forall k | 0 <= k < |parts| ensures sep !in parts[k] {
          if k > 0 {
            assert parts[k] == rest[k];
          }
        }
      }
    }
  }

  /** The converse: pieces without separators are split back out of their join. */
  lemma {:induction false} JoinSplit(parts: seq<string>, sep: char)
    requires |parts| >= 1
    requires forall k | 0 <= k < |parts| :: sep !in parts[k]
    ensures Split(Join(parts, sep), sep) == parts
    decreases |parts|, |parts[0]|
  {
    var p0 := parts[0];
    if |p0| == 0 {
      if |parts| > 1 {
        var more := parts[1..];
        JoinSplit(more, sep);
        assert parts == [""] + more;
        JoinCons("", more, sep);
        assert Join(parts, sep) == [sep] + Join(more, sep);
        SplitCons(sep, Join(more, sep), sep);
      }
    } else {
      var c := p0[0];
      var tail := [p0[1..]] + parts[1..];
      assert c != sep by { assert c in p0; }
      assert forall k | 1 <= k < |tail| :: tail[k] == parts[k];
      JoinSplit(tail, sep);
      assert [c] + p0[1..] == p0;
      assert Prepend(c, tail) == parts;
      JoinPrepend(c, tail, sep);
      SplitCons(c, Join(tail, sep), sep);
    }
  }

  /** Splitting at a separator cuts the text into the pieces of each side. */
  lemma {:induction false} SplitAroundSep(a: string, b: string, sep: char)
    ensures Split(a + [sep] + b, sep) == Split(a, sep) + Split(b, sep)
    decreases |a|
  {
    if a == [] {
      assert a + [sep] + b == [sep] + b;
      SplitCons(sep, b, sep);
    } else {
      SplitAroundSep(a[1..], b, sep);
      assert a == [a[0]] + a[1..];
      assert a + [sep] + b == [a[0]] + (a[1..] + [sep] + b);
      SplitAroundSepCons(a[0], a[1..], b, sep);
    }
  }

  /** One step of SplitAroundSep: a character in front of the left side. */
  lemma SplitAroundSepCons(c: char, a: string, b: string, sep: char)
    requires Split(a + [sep] + b, sep) == Split(a, sep) + Split(b, sep)
    ensures Split([c] + (a + [sep] + b), sep) == Split([c] + a, sep) + Split(b, sep)
  {
    var left, right := Split(a, sep), Split(b, sep);
    SplitCons(c, a + [sep] + b, sep);
    SplitCons(c, a, sep);
    if c != sep {
      PrependConcat(c, left, right);
    }
  }

  /** The last piece of a split: the text after the last separator. */
  function LastPiece(s: string, sep: char): (r: string)
    ensures sep !in r
  {
    var parts := Split(s, sep);
    SplitPiecesClean(s, sep);
    parts[|parts| - 1]
  }

  /** The text after the last separator of `a + sep + b` is the last piece of `b`. */
  lemma LastPieceAfterSep(a: string, b: string, sep: char)
    requires sep !in b
    ensures LastPiece(a + [sep] + b, sep) == b
  {
    SplitAroundSep(a, b, sep);
    SplitWithoutSep(b, sep);
  }

  /** Lowercasing text without capitals leaves it unchanged. */
  lemma LowerIdentity(s: string)
    requires forall i | 0 <= i < |s| :: !('A' <= s[i] <= 'Z')
    ensures Lower(s) == s
  {
  }

  /** Lowercased text has no capitals. */
  lemma LowerHasNoCapitals(s: string)
    ensures forall i | 0 <= i < |Lower(s)| :: !('A' <= Lower(s)[i] <= 'Z')
  {
  }

  /** Replacing a character that does not occur changes nothing. */
  lemma {:induction false} ReplaceCharAbsent(s: string, c: char, r: string)
    requires c !in s
    ensures ReplaceChar(s, c, r) == s
    decreases |s|
  {
    if s != [] {
      assert s[0] in s;
      assert s == [s[0]] + s[1..];
      ReplaceCharAbsent(s[1..], c, r);
    }
  }

  /** Each character of the result comes from the replacement or is a kept one. */
  lemma {:induction false} ReplaceCharMembers(s: string, c: char, r: string, d: char)
    requires d in ReplaceChar(s, c, r)
    ensures d in r || (d in s && d != c)
    decreases |s|
  {
    if s != [] {
      var head := if s[0] == c then r else [s[0]];
      if d !in head {
        ReplaceCharMembers(s[1..], c, r, d);
        assert s == [s[0]] + s[1..];
      }
    }
  }

  /** Text without the separator splits into itself alone. */
  lemma SplitWithoutSep(s: string, sep: char)
    requires sep !in s
    ensures Split(s, sep) == [s]
  {
    JoinSplit([s], sep);
  }

  /** `s.replace(c, r)` for a one-character pattern. */
  function ReplaceChar(s: string, c: char, r: string): string
    decreases |s|
  {
    if s == [] then []
    else (if s[0] == c then r else [s[0]]) + ReplaceChar(s[1..], c, r)
  }

  lemma {:induction false} ReplaceCharRemoves(s: string, c: char, r: string, d: char)
    requires d !in r && (d == c || d !in s)
    ensures d !in ReplaceChar(s, c, r)
    decreases |s|
  {
    if s != [] {
      ReplaceCharRemoves(s[1..], c, r, d);
      assert d == c || d != s[0] by { assert s[0] in s; }
    }
  }

  /** Replacement works piece by piece. */
  lemma {:induction false} ReplaceCharConcat(s: string, t: string, c: char, r: string)
    ensures ReplaceChar(s + t, c, r) == ReplaceChar(s, c, r) + ReplaceChar(t, c, r)
    decreases |s|
  {
    if s == [] {
      assert s + t == t;
    } else {
      ReplaceCharConcat(s[1..], t, c, r);
      assert (s + t)[0] == s[0] && (s + t)[1..] == s[1..] + t;
      var head := if s[0] == c then r else [s[0]];
      calc {
        ReplaceChar(s + t, c, r);
        head + ReplaceChar(s[1..] + t, c, r);
        head + (ReplaceChar(s[1..], c, r) + ReplaceChar(t, c, r));
        (head + ReplaceChar(s[1..], c, r)) + ReplaceChar(t, c, r);
      }
    }
  }

  /** Lowercasing works piece by piece. */
  lemma LowerConcat(s: string, t: string)
    ensures Lower(s + t) == Lower(s) + Lower(t)
  {
  }

  /** `str(n)` for a natural number. */
  function DecimalString(n: nat): (r: string)
    ensures |r| >= 1
    ensures forall i | 0 <= i < |r| :: '0' <= r[i] <= '9'
  {
    if n < 10 then [('0' as int + n) as char]
    else DecimalString(n / 10) + [('0' as int + n % 10) as char]
  }

  /** Different numbers print differently. */
  lemma {:induction false} DecimalStringInjective(a: nat, b: nat)
    requires DecimalString(a) == DecimalString(b)
    ensures a == b
    decreases a
  {
    var da, db := DecimalString(a), DecimalString(b);
    if a < 10 && b < 10 {
      assert da[0] == db[0];
    } else if a < 10 || b < 10 {
      // one side prints as a single digit, the other as at least two
    } else {
      assert da[..|da| - 1] == DecimalString(a / 10);
      assert db[..|db| - 1] == DecimalString(b / 10);
      DecimalStringInjective(a / 10, b / 10);
      assert da[|da| - 1] == db[|db| - 1];
    }
  }

  /** Where the shorter digit string ends, the longer still has a digit. */
  lemma DigitsThenOther(d: string, s: string, e: string, t: string)
    requires |d| < |e| && |s| >= 1 && !('0' <= s[0] <= '9')
    requires forall i | 0 <= i < |e| :: '0' <= e[i] <= '9'
    ensures d + s != e + t
  {
    assert (d + s)[|d|] == s[0];
    assert (e + t)[|d|] == e[|d|];
  }

  /** A decimal number followed by text starting with a non-digit can be read
      back: the number and the text after it are both determined. */
  lemma DecimalPrefix(a: nat, s: string, b: nat, t: string)
    requires |s| >= 1 && !('0' <= s[0] <= '9')
    requires |t| >= 1 && !('0' <= t[0] <= '9')
    requires DecimalString(a) + s == DecimalString(b) + t
    ensures a == b && s == t
  {
    var da, db := DecimalString(a), DecimalString(b);
    if |da| < |db| {
      DigitsThenOther(da, s, db, t);
    } else if |db| < |da| {
      DigitsThenOther(db, t, da, s);
    } else {
      assert (da + s)[..|da|] == da;
      assert (db + t)[..|db|] == db;
      DecimalStringInjective(a, b);
      assert (da + s)[|da|..] == s;
      assert (db + t)[|db|..] == t;
    }
  }

  /** Python's `str.isspace()` character set (what `\s` and `strip()` use). */
  predicate IsSpace(c: char) {
    var n := c as int;
    (9 <= n <= 13) || (28 <= n <= 32) || n == 0x85 || n == 0xA0 || n == 0x1680
    || (0x2000 <= n <= 0x200A) || n == 0x2028 || n == 0x2029 || n == 0x202F
    || n == 0x205F || n == 0x3000
  }

  function TrimStart(s: string): string
    decreases |s|
  {
    if s != [] && IsSpace(s[0]) then TrimStart(s[1..]) else s
  }

  function TrimEnd(s: string): string
    decreases |s|
  {
    if s != [] && IsSpace(s[|s| - 1]) then TrimEnd(s[..|s| - 1]) else s
  }

  /** `s.strip()`. */
  function Strip(s: string): string {
    TrimEnd(TrimStart(s))
  }
}

=== FILE: wrappers.dfy ===
/** Failure-compatible wrappers used by every module of the model. */
module Wrappers {

  /** Python's `None` / a present value. */
  datatype Option<+T> = None | Some(value: T)

  /** The outcome of a request handler: a value, or the HTTP error it raises. */
  datatype Result<+T, +E> = Ok(value: T) | Err(error: E)
}
